=== FILE: README.md ===
# Police case management: a Dafny model

This project models the police case management application. It has two halves.

The **backend** is an Express server over MongoDB:
- account, case, update-proposal and report records, with their schemas;
- the `userAuth` token check;
- registration and login;
- the case, admin, report and officer routes;
- the public and admin case search;
- the seeder's reader for a MySQL dump, which turns the rows of the user and case tables into records.

The **frontend** is a React app:
- the validators and submit handlers of the add-case, update-case, admin edit, registration, login, public-report and member-report pages;
- the route guards of `App.js`.

Each collection is a `map` from ids to immutable records, and the database is a `Store.Db` of four maps. A request handler is a pure function from the database and the request to a `Store.Step`: the database afterwards and the reply (`Ok(code, value)` or `Fail(code, msg)`). A listing is a method that selects and sorts the matching ids. Several things are parameters:
- token signing and verification, as `verify`, and client-side decoding, as `decode`;
- date parsing, as `dateOf`;
- the search's step to the next local calendar day (`setDate(getDate() + 1)`), as `nextDay`;
- `toISOString`, as `iso`;
- the clock, as `now` and `today`.

A client form is a record of strings, with `""` for an empty or undefined field: every check the pages make treats the two the same. A validator's error object has one `Base.Check` per field: `Pass` for a field with no message, `Error(msg)` otherwise.

Modules follow the source's files:
- `Models` covers the schemas;
- `Store` the database;
- `Auth` the `userAuth` token check and the `/register` and `/login` handlers of `middleware/auth.js`;
- `CaseRoutes`, `AdminRoutes`, `ReportRoutes` and `UserRoutes` the routers;
- `Search` the two search filter builders;
- `Seeder` the seeder;
- `Names` and `Email` the validation patterns the pages share;
- `CaseForms`, `AccountForms` and `ReportForms` the pages;
- `Guards` the routing in `App.js`.

`Text` holds the string functions JavaScript provides, and `Listing` sorted selection.

Some behaviours of the code are worth stating up front, whatever the route names suggest:
- No admin route checks a role. The middleware in front of them, `adminAuth`, is `middleware/auth.js`: a router with only `/register` and `/login` handlers, which lets other paths through. So the admin handlers take no caller.
- Denying an account deletes it in any state.
- Approving a case, or denying it, sets one flag from any state and answers 200 even for a missing id.
- Proposing an edit does not check that the target case exists.
- Approving a proposal whose target is gone still deletes the proposal and answers 200.
- A wrong password or unknown email at login is a 400, not a 401.
- The direct admin edit (`PUT /cases/:id`) `$set`s whatever the body holds, lifecycle flags included, without running validators.

## Model

| member | source | states |
|---|---|---|
| Models.NewUser | backend/models/User.js:4-14 | an account is created exactly when its six strings are present and the police id has at most 8 characters; it starts neither admin nor approved |
| Models.FlagsIndependent | backend/models/Case.js:14-15 | every combination of the approved and removed flags is a valid case |
| Models.FieldsFromBody | backend/models/Case.js:5-13 | a body yields case fields exactly when the required paths are present and valid; the optional texts default to empty |
| Models.NewCase | backend/routes/cases.js:77-78 | a case is saved exactly when the body has its required fields; `isApproved` is the forced value, and `is_removed` is the body's or false |
| Models.NewCaseIgnoresBodyApproval | backend/routes/cases.js:77 | the body's own `isApproved` never influences the created case |
| Models.ApplySet | backend/routes/cases.js:101 | each of the eleven paths, flags included, takes the body's value when the body carries it and keeps the stored value otherwise; an empty body changes nothing |
| Models.ApplySetIdempotent | backend/routes/cases.js:101 | applying the same `$set` twice equals applying it once |
| Models.ApplySetBodyOf | backend/routes/cases.js:101 | writing back a case's full body reproduces that case, whatever the target |
| Models.ApplySetSkipsEnum | backend/routes/cases.js:101 | without validators a `$set` can store a status outside the enum |
| Models.NewProposal | backend/models/UpdateCase.js:4-16 | a proposal needs a target and the required fields; it carries exactly the body's fields, and `requestedAt` defaults to now |
| Models.NewProposalIgnoresFlags | backend/routes/cases.js:89 | lifecycle flags in a proposal body are discarded |
| Models.MergeReplacesFields | backend/routes/admin.js:104-105 | merging a proposal replaces every editable field and keeps both flags |
| Models.NewReport | backend/models/Report.js:4-8 | a report is created exactly when email and text are non-empty; it holds exactly them and the time |
| Models.SortOrdersArePreorders | backend/routes/cases.js:48 | each sort key (case date, request time, report date, fullname) is a total preorder |
| Listing.Insert | backend/routes/admin.js:47 | inserting a key keeps the list sorted and in the map, adds only that key, and keeps it duplicate-free |
| Listing.Select | backend/routes/admin.js:47 | `find(filter).sort(key)` returns each matching id exactly once, in key order |
| Auth.UserAuth | backend/routes/cases.js:9-18 | a missing or empty token is a 401 "No token"; a token the verifier rejects is a 401 "Token is not valid"; otherwise the request proceeds with the token's `user` claim |
| Auth.Register | backend/middleware/auth.js:7-23 | duplicates are checked in the order email, police id, contact, each a 400 with its message; otherwise a pending non-admin account is added with a 201; a refusal changes nothing |
| Auth.RegisterKeepsConsistent | backend/middleware/auth.js:10-17 | registration keeps every account valid and email, police id and contact unique |
| Auth.Login | backend/middleware/auth.js:26-54 | 400 exactly when no account has that email and password; 403 exactly when one does but is unapproved; otherwise a token whose claims are the account's, valid for 3600 seconds |
| CaseRoutes.MyAssigned | backend/routes/cases.js:54-63 | the caller's approved, non-removed cases, by handler name, newest first; auth failures are passed on |
| CaseRoutes.GetCase | backend/routes/cases.js:66-72 | any non-removed case, approved or not, goes to any verified caller; otherwise 404 |
| CaseRoutes.CreateCase | backend/routes/cases.js:75-84 | a verified caller's valid body is stored under the new id, approved exactly when the caller is an admin; anything else leaves the database as it was |
| CaseRoutes.RequestUpdate | backend/routes/cases.js:87-96 | a verified caller's valid proposal is stored, and no case, account or report changes |
| CaseRoutes.PutCase | backend/routes/cases.js:99-110 | a non-removed case gets the body `$set`; otherwise 404 and no change |
| CaseRoutes.SetRemoved | backend/routes/cases.js:113-142 | an existing case gets the given `is_removed` and nothing else changes; a missing id is a 404 with no change |
| CaseRoutes.SoftDelete | backend/routes/cases.js:113-126 | an existing case gets `is_removed` true and nothing else changes; a missing one is a 404 |
| CaseRoutes.Restore | backend/routes/cases.js:129-142 | an existing case gets `is_removed` false and nothing else changes; a missing one is a 404 |
| CaseRoutes.AssignedIsPublic | backend/routes/cases.js:57 | every assigned case passes the public scope filter |
| CaseRoutes.CreateIgnoresBodyApproval | backend/routes/cases.js:77 | a client cannot approve its own case through the body |
| CaseRoutes.SetRemovedIdempotent | backend/routes/cases.js:113-142 | deleting twice is deleting once; the same holds for restoring |
| CaseRoutes.RestoreUndoesDelete | backend/routes/cases.js:113-142 | restore undoes delete, and delete undoes restore, on the whole database |
| CaseRoutes.DeletedIsHidden | backend/routes/cases.js:66-110 | a soft-deleted case gets 404 from the read and the edit route, and restoring makes it readable again |
| CaseRoutes.CreateKeepsConsistent | backend/routes/cases.js:75-84 | creating a case keeps every stored record valid |
| CaseRoutes.RequestUpdateKeepsConsistent | backend/routes/cases.js:87-96 | storing a proposal keeps every stored record valid |
| CaseRoutes.SetRemovedKeepsConsistent | backend/routes/cases.js:113-142 | delete and restore keep every stored record valid |
| CaseRoutes.PutCaseKeepsValidBody | backend/routes/cases.js:101 | an edit whose values are valid keeps the database valid |
| CaseRoutes.PutCaseSkipsValidation | backend/routes/cases.js:101 | an edit can store a status outside the enum, or an empty title |
| AdminRoutes.PendingUsers | backend/routes/admin.js:9-14 | exactly the unapproved accounts, admins included, each once |
| AdminRoutes.ActiveUsers | backend/routes/admin.js:16-21 | exactly the approved non-admin accounts, each once, by fullname |
| AdminRoutes.SetApproval | backend/routes/admin.js:23-35 | only the target's approval flag changes; the reply is 200 either way |
| AdminRoutes.ApproveUser | backend/routes/admin.js:23-28 | the target becomes approved with nothing else changed; 200 even for a missing id |
| AdminRoutes.DisableUser | backend/routes/admin.js:30-35 | the target becomes unapproved with nothing else changed; 200 even for a missing id |
| AdminRoutes.DenyUser | backend/routes/admin.js:37-42 | exactly the target account is deleted, whatever its state |
| AdminRoutes.AllCases | backend/routes/admin.js:45-50 | exactly the non-removed cases, newest first |
| AdminRoutes.PendingCases | backend/routes/admin.js:52-57 | exactly the unapproved, non-removed cases, newest first |
| AdminRoutes.RemovedCases | backend/routes/admin.js:74-79 | exactly the removed cases, newest first |
| AdminRoutes.GetAnyCase | backend/routes/admin.js:82-88 | any stored case, removed ones included; 404 only for a missing id |
| AdminRoutes.ApproveCase | backend/routes/admin.js:59-64 | only the target's `isApproved` becomes true |
| AdminRoutes.DenyCase | backend/routes/admin.js:66-71 | only the target's `is_removed` becomes true; the case is kept |
| AdminRoutes.PendingUpdates | backend/routes/admin.js:91-96 | every proposal once, newest request first |
| AdminRoutes.ApproveUpdate | backend/routes/admin.js:98-109 | 404 exactly for a missing proposal; otherwise the proposal's fields overwrite its target, flags kept, and the proposal is deleted, with no other case touched |
| AdminRoutes.DenyUpdate | backend/routes/admin.js:111-116 | only the proposal is deleted; no case changes |
| AdminRoutes.ApprovalToggles | backend/routes/admin.js:23-35 | approve and disable undo each other on the whole database |
| AdminRoutes.CaseFlagsIndependent | backend/routes/admin.js:59-71 | approve-case and deny-case are each idempotent and commute |
| AdminRoutes.ApproveKeepsRemoved | backend/routes/admin.js:59-64 | approving a removed case leaves it removed |
| AdminRoutes.ApproveUpdateKeepsFlags | backend/routes/admin.js:104-105 | a merged case keeps its approved and removed flags |
| AdminRoutes.SiblingsSurvive | backend/routes/admin.js:104-106 | approving one proposal leaves every other one unchanged, even those for the same case |
| AdminRoutes.LastApprovedWins | backend/routes/admin.js:104-105 | of two proposals for one case approved in turn, the later one's fields remain |
| AdminRoutes.IdentitiesKept | backend/routes/admin.js:23-42 | a store keeping some accounts, with their identities unchanged, keeps them unique |
| AdminRoutes.AccountModerationKeepsConsistent | backend/routes/admin.js:23-42 | approve, disable and deny keep the database valid and accounts unique |
| AdminRoutes.ApprovalKeepsConsistent | backend/routes/admin.js:23-35 | changing an approval flag keeps the database valid |
| AdminRoutes.CaseModerationKeepsConsistent | backend/routes/admin.js:59-71 | approve-case and deny-case keep the database valid |
| AdminRoutes.ReviewKeepsConsistent | backend/routes/admin.js:98-116 | approving or denying a proposal keeps the database valid |
| ReportRoutes.PublicReport | backend/routes/reports.js:20-32 | a report is stored, holding exactly the email, text and time, exactly when both are non-empty; otherwise a 400 with no change |
| ReportRoutes.MemberReport | backend/routes/reports.js:35-49 | the token must verify (401 otherwise); then email, text and a text of at least 50 characters are required, else 400 |
| ReportRoutes.ListReports | backend/routes/reports.js:52-57 | every report once, newest first |
| ReportRoutes.DeleteReport | backend/routes/reports.js:60-65 | only the report is deleted; 200 even when it is missing |
| ReportRoutes.MemberRuleIsStricter | backend/routes/reports.js:23-39 | what the member route stores, the public route stores identically; a short text passes only the public route |
| ReportRoutes.DeleteReportIdempotent | backend/routes/reports.js:60-65 | deleting a report twice is deleting it once |
| UserRoutes.Officers | backend/routes/users.js:6-15 | exactly the approved accounts, admins included, as id and fullname, each once, in fullname order |
| Search.BuildFilter | backend/routes/cases.js:22-46 | no field or no query gives the scope's filter, and so does the field `__proto__`, which only replaces the filter object's prototype; a scope key is kept unless the field names it |
| Search.Extend | backend/routes/cases.js:44 | a key added to a filter adds its condition to the match |
| Search.ScopeSemantics | backend/routes/cases.js:23 | public scope means approved and not removed; admin scope means not removed |
| Search.ResultsStayInScope | backend/routes/cases.js:23-48 | whatever the field, a filter the database accepts never returns a removed case, nor an unapproved one publicly |
| Search.FlagKeyHolds | backend/routes/cases.js:23 | a scope key that survives the field holds on every match |
| Search.PublicApprovalKeyReplaced | backend/routes/cases.js:44 | a public search on "isApproved" replaces the forced key with a pattern that fails to cast |
| Search.RemovedKeyReplaced | backend/routes/admin.js:148 | a search on "is_removed" replaces the forced key, and the filter fails to cast |
| Search.BuildersAgree | backend/routes/admin.js:121-150 | the admin builder is the public one with the admin scope, except for "isApproved" |
| Search.ForAllPathsText | backend/routes/cases.js:26-31 | the `$or` holds exactly when one of the seven text paths matches |
| Search.ForAllSemantics | backend/routes/cases.js:25-31 | "for-all" is the scope plus a case-insensitive match in one of the seven text paths |
| Search.StatusSemantics | backend/routes/cases.js:32-33 | "status" is the scope plus equality with the upper-cased query |
| Search.DateSemantics | backend/routes/cases.js:34-42 | "case_date" casts exactly when the query parses, and then matches the filing times from that instant up to the same time on the next local day (`nextDay`) |
| Search.AdminApprovalSemantics | backend/routes/admin.js:134-135 | admin "isApproved": not removed, and approved exactly when the query is "1" |
| Search.TextPathSemantics | backend/routes/cases.js:43-45 | any other text path is the scope plus a case-insensitive match in that path |
| Search.UnknownFieldMatchesNothing | backend/routes/cases.js:44 | a field outside the schema, other than `__proto__`, casts and matches no case |
| Search.ProtoFieldSearchesScope | backend/routes/cases.js:44 | the field `__proto__` adds no condition: the public search returns every approved live case, the admin search every live case |
| Search.Run | backend/routes/cases.js:47-50 | 500 exactly when the filter does not cast; otherwise exactly the matching cases once, newest first |
| Seeder.Inner | backend/seeder.js:35 | the row minus its two outer characters |
| Seeder.Scan | backend/seeder.js:38-52 | the re-joining loop's pushed values and open string |
| Seeder.ScanLossless | backend/seeder.js:38-52 | the loop loses nothing: values and the open string, joined with commas, give the pieces back |
| Seeder.Values | backend/seeder.js:35-52 | the values the loop pushes for a row, never more than its comma-separated pieces; a string still open at the end is dropped |
| Seeder.RowLossless | backend/seeder.js:35-52 | a row with no open string: its values joined with commas are the row's inside |
| Seeder.ReplaceLeftmost | backend/seeder.js:56 | the global replace turns the leftmost occurrence of the pair into the replacement and resumes after it, so occurrences never overlap |
| Seeder.ReplaceAbsent | backend/seeder.js:56 | a string without the pair comes back unchanged |
| Seeder.StripQuotes | backend/seeder.js:56 | `substring(1, length - 1)`, with the one-character case handled |
| Seeder.Unquote | backend/seeder.js:54-58 | a value that is not quoted comes back trimmed and otherwise unchanged |
| Seeder.ParseInsert | backend/seeder.js:26-60 | no rows give no records; otherwise one value list per row |
| Seeder.ParseRow | backend/seeder.js:33-59 | one value per value the loop produced, each the unquoted form of that loop value, in order |
| Seeder.UnescapeEscape | backend/seeder.js:56 | the two replacements undo the dump's escaping of quotes and backslashes |
| Seeder.UnquoteQuoted | backend/seeder.js:54-57 | unquoting a quoted, escaped string gives the string back |
| Seeder.RowRoundTrip | backend/seeder.js:33-59 | a row of cells the rule can read parses back to exactly those cells' texts, in order |
| Seeder.QuoteCommaSplitsValue | backend/seeder.js:40-46 | the loop as written splits the text `a',b` into two values; counting backslashes reads it whole |
| Seeder.LeadingCommaSplitsValue | backend/seeder.js:40 | the loop as written reads the dumped text `,a` back as the two values `'` and `a'`; the corrected opening test reads it back whole |
| Seeder.UserOfRow | backend/seeder.js:72-76 | a user row becomes an account exactly when its six strings validate; the bits are true exactly for `b'1'` |
| Seeder.CaseOfRow | backend/seeder.js:81-86 | a case row is a case exactly when the required columns validate; the status is upper-cased, the case is never removed, and a short row aborts |
| Seeder.CaseStatusCaseInsensitive | backend/seeder.js:85 | upper-casing the status column first changes nothing |
| Seeder.EscapedNeverCloses | backend/seeder.js:46 | under the corrected closing test an escaped text never closes a value, and adding the closing quote does |
| Seeder.UserOfCells | backend/seeder.js:72-76 | the cells written for a valid account are mapped back to that account |
| Seeder.UserRoundTrip | backend/seeder.js:33-76 | every valid account written into the dump is read back as the same account, with the corrected closing test |
| Text.Trim | frontend/src/pages/AddCasePage.js:55 | `trim` leaves no whitespace at either end, and its result is empty exactly for an all-whitespace string |
| Text.TrimSlice | frontend/src/pages/AddCasePage.js:55 | what `trim` returns is a slice of its input with only whitespace before and after it: it removes whitespace at the ends and nothing else |
| Text.TrimIdempotent | frontend/src/pages/ReportPage.js:39 | trimming twice is trimming once |
| Text.Split | backend/seeder.js:35 | `split` on one character gives at least one piece, none containing the separator |
| Text.Less | frontend/src/pages/AdminUpdateFormPage.js:49 | JavaScript's `<` on strings: the first differing character decides, and a proper prefix is smaller |
| Text.LessIsLexicographic | frontend/src/pages/AdminUpdateFormPage.js:49 | the character-by-character comparison is the lexicographic order: a proper prefix, or a smaller character after a common prefix |
| Text.LessTrichotomy | frontend/src/pages/AdminUpdateFormPage.js:102 | any two date texts are equal or ordered one way |
| Text.UpperIdempotent | frontend/src/pages/RegisterPage.js:36 | upper-casing twice is upper-casing once |
| Names.MatchesNamesList | frontend/src/pages/AddCasePage.js:46 | the names-list pattern, run as a three-state matcher, accepts exactly the comma-separated lists of letter words |
| Names.RunAccepts | frontend/src/pages/AddCasePage.js:46 | what the matcher accepts from each start state, in terms of the comma-separated pieces |
| Names.UpperIsNotApplicable | frontend/src/pages/AddCasePage.js:57 | `toUpperCase() === 'N/A'` holds exactly for the four case spellings of N/A |
| Names.CheckNames | frontend/src/pages/AddCasePage.js:54-59 | passes exactly for N/A or a names list after trimming; a blank value gets the "enter N/A" message, anything else the format message |
| Names.NamesListShape | frontend/src/pages/AddCasePage.js:46 | a names list is never blank and never an N/A spelling |
| Names.CheckNamesCases | frontend/src/pages/AddCasePage.js:56-58 | N/A and a names list pass for separate reasons that never overlap |
| Email.IsEmail | frontend/src/pages/LoginPage.js:20 | the anchored pattern matches exactly the strings with one `@` after something, no whitespace, and a dot inside the part after the `@` |
| Email.AnchoredMatch | frontend/src/pages/LoginPage.js:20 | `^[^\s@]+@[^\s@]+\.[^\s@]+$` matches the whole string: three non-empty runs without whitespace or `@`, around one `@` and a dot |
| Email.LooseMatch | frontend/src/pages/RegisterPage.js:23 | `\S+@\S+\.\S+` matches some slice of the string: non-whitespace runs around an `@` and a later dot |
| Email.EmailCheck | frontend/src/pages/LoginPage.js:17-22 | passes exactly for an anchored match; an empty email gets the "enter" message and any other failure the "valid" message |
| Email.AnchoredIsLoose | frontend/src/pages/RegisterPage.js:23 | whatever the login pattern accepts, the registration pattern accepts |
| Email.LooseIsWeaker | frontend/src/pages/RegisterPage.js:23 | the registration pattern accepts a leading space and a second `@`, which the login pattern refuses |
| CaseForms.FormBody | frontend/src/pages/AddCasePage.js:82 | the posted body carries every form field, the date as the server casts it, and no flags or target |
| CaseForms.AddCaseErrors | frontend/src/pages/AddCasePage.js:44-70 | title of at least 5 and description of at least 20 characters, a type, a date, a handler for an admin, and the names rule on three fields; the status is never checked |
| CaseForms.ResetIsOpened | frontend/src/pages/AddCasePage.js:86-89 | after a submission the form returns to exactly the form the page opened with |
| CaseForms.OpenedAddForm | frontend/src/pages/AddCasePage.js:12-38 | the add form opens empty with status "ACTIVE"; a logged-in non-admin's handler is their own fullname, an admin's is empty |
| CaseForms.AddSubmit | frontend/src/pages/AddCasePage.js:76-89 | nothing is sent unless validation passes; the body is the form with `isApproved` set to the caller's admin flag; with no decoded user the submit throws |
| CaseForms.AddedFormIsStored | frontend/src/pages/AddCasePage.js:82-83 | a form the page sends, with a valid status and date, is stored as typed, approved exactly when the caller is an admin |
| CaseForms.UpdateCaseErrors | frontend/src/pages/UpdateCasePage.js:38-73 | the add rules without the handler, plus a status; a missing title or description is told apart from a short one |
| CaseForms.AdminCaseErrors | frontend/src/pages/AdminUpdateFormPage.js:58-96 | the update page's rules plus a required handler |
| CaseForms.EditRulesImplyAddRules | frontend/src/pages/AdminUpdateFormPage.js:58-96 | a form the admin edit accepts, the add page accepts for any caller; an empty status passes only the add page |
| CaseForms.EditForm | frontend/src/pages/UpdateCasePage.js:25-30 | the form takes the case's fields, with the date as the text before the first `T` of its ISO form |
| CaseForms.DayPart | frontend/src/pages/UpdateCasePage.js:27 | the first piece of a split at `T` has no `T` and is followed by one in the text, when there is one |
| CaseForms.ProposalBody | frontend/src/pages/UpdateCasePage.js:84-85 | the proposal is the form body with `originalCaseId` set, without the flags |
| CaseForms.UpdateSubmit | frontend/src/pages/UpdateCasePage.js:77-86 | nothing is sent unless validation passes, and then the proposal body |
| CaseForms.ProposalCarriesDraft | frontend/src/pages/UpdateCasePage.js:84-86 | a sent draft becomes a proposal for the edited case carrying exactly the form's fields; no case changes and the draft's flags play no part |
| CaseForms.ClampDate | frontend/src/pages/AdminUpdateFormPage.js:47-51 | the typed date never exceeds today as text; a date up to today is kept, and a later one becomes today |
| CaseForms.ClampIdempotent | frontend/src/pages/AdminUpdateFormPage.js:49 | clamping twice is clamping once |
| CaseForms.Put | frontend/src/pages/AdminUpdateFormPage.js:53 | one field is stored and every other one kept |
| CaseForms.AdminInput | frontend/src/pages/AdminUpdateFormPage.js:45-54 | the date input is clamped to today, any other input stored verbatim, and nothing else changes |
| CaseForms.AdminLoad | frontend/src/pages/AdminUpdateFormPage.js:24-26 | the loaded draft holds the case's fields, the date cut to its day, and both of the case's flags |
| CaseForms.AdminEdits | frontend/src/pages/AdminUpdateFormPage.js:45-54 | after a sequence of edits, a field nobody typed into keeps its value, and any other holds the last value typed into it, the date clamped to today |
| CaseForms.EditedDraft | frontend/src/pages/AdminUpdateFormPage.js:24-54 | after loading a case and any edits, the flags are the case's, untouched fields are as loaded, and typed fields hold the last value typed |
| CaseForms.AdminSubmit | frontend/src/pages/AdminUpdateFormPage.js:98-108 | validation first, then a date after today is refused; what is sent is the whole draft, flags included, with a date at most today |
| CaseForms.TypedDateNeverFuture | frontend/src/pages/AdminUpdateFormPage.js:49-104 | a date typed into the form is never refused as future: only one loaded from the case can be |
| CaseForms.AdminSaveStoresDraft | frontend/src/pages/AdminUpdateFormPage.js:108 | saving a live case writes every draft field and both of the draft's flags onto it |
| CaseForms.AdminSaveKeepsLoadedFlags | frontend/src/pages/AdminUpdateFormPage.js:26-108 | whatever the admin types, saving a live case writes the typed fields and resends the flags as loaded: the approval is kept and the case stays live |
| CaseForms.OfficerChoices | frontend/src/pages/AdminUpdateFormPage.js:29-33 | the officer names with the current handler added in front when set and missing; names are never lost or duplicated |
| CaseForms.OfficerChoicesIdempotent | frontend/src/pages/AdminUpdateFormPage.js:31-32 | building the list again from its result changes nothing |
| AccountForms.RegisterErrorsOf | frontend/src/pages/RegisterPage.js:15-30 | fullname of letters and spaces, police id of exactly 8, contact of exactly 10 digits, an unanchored email match, a city, a password of exactly 8, a matching confirmation, each with its message |
| AccountForms.RegisterInput | frontend/src/pages/RegisterPage.js:32-38 | the full name is stored upper-cased and every other field verbatim |
| AccountForms.TypedFullnameIsUpper | frontend/src/pages/RegisterPage.js:36 | however the form is typed, the stored full name stays upper case |
| AccountForms.UpperKeepsNameChars | frontend/src/pages/RegisterPage.js:18 | upper-casing never changes whether the full name passes the letters rule |
| AccountForms.RegisterBodyOmitsConfirm | frontend/src/pages/RegisterPage.js:44 | the confirmation never reaches the server |
| AccountForms.RegisterBody | frontend/src/pages/RegisterPage.js:44 | the posted body carries the form's six account fields unchanged |
| AccountForms.AcceptedFormRegisters | frontend/src/pages/RegisterPage.js:42-45 | against `Auth.Register`, standing in for the register handler: a form the page accepts, with no duplicate, becomes a pending non-admin account with a 201 |
| AccountForms.LoginErrorsOf | frontend/src/pages/LoginPage.js:15-26 | the anchored email check and a required password |
| AccountForms.GetApproval | frontend/src/pages/LoginPage.js:37 | the flag exactly when it is a boolean |
| AccountForms.LoginDecision | frontend/src/pages/LoginPage.js:40-75 | the token is stored exactly when none of the response, the decoded token and the profile reports the account unapproved |
| AccountForms.ClassifyLoginError | frontend/src/pages/LoginPage.js:76-88 | a 403 or an error text mentioning review or approval gives the review alert, anything else "Invalid Email or Password" |
| AccountForms.ErrorText | frontend/src/pages/LoginPage.js:82-83 | the error text is a non-empty `msg` when there is one, otherwise `message`, otherwise empty |
| AccountForms.MentionsReview | frontend/src/pages/LoginPage.js:83-84 | the lower-cased text contains "under review", "not approved", "disabled" or "approval" |
| AccountForms.MentionsReviewIgnoresCase | frontend/src/pages/LoginPage.js:83-84 | the phrase test ignores case: an upper-cased error text is classified like the original |
| AccountForms.CredentialsMsgIsNoReview | frontend/src/pages/LoginPage.js:83-84 | the server's "Invalid credentials" mentions none of the four review phrases |
| AccountForms.LoginPageAgreesWithServer | frontend/src/pages/LoginPage.js:29-88 | against `Auth.Login`, standing in for the login handler: wrong credentials give "Invalid Email or Password", an unapproved account the review alert, and an issued token is stored unless the profile reports the account unapproved |
| ReportForms.PublicTextCheck | frontend/src/pages/PublicReportPage.js:21-22 | passes exactly for a text of at least 50 characters, whitespace counted; empty and short get separate messages |
| ReportForms.PublicReportErrors | frontend/src/pages/PublicReportPage.js:17-26 | the anchored email check and the length rule |
| ReportForms.PublicSubmit | frontend/src/pages/PublicReportPage.js:29-33 | the form data is sent unchanged exactly when both fields pass |
| ReportForms.PublicClientSufficient | frontend/src/pages/PublicReportPage.js:31-33 | what the public page sends, the server stores as exactly that email and text; a short text refused by the page would be accepted by the server |
| ReportForms.LoadSession | frontend/src/pages/ReportPage.js:15-33 | no token leaves the session usable with no email; a token that does not decode, or has no user or email, marks it outdated; otherwise the claim's email is used |
| ReportForms.MemberTextCheck | frontend/src/pages/ReportPage.js:36-47 | passes exactly when the trimmed text has at least 50 characters; blank and short get separate messages |
| ReportForms.MemberSubmit | frontend/src/pages/ReportPage.js:50-61 | an outdated session is refused before validation; a passing text is sent untrimmed with the session's email |
| ReportForms.MemberClientSufficient | frontend/src/pages/ReportPage.js:59-61 | with a genuine token, what the page sends the server stores, as the token's email and the typed text |
| ReportForms.TokenlessMemberIsTurnedAway | frontend/src/pages/ReportPage.js:17-18 | without a token the page still sends a passing text with an empty email, and the server answers 401 |
| ReportForms.MemberTextRuleIsStricter | frontend/src/pages/ReportPage.js:39-43 | the member text rule implies the public one; 50 spaces pass only the public rule |
| Guards.PrivateRoutes | frontend/src/App.js:31 | the member pages open exactly when a non-empty token is stored |
| Guards.AdminRoutes | frontend/src/App.js:33 | admin pages open exactly for a decoded admin claim; a member claim goes home, anything else to login |
| Guards.HomeRoute | frontend/src/App.js:35 | the admin dashboard for an admin claim, the member dashboard for a member claim, login otherwise |
| Guards.Render | frontend/src/App.js:42-69 | a path no route matches renders nothing; a public path renders its page; `/` renders the home route; any other member path is behind the member guard and any admin path behind the admin guard |
| Guards.AdminAreaIsAdminPrefix | frontend/src/App.js:58-68 | a routed path is behind the admin guard exactly when it starts with `/admin/` |
| Guards.AdminPathsUnderStem | frontend/src/App.js:59-68 | each admin route, including `/admin/update-form/:id`, lies under `/admin/` |
| Guards.OthersOutsideAdmin | frontend/src/App.js:43-56 | no public or member route, including `/case/:id`, lies under `/admin/` |
| Guards.PagesByArea | frontend/src/App.js:49-68 | a member's token opens every routed page outside `/admin/`; a routed page under `/admin/` opens exactly for an admin claim |
| Guards.OpenPagesNeedNoToken | frontend/src/App.js:43-46 | the four public pages render without a token, while the member report page `/report` redirects to login |
| Guards.Home | frontend/src/App.js:47-48 | the member guard around the home route changes nothing |
| Guards.HomeAgreesWithAdminGuard | frontend/src/App.js:33-35 | the home page and the admin guard make one decision |
| Guards.AdminAreaWithinMemberArea | frontend/src/App.js:31-33 | every admin page the guard opens, the member guard opens; an undecodable token opens only member pages |
| Guards.UnverifiedAdminTokenPassesGuard | frontend/src/App.js:33 | a token claiming admin opens the admin pages even when the server's verification rejects it with 401 |

## Left out

- Persistence, Express and the network are not modelled. A request is a function call on an immutable database. Races between concurrent requests, such as a delete between the two writes of approve-update, are not modelled.
- Signing, verifying and decoding JWTs are parameters (`verify`, `decode`). The token's expiry is checked only through `verify`.
- Date parsing (`new Date(...)`), `toISOString`, the search's next-day step and the local "today" (`todayStr`) are parameters, because each depends on the server's or browser's timezone. The day window of a date search is therefore as long as the local day: 24 hours in UTC, 23 or 25 across a daylight-saving change.
- Generated ids, `Date.now` and the `requestedAt` default are parameters. The model does not produce ObjectIds.
- Mongoose's `$regex` is modelled as a case-insensitive literal substring match with ASCII case folding. Regular-expression metacharacters in a query are not interpreted.
- `toUpperCase`/`toLowerCase` fold ASCII letters only. Strings are sequences of characters, not UTF-16 code units.
- The `length: 10` option on the contact path is not a Mongoose validator for strings, so it is not enforced. The duplicate `GET /me/assigned` handler is shadowed by the first, and is modelled once.
- Auth.Register / Auth.Login: they model the `/register` and `/login` handlers of `middleware/auth.js`. The app never reaches those handlers: the admin router mounts that file per route as `adminAuth`, where the request path is an admin path. The pages post to `/api/auth/register` and `/api/auth/login`, which `server.js` serves from `./routes/auth`, a file not part of this model. The model assumes that router behaves like `middleware/auth.js`.
- AccountForms.AcceptedFormRegisters: the server side is `Auth.Register`, under the assumption in the line above.
- AccountForms.LoginPageAgreesWithServer: the server side is `Auth.Login`, under the same assumption.
- No route for the `/api/auth/me` profile the login page asks for is visible: `server.js` mounts `./routes/auth`, which is not part of this model. The profile's answer is a parameter that may be absent.
- Seeder I/O is not modelled: reading the file, connecting, `deleteMany` and `insertMany`. The two regular expressions that find the `INSERT` statement and its rows are not modelled either: the row strings are the input.
- Rendering, navigation, alerts other than the login page's, and fetch failures are not modelled.
- The officer lists come from the routes above; the pages' fetching of them is not modelled.
- The admin form's `onCheckboxChange` is not modelled, because no input of the page is bound to it. The flags come from the loaded case and are resent as loaded (`CaseForms.AdminSaveKeepsLoadedFlags`).
- CaseRoutes.PutCase: a date in the body that Mongoose cannot cast makes `findOneAndUpdate` throw, and the route answers 500. The model's body holds only parsed dates, and a date that does not parse is absent, so the model keeps the stored date and answers 200.
- Ids are abstract values, so every id the model sees is well-formed. A `:id` that is not an ObjectId makes Mongoose throw a cast error, and every by-id route answers 500, where the model answers 200 or 404. This covers the case, proposal, account and report routes.
- Search.UnknownFieldMatchesNothing: assumes Mongoose's `strictQuery` is off, its default from version 7 on; the source pins no version. With it on, a path outside the schema is dropped from the filter and the search returns every case in scope.
- Route matching is modelled on the paths exactly as written. React Router's case-insensitive matching and its optional trailing slash are not modelled.
- The case-details, search, pending and listing pages only display what the routes return, so they are not modelled.
- Auth.Login: does not model the claim `id` as the stored ObjectId's string form. The model uses the map key.

## Findings

| source | as written | input that shows it | evidently intended | confidence | as-written member | corrected member |
|---|---|---|---|---|---|---|
| backend/seeder.js:40-46 | a quoted value is taken to end at the first comma-separated piece that ends in a quote, even when that quote is escaped | the text `a',b`, which the dump writes as `'a\',b'` | an escaped quote (one after an odd run of backslashes) does not close the value, so every text is read back whole | not executed | Seeder.QuoteCommaSplitsValue | Seeder.RowRoundTrip |
| backend/seeder.js:40 | a piece opens a quoted value only when it starts with a quote and does not end with one, so the lone opening quote of a text that starts with a comma never opens it | the text `,a`, which the dump writes as `',a'` and which reads back as the two values `'` and `a'` | the opening quote itself does not count as the closing one: a piece opens a value unless the rest after its first quote closes it | not executed | Seeder.LeadingCommaSplitsValue | Seeder.RowRoundTrip |

=== FILE: account_forms.dfy ===
/** The registration and login pages: their validators, the upper-casing of
    the full name as it is typed, the body each sends, the approval checks
    the login page runs on a successful answer, and the alert it picks for a
    refused one. Form fields are strings, "" where nothing was typed. */
module AccountForms {
  import opened Base
  import opened Text
  import opened Models
  import opened Email
  import Auth
  import Store

  // --------------------------------------------------------- registration

  datatype RegisterForm = RegisterForm(
    fullname: string, policeId: string, contact: string,
    email: string, city: string, password: string, confirm: string)

  /** The error object: one check per field. */
  datatype RegisterErrors = RegisterErrors(
    fullname: Check, policeId: Check, contact: Check,
    email: Check, city: Check, password: Check, confirm: Check)

  predicate RegisterClean(e: RegisterErrors) {
    e == RegisterErrors(Pass, Pass, Pass, Pass, Pass, Pass, Pass)
  }

  const PoliceIdLength: nat := 8
  const ContactLength: nat := 10
  const PasswordLength: nat := 8

  const FullnameMissingMsg: string := "Please enter your full name."
  const FullnameLettersMsg: string := "Only alphabets are allowed."
  const PoliceIdMsg: string := "Police ID must be exactly 8 characters."
  const ContactMsg: string := "Contact number must be exactly 10 digits."
  const RegisterEmailMsg: string := "Please enter a valid email address."
  const CityMsg: string := "Please select your city/district."
  const PasswordMsg: string := "Password must be exactly 8 characters long."
  const ConfirmMsg: string := "Passwords do not match."

  /** `/^[a-zA-Z\s]+$/`: one or more letters or whitespace characters. */
  predicate NameChars(s: string) {
    s != [] && forall i | 0 <= i < |s| :: IsLetter(s[i]) || IsSpace(s[i])
  }

  /** `/^\d+$/`. */
  predicate Digits(s: string) {
    s != [] && forall i | 0 <= i < |s| :: IsDigit(s[i])
  }

  /** The registration page's `validate`. */
  function RegisterErrorsOf(f: RegisterForm): (e: RegisterErrors)
    ensures e.fullname.Pass? <==> NameChars(f.fullname)
    ensures f.fullname == "" ==> e.fullname == Error(FullnameMissingMsg)
    ensures f.fullname != "" && !NameChars(f.fullname) ==> e.fullname == Error(FullnameLettersMsg)
    ensures e.policeId == (if |f.policeId| == PoliceIdLength then Pass else Error(PoliceIdMsg))
    ensures e.contact == (if |f.contact| == ContactLength && Digits(f.contact) then Pass else Error(ContactMsg))
    ensures e.email == (if LooseMatch(f.email) then Pass else Error(RegisterEmailMsg))
    ensures e.city == (if f.city != "" then Pass else Error(CityMsg))
    ensures e.password == (if |f.password| == PasswordLength then Pass else Error(PasswordMsg))
    ensures e.confirm == (if f.confirm == f.password then Pass else Error(ConfirmMsg))
  {
    RegisterErrors(
      if f.fullname == "" then Error(FullnameMissingMsg)
      else if !NameChars(f.fullname) then Error(FullnameLettersMsg) else Pass,
      if |f.policeId| == PoliceIdLength then Pass else Error(PoliceIdMsg),
      if |f.contact| == ContactLength && Digits(f.contact) then Pass else Error(ContactMsg),
      if LooseMatch(f.email) then Pass else Error(RegisterEmailMsg),
      if f.city != "" then Pass else Error(CityMsg),
      if |f.password| == PasswordLength then Pass else Error(PasswordMsg),
      if f.confirm == f.password then Pass else Error(ConfirmMsg))
  }

  datatype RegisterField = Fullname | PoliceId | Contact | EmailField | City | Password | Confirm

  /** The registration page's `onChange`: the full name is stored upper-cased,
      every other field verbatim. */
  function RegisterInput(f: RegisterForm, k: RegisterField, value: string): (r: RegisterForm)
    ensures k == Fullname ==> r == f.(fullname := Upper(value))
    ensures k != Fullname ==> r.fullname == f.fullname
    ensures Upper(r.fullname) == r.fullname || r.fullname == f.fullname
  {
    UpperIdempotent(value);
    match k
    case Fullname => f.(fullname := Upper(value))
    case PoliceId => f.(policeId := value)
    case Contact => f.(contact := value)
    case EmailField => f.(email := value)
    case City => f.(city := value)
    case Password => f.(password := value)
    case Confirm => f.(confirm := value)
  }

  /** The inputs typed, in order. */
  function Typed(f: RegisterForm, inputs: seq<(RegisterField, string)>): RegisterForm
    decreases |inputs|
  {
    if inputs == [] then f
    else Typed(RegisterInput(f, inputs[0].0, inputs[0].1), inputs[1..])
  }

  const EmptyRegisterForm: RegisterForm := RegisterForm("", "", "", "", "", "", "")

  /** However the fields are typed, starting from an upper-case full name
      (the empty form's included), the full name stays upper case. */
  lemma {:induction false} TypedFullnameIsUpper(f: RegisterForm, inputs: seq<(RegisterField, string)>)
    requires Upper(f.fullname) == f.fullname
    ensures Upper(Typed(f, inputs).fullname) == Typed(f, inputs).fullname
    decreases |inputs|
  {
    if inputs != [] {
      TypedFullnameIsUpper(RegisterInput(f, inputs[0].0, inputs[0].1), inputs[1..]);
    }
  }

  /** Upper-casing never changes whether the full name passes: ASCII letters
      stay letters and nothing else moves. */
  lemma UpperKeepsNameChars(s: string)
    ensures NameChars(Upper(s)) <==> NameChars(s)
  {
  }

  /** The body sent to `/register`: the six account fields, without the
      confirmation. */
  function RegisterBody(f: RegisterForm): (b: Auth.Registration)
    ensures b.fullname == f.fullname && b.policeId == f.policeId && b.contact == f.contact
    ensures b.email == f.email && b.city == f.city && b.password == f.password
  {
    Auth.Registration(f.fullname, f.policeId, f.contact, f.email, f.city, f.password)
  }

  /** The confirmation never reaches the server. */
  lemma RegisterBodyOmitsConfirm(f: RegisterForm, x: string)
    ensures RegisterBody(f.(confirm := x)) == RegisterBody(f)
  {
  }

  /** A form the page accepts meets every schema rule of an account, so
      `Auth.Register` creates a pending, non-admin account from it unless the
      email, police id or contact is already registered. `Auth.Register`
      stands in for the `/api/auth/register` handler the page posts to. */
  lemma AcceptedFormRegisters(db: Store.Db, newId: Id, f: RegisterForm)
    requires newId !in db.users
    requires RegisterClean(RegisterErrorsOf(f))
    requires !Store.EmailTaken(db.users, f.email) && !Store.PoliceIdTaken(db.users, f.policeId)
    requires !Store.ContactTaken(db.users, f.contact)
    ensures var s := Auth.Register(db, newId, RegisterBody(f));
      && s.reply == Ok(201, Auth.RegisteredMsg)
      && s.db.users == db.users[newId := User(f.fullname, f.policeId, f.contact, f.email, f.city, f.password, false, false)]
  {
    var e := RegisterErrorsOf(f);
    assert e.email == Pass;
    var i, at, dot, j :| 0 <= i <= |f.email| && 0 <= at <= |f.email| && 0 <= dot <= |f.email|
      && 0 <= j <= |f.email| && LooseAt(f.email, i, at, dot, j);
    assert f.fullname != "" && f.email != "";
  }

  // ---------------------------------------------------------------- login

  datatype LoginForm = LoginForm(email: string, password: string)
  datatype LoginErrors = LoginErrors(email: Check, password: Check)

  const PasswordMissingMsg: string := "Please enter your password"

  /** The login page's `validate`. */
  function LoginErrorsOf(f: LoginForm): (e: LoginErrors)
    ensures e.email.Pass? <==> AnchoredMatch(f.email)
    ensures f.email == "" ==> e.email == Error(EmailMissingMsg)
    ensures f.email != "" && !AnchoredMatch(f.email) ==> e.email == Error(EmailInvalidMsg)
    ensures e.password == (if f.password == "" then Error(PasswordMissingMsg) else Pass)
  {
    LoginErrors(EmailCheck(f.email), if f.password == "" then Error(PasswordMissingMsg) else Pass)
  }

  /** What a value's `isApproved` is, as `typeof` sees it. */
  datatype Approval = NotBoolean | Flag(b: bool)

  /** An object the page inspects for an approval flag, with the `user` and
      `data` objects that may be nested in it; None for a nested object that
      is absent. */
  datatype Source = Source(user: Option<Approval>, data: Option<Approval>, own: Approval)

  /** `x.user || x.data || x`: the first of the three that is present. */
  function Pick(x: Source): Approval {
    if x.user.Some? then x.user.value
    else if x.data.Some? then x.data.value
    else x.own
  }

  /** `getApproval`: the flag when it is a boolean, null otherwise. */
  function GetApproval(a: Approval): (r: Option<bool>)
    ensures r.Some? <==> a.Flag?
    ensures r.Some? ==> r.value == a.b
  {
    match a
    case Flag(b) => Some(b)
    case NotBoolean => None
  }

  /** The source reports the account as not approved. */
  predicate ReportsUnapproved(x: Source) {
    GetApproval(Pick(x)) == Some(false)
  }

  datatype LoginOutcome = TokenStored | UnderReview | InvalidLogin

  /** What the page does with a successful answer: the response body, then
      the decoded token (None when decoding throws), then the `/me` profile
      (None when that request fails) are asked in turn; the first that
      reports the account unapproved stops the login with the review alert,
      and otherwise the token is stored. */
  function LoginDecision(res: Source, decoded: Option<Source>, me: Option<Source>): (r: LoginOutcome)
    ensures r != InvalidLogin
    ensures r == TokenStored <==>
      && !ReportsUnapproved(res)
      && (decoded.Some? ==> !ReportsUnapproved(decoded.value))
      && (me.Some? ==> !ReportsUnapproved(me.value))
  {
    if ReportsUnapproved(res) then UnderReview
    else if decoded.Some? && ReportsUnapproved(decoded.value) then UnderReview
    else if me.Some? && ReportsUnapproved(me.value) then UnderReview
    else TokenStored
  }

  const ReviewMsg: string := "Your credentials are under review. If you were an approved user, your ID is disabled. For further information, please submit a report."
  const InvalidLoginMsg: string := "Invalid Email or Password"

  /** `data.msg || data.message || ''`. */
  function ErrorText(msg: Option<string>, message: Option<string>): (t: string)
    ensures msg.Some? && msg.value != "" ==> t == msg.value
    ensures (msg.None? || msg.value == "") ==> t == (if message.Some? then message.value else "")
  {
    if msg.Some? && msg.value != "" then msg.value
    else if message.Some? && message.value != "" then message.value
    else ""
  }

  /** The lower-cased error text mentions a review or approval. */
  predicate MentionsReview(text: string) {
    var t := Lower(text);
    Contains(t, "under review") || Contains(t, "not approved") || Contains(t, "disabled") || Contains(t, "approval")
  }

  /** The phrase test ignores case: an upper-cased error text is classified
      like the original. */
  lemma MentionsReviewIgnoresCase(text: string)
    ensures MentionsReview(Upper(text)) <==> MentionsReview(text)
  {
    LowerUpper(text);
  }

  /** What the page does with a refused login: a 403, or an error text that
      mentions a review or approval, gives the review alert; anything else,
      a missing response included, gives "Invalid Email or Password". */
  function ClassifyLoginError(status: Option<int>, msg: Option<string>, message: Option<string>): (r: LoginOutcome)
    ensures r != TokenStored
    ensures status == Some(403) ==> r == UnderReview
    ensures r == InvalidLogin <==> status != Some(403) && !MentionsReview(ErrorText(msg, message))
  {
    if status == Some(403) then UnderReview
    else if MentionsReview(ErrorText(msg, message)) then UnderReview
    else InvalidLogin
  }

  /** The alert the page shows for an outcome. */
  function Alert(r: LoginOutcome): string {
    match r
    case TokenStored => ""
    case UnderReview => ReviewMsg
    case InvalidLogin => InvalidLoginMsg
  }

  /** A character that is absent from the text rules the needle out. */
  lemma AbsentChar(hay: string, needle: string, c: char)
    requires c in needle && c !in hay
    ensures !Contains(hay, needle)
  {
    var j :| 0 <= j < |needle| && needle[j] == c;
    forall i | 0 <= i <= |hay| - |needle|
      ensures !OccursAt(hay, needle, i)
    {
      assert hay[i + j] != c;
      assert hay[i..i + |needle|][j] == hay[i + j];
    }
  }

  /** A lower-case letter that occurs in neither case in the text does not
      occur in its lower-cased form, and rules out every phrase holding it. */
  lemma AbsentFolded(s: string, needle: string, c: char)
    requires 'a' <= c <= 'z' && c in needle
    requires c !in s && UpperChar(c) !in s
    ensures !Contains(Lower(s), needle)
  {
    forall i | 0 <= i < |s|
      ensures Lower(s)[i] != c
    {
      assert s[i] != c && s[i] != UpperChar(c);
    }
    AbsentChar(Lower(s), needle, c);
  }

  /** The letters of "Invalid credentials" that rule the phrases out. */
  lemma CredentialsLetters(text: string)
    requires text == Auth.InvalidCredentialsMsg
    ensures 'u' !in text && 'U' !in text
    ensures 'p' !in text && 'P' !in text
    ensures 'b' !in text && 'B' !in text
  {
  }

  /** The server's "Invalid credentials" mentions no review: none of the four
      phrases can occur in it. */
  lemma CredentialsMsgIsNoReview(text: string)
    requires text == Auth.InvalidCredentialsMsg
    ensures !MentionsReview(text)
  {
    CredentialsLetters(text);
    assert "under review"[0] == 'u' && "not approved"[5] == 'p';
    assert "disabled"[4] == 'b' && "approval"[1] == 'p';
    AbsentFolded(text, "under review", 'u');
    AbsentFolded(text, "not approved", 'p');
    AbsentFolded(text, "disabled", 'b');
    AbsentFolded(text, "approval", 'p');
  }

  /** What the server's login answer looks like to the page: the body holds
      only the token, and the decoded token's `user` claim has no
      `isApproved`, so neither can report the account unapproved. */
  const TokenBody: Source := Source(None, None, NotBoolean)
  const ClaimsPayload: Source := Source(Some(NotBoolean), None, NotBoolean)

  /** The page against `Auth.Login`, standing in for the `/api/auth/login`
      handler it posts to: wrong credentials give "Invalid
      Email or Password"; an unapproved account gives the review alert
      through the 403; an issued token is stored unless the `/me` profile
      reports the account unapproved. */
  lemma LoginPageAgreesWithServer(users: map<Id, User>, email: string, password: string, now: int,
                                  me: Option<Source>)
    requires Store.UniqueAccounts(users)
    ensures var r := Auth.Login(users, email, password, now);
      && (r.Denied? && r.code == 400 ==>
            Alert(ClassifyLoginError(Some(r.code), Some(r.msg), None)) == InvalidLoginMsg)
      && (r.Denied? && r.code == 403 ==>
            Alert(ClassifyLoginError(Some(r.code), Some(r.msg), None)) == ReviewMsg)
      && (r.Issued? ==>
            (LoginDecision(TokenBody, Some(ClaimsPayload), me) == TokenStored <==>
             me.None? || !ReportsUnapproved(me.value)))
  {
    var r := Auth.Login(users, email, password, now);
    if r.Denied? && r.code == 400 {
      CredentialsMsgIsNoReview(r.msg);
    }
  }
}

=== FILE: admin_routes.dfy ===
/** The admin router: account moderation, case moderation and the review of
    proposed edits. The admin search is `Search.Run` in the `Admin` scope.

    No handler takes a caller: the middleware the source puts in front of
    them is the register/login router, which lets these requests through.
    None of the writes checks the current state, and approve/disable/deny
    and approve-case/deny-case answer 200 whether or not the id exists. */
module AdminRoutes {
  import opened Base
  import opened Models
  import opened Store
  import opened Listing

  const UserApprovedMsg: string := "User approved successfully"
  const UserDisabledMsg: string := "User disabled successfully"
  const UserDeniedMsg: string := "User denied and removed successfully"
  const CaseApprovedMsg: string := "Case approved successfully"
  const CaseDeniedMsg: string := "Case denied and removed successfully"
  const CaseNotFoundMsg: string := "Case not found"
  const UpdateNotFoundMsg: string := "Update request not found"
  const UpdateAppliedMsg: string := "Update approved and applied successfully!"
  const UpdateDeniedMsg: string := "Update request denied and removed."

  /** The order of a `find` without `sort`: any. */
  predicate Unsorted<V>(a: V, b: V) {
    true
  }

  // ----------------------------------------------------------- accounts

  /** `GET /pending-users`: every account not yet approved, admins
      included, each once, in no particular order. */
  method PendingUsers(users: map<Id, User>) returns (r: Reply<seq<Id>>)
    ensures r.Ok? && r.code == 200 && Distinct(r.value) && InDomain(users, r.value)
    ensures forall id :: id in r.value <==> id in users && !users[id].isApproved
  {
    var ids := Select(users, (u: User) => !u.isApproved, Unsorted);
    return Ok(200, ids);
  }

  /** `GET /active-users`: the approved non-admin accounts, by fullname
      ascending. */
  method ActiveUsers(users: map<Id, User>) returns (r: Reply<seq<Id>>)
    ensures r.Ok? && r.code == 200 && Distinct(r.value) && InDomain(users, r.value)
    ensures forall id :: id in r.value <==> id in users && users[id].isApproved && !users[id].isAdmin
    ensures Ordered(users, ByFullname, r.value)
  {
    SortOrdersArePreorders();
    var ids := Select(users, (u: User) => u.isApproved && !u.isAdmin, ByFullname);
    return Ok(200, ids);
  }

  /** Sets the approval flag of an existing account; a missing id changes
      nothing. The reply is 200 `msg` either way. */
  function SetApproval(db: Db, id: Id, approved: bool, msg: string): (s: Step<string>)
    ensures s.reply == Ok(200, msg)
    ensures s.db.cases == db.cases && s.db.updates == db.updates && s.db.reports == db.reports
    ensures s.db.users.Keys == db.users.Keys
    ensures forall k | k in db.users && k != id :: s.db.users[k] == db.users[k]
    ensures id in db.users ==> s.db.users[id] == db.users[id].(isApproved := approved)
  {
    if id in db.users then
      Step(db.(users := db.users[id := db.users[id].(isApproved := approved)]), Ok(200, msg))
    else Step(db, Ok(200, msg))
  }

  /** `PUT /approve-user/:id`, from any state. */
  function ApproveUser(db: Db, id: Id): (s: Step<string>)
    ensures s.reply == Ok(200, UserApprovedMsg)
    ensures s.db.cases == db.cases && s.db.updates == db.updates && s.db.reports == db.reports
    ensures s.db.users.Keys == db.users.Keys
    ensures forall k | k in db.users && k != id :: s.db.users[k] == db.users[k]
    ensures id in db.users ==> s.db.users[id].isApproved && s.db.users[id] == db.users[id].(isApproved := s.db.users[id].isApproved)
  {
    SetApproval(db, id, true, UserApprovedMsg)
  }

  /** `PUT /disable-user/:id`, from any state; admins included. */
  function DisableUser(db: Db, id: Id): (s: Step<string>)
    ensures s.reply == Ok(200, UserDisabledMsg)
    ensures s.db.cases == db.cases && s.db.updates == db.updates && s.db.reports == db.reports
    ensures s.db.users.Keys == db.users.Keys
    ensures forall k | k in db.users && k != id :: s.db.users[k] == db.users[k]
    ensures id in db.users ==> !s.db.users[id].isApproved && s.db.users[id] == db.users[id].(isApproved := s.db.users[id].isApproved)
  {
    SetApproval(db, id, false, UserDisabledMsg)
  }

  /** `DELETE /deny-user/:id`: deletes the account whatever its state; the
      cases it handles keep its name. */
  function DenyUser(db: Db, id: Id): (s: Step<string>)
    ensures s.reply == Ok(200, UserDeniedMsg)
    ensures s.db.users.Keys == db.users.Keys - {id}
    ensures forall k | k in s.db.users :: s.db.users[k] == db.users[k]
    ensures s.db.cases == db.cases && s.db.updates == db.updates && s.db.reports == db.reports
  {
    Step(db.(users := db.users - {id}), Ok(200, UserDeniedMsg))
  }

  // -------------------------------------------------------------- cases

  /** `GET /all-cases`: every non-removed case, approved or not, newest first. */
  method AllCases(cases: map<Id, Case>) returns (r: Reply<seq<Id>>)
    ensures r.Ok? && r.code == 200 && Distinct(r.value) && InDomain(cases, r.value)
    ensures forall id :: id in r.value <==> id in cases && !cases[id].isRemoved
    ensures Ordered(cases, NewestCaseFirst, r.value)
  {
    SortOrdersArePreorders();
    var ids := Select(cases, (c: Case) => !c.isRemoved, NewestCaseFirst);
    return Ok(200, ids);
  }

  /** `GET /pending-cases`: the unapproved, non-removed cases, newest first. */
  method PendingCases(cases: map<Id, Case>) returns (r: Reply<seq<Id>>)
    ensures r.Ok? && r.code == 200 && Distinct(r.value) && InDomain(cases, r.value)
    ensures forall id :: id in r.value <==> id in cases && !cases[id].isApproved && !cases[id].isRemoved
    ensures Ordered(cases, NewestCaseFirst, r.value)
  {
    SortOrdersArePreorders();
    var ids := Select(cases, (c: Case) => !c.isApproved && !c.isRemoved, NewestCaseFirst);
    return Ok(200, ids);
  }

  /** `GET /removed-cases`: the removed cases, approved or not, newest first. */
  method RemovedCases(cases: map<Id, Case>) returns (r: Reply<seq<Id>>)
    ensures r.Ok? && r.code == 200 && Distinct(r.value) && InDomain(cases, r.value)
    ensures forall id :: id in r.value <==> id in cases && cases[id].isRemoved
    ensures Ordered(cases, NewestCaseFirst, r.value)
  {
    SortOrdersArePreorders();
    var ids := Select(cases, (c: Case) => c.isRemoved, NewestCaseFirst);
    return Ok(200, ids);
  }

  /** `GET /case/:id`: any stored case, removed ones included; 404 only for
      a missing id. */
  function GetAnyCase(cases: map<Id, Case>, id: Id): (r: Reply<Case>)
    ensures r.Ok? <==> id in cases
    ensures r.Ok? ==> r == Ok(200, cases[id])
    ensures r.Fail? ==> r == Fail(404, CaseNotFoundMsg)
  {
    if id in cases then Ok(200, cases[id]) else Fail(404, CaseNotFoundMsg)
  }

  /** `PUT /approve-case/:id`: sets only `isApproved`, from any state; a
      missing id changes nothing. */
  function ApproveCase(db: Db, id: Id): (s: Step<string>)
    ensures s.reply == Ok(200, CaseApprovedMsg)
    ensures s.db.users == db.users && s.db.updates == db.updates && s.db.reports == db.reports
    ensures s.db.cases.Keys == db.cases.Keys
    ensures forall k | k in db.cases && k != id :: s.db.cases[k] == db.cases[k]
    ensures id in db.cases ==> s.db.cases[id] == db.cases[id].(isApproved := true)
  {
    if id in db.cases then
      Step(db.(cases := db.cases[id := db.cases[id].(isApproved := true)]), Ok(200, CaseApprovedMsg))
    else Step(db, Ok(200, CaseApprovedMsg))
  }

  /** `DELETE /deny-case/:id`: a soft removal that sets only `is_removed`;
      nothing is deleted and a missing id changes nothing. */
  function DenyCase(db: Db, id: Id): (s: Step<string>)
    ensures s.reply == Ok(200, CaseDeniedMsg)
    ensures s.db.users == db.users && s.db.updates == db.updates && s.db.reports == db.reports
    ensures s.db.cases.Keys == db.cases.Keys
    ensures forall k | k in db.cases && k != id :: s.db.cases[k] == db.cases[k]
    ensures id in db.cases ==> s.db.cases[id] == db.cases[id].(isRemoved := true)
  {
    if id in db.cases then
      Step(db.(cases := db.cases[id := db.cases[id].(isRemoved := true)]), Ok(200, CaseDeniedMsg))
    else Step(db, Ok(200, CaseDeniedMsg))
  }

  // ---------------------------------------------------------- proposals

  /** `GET /pending-updates`: every stored proposal, newest request first. */
  method PendingUpdates(updates: map<Id, Proposal>) returns (r: Reply<seq<Id>>)
    ensures r.Ok? && r.code == 200 && Distinct(r.value) && InDomain(updates, r.value)
    ensures forall id :: id in r.value <==> id in updates
    ensures Ordered(updates, NewestProposalFirst, r.value)
  {
    SortOrdersArePreorders();
    var ids := Select(updates, (p: Proposal) => true, NewestProposalFirst);
    return Ok(200, ids);
  }

  /** `PUT /approve-update/:updateId`: 404 for a missing proposal. Otherwise
      the proposal's fields are `$set` on its target case when that case
      exists (removed or not), the proposal is deleted, and the reply is 200
      even when the target no longer exists. */
  function ApproveUpdate(db: Db, uid: Id): (s: Step<string>)
    ensures s.reply.Fail? <==> uid !in db.updates
    ensures s.reply.Fail? ==> s == Step(db, Fail(404, UpdateNotFoundMsg))
    ensures s.reply.Ok? ==>
      && s.reply == Ok(200, UpdateAppliedMsg)
      && s.db.users == db.users && s.db.reports == db.reports
      && s.db.updates == db.updates - {uid}
      && s.db.cases.Keys == db.cases.Keys
      && var p := db.updates[uid];
      && (forall k | k in db.cases && k != p.target :: s.db.cases[k] == db.cases[k])
      && (p.target in db.cases ==>
            s.db.cases[p.target] == Case(p.fields, db.cases[p.target].isApproved, db.cases[p.target].isRemoved))
  {
    if uid !in db.updates then Step(db, Fail(404, UpdateNotFoundMsg))
    else
      var p := db.updates[uid];
      MergeReplacesFields(if p.target in db.cases then db.cases[p.target] else Case(p.fields, false, false), p);
      var cases := if p.target in db.cases
        then db.cases[p.target := ApplySet(db.cases[p.target], MergeBody(p))]
        else db.cases;
      Step(db.(cases := cases, updates := db.updates - {uid}), Ok(200, UpdateAppliedMsg))
  }

  /** `DELETE /deny-update/:updateId`: deletes the proposal (if any) and
      changes no case. */
  function DenyUpdate(db: Db, uid: Id): (s: Step<string>)
    ensures s.reply == Ok(200, UpdateDeniedMsg)
    ensures s.db.updates.Keys == db.updates.Keys - {uid}
    ensures forall k | k in s.db.updates :: s.db.updates[k] == db.updates[k]
    ensures s.db.users == db.users && s.db.cases == db.cases && s.db.reports == db.reports
  {
    Step(db.(updates := db.updates - {uid}), Ok(200, UpdateDeniedMsg))
  }

  // ------------------------------------------------------------- lemmas

  /** Approving and disabling an account only toggle its approval:
      disabling undoes approving and approving undoes disabling. */
  lemma ApprovalToggles(db: Db, id: Id)
    requires id in db.users
    ensures !db.users[id].isApproved ==> DisableUser(ApproveUser(db, id).db, id).db == db
    ensures db.users[id].isApproved ==> ApproveUser(DisableUser(db, id).db, id).db == db
  {
    var u := db.users[id];
    assert u.(isApproved := !u.isApproved).(isApproved := u.isApproved) == u;
    assert db.users[id := u] == db.users;
  }

  /** Approve-case and deny-case are idempotent and commute: the two flags
      are independent. */
  lemma CaseFlagsIndependent(db: Db, id: Id)
    ensures ApproveCase(ApproveCase(db, id).db, id).db == ApproveCase(db, id).db
    ensures DenyCase(DenyCase(db, id).db, id).db == DenyCase(db, id).db
    ensures ApproveCase(DenyCase(db, id).db, id).db == DenyCase(ApproveCase(db, id).db, id).db
  {
    if id in db.cases {
      var c := db.cases[id];
      assert c.(isRemoved := true).(isApproved := true) == c.(isApproved := true).(isRemoved := true);
    }
  }

  /** Approving a removed case does not bring it back. */
  lemma ApproveKeepsRemoved(db: Db, id: Id)
    requires id in db.cases && db.cases[id].isRemoved
    ensures ApproveCase(db, id).db.cases[id].isRemoved
  {
  }

  /** Merging a proposal keeps the target's lifecycle flags. */
  lemma ApproveUpdateKeepsFlags(db: Db, uid: Id)
    requires uid in db.updates && db.updates[uid].target in db.cases
    ensures var t := db.updates[uid].target;
      && ApproveUpdate(db, uid).db.cases[t].isApproved == db.cases[t].isApproved
      && ApproveUpdate(db, uid).db.cases[t].isRemoved == db.cases[t].isRemoved
      && ApproveUpdate(db, uid).db.cases[t].fields == db.updates[uid].fields
  {
  }

  /** Approving one proposal leaves every other proposal in place, those
      for the same case included. */
  lemma SiblingsSurvive(db: Db, uid: Id, other: Id)
    requires uid in db.updates && other in db.updates && other != uid
    ensures other in ApproveUpdate(db, uid).db.updates
    ensures ApproveUpdate(db, uid).db.updates[other] == db.updates[other]
  {
  }

  /** Two proposals for the same case approved one after the other: the
      later approval wins every field, whichever was proposed first. */
  lemma LastApprovedWins(db: Db, u1: Id, u2: Id)
    requires u1 in db.updates && u2 in db.updates && u1 != u2
    requires db.updates[u1].target == db.updates[u2].target
    requires db.updates[u1].target in db.cases
    ensures var t := db.updates[u1].target;
      var after := ApproveUpdate(ApproveUpdate(db, u1).db, u2).db;
      && t in after.cases
      && after.cases[t] == Case(db.updates[u2].fields, db.cases[t].isApproved, db.cases[t].isRemoved)
      && after.updates == db.updates - {u1, u2}
  {
    var s1 := ApproveUpdate(db, u1);
    assert s1.db.updates[u2] == db.updates[u2];
  }

  /** An account store that keeps some of the accounts, each with its
      email, police id and contact, keeps the indexes unique. */
  lemma IdentitiesKept(users: map<Id, User>, after: map<Id, User>)
    requires UniqueAccounts(users) && after.Keys <= users.Keys
    requires forall k | k in after ::
      && after[k].email == users[k].email
      && after[k].policeId == users[k].policeId
      && after[k].contact == users[k].contact
    ensures UniqueAccounts(after)
  {
  }

  /** Account moderation keeps every stored document valid and the account
      indexes unique. */
  lemma AccountModerationKeepsConsistent(db: Db, id: Id)
    requires Consistent(db)
    ensures Consistent(ApproveUser(db, id).db)
    ensures Consistent(DisableUser(db, id).db)
    ensures Consistent(DenyUser(db, id).db)
  {
    ApprovalKeepsConsistent(db, id, true, UserApprovedMsg);
    ApprovalKeepsConsistent(db, id, false, UserDisabledMsg);
    IdentitiesKept(db.users, DenyUser(db, id).db.users);
  }

  lemma ApprovalKeepsConsistent(db: Db, id: Id, approved: bool, msg: string)
    requires Consistent(db)
    ensures Consistent(SetApproval(db, id, approved, msg).db)
  {
    IdentitiesKept(db.users, SetApproval(db, id, approved, msg).db.users);
  }

  /** Case moderation keeps every stored document valid. */
  lemma CaseModerationKeepsConsistent(db: Db, id: Id)
    requires Consistent(db)
    ensures Consistent(ApproveCase(db, id).db)
    ensures Consistent(DenyCase(db, id).db)
  {
  }

  /** Reviewing proposals keeps every stored document valid: a merged case
      takes the proposal's fields, which satisfied the schema when saved. */
  lemma ReviewKeepsConsistent(db: Db, uid: Id)
    requires Consistent(db)
    ensures Consistent(ApproveUpdate(db, uid).db)
    ensures Consistent(DenyUpdate(db, uid).db)
  {
    var s := ApproveUpdate(db, uid);
    if uid in db.updates {
      var p := db.updates[uid];
      assert ValidProposal(p);
      forall k | k in s.db.cases
        ensures ValidFields(s.db.cases[k].fields)
      {
        if k != p.target {
          assert s.db.cases[k] == db.cases[k];
        }
      }
    }
  }
}

=== FILE: auth.dfy ===
/** Access control: the `userAuth` token check the case and report routes
    run, and the `/register` and `/login` handlers of `middleware/auth.js`.
    The admin router mounts that file per route as its `adminAuth`, where
    these two handlers are never reached; the pages' `/api/auth` prefix is
    served by `routes/auth.js`, which is not part of this model, and these
    handlers stand in for it.

    Signing and verifying tokens is a library's job and is not modelled:
    verification is a parameter `verify` from a token string to its payload,
    None when the library throws (bad signature, malformed, expired). */
module Auth {
  import opened Base
  import opened Models
  import opened Store

  /** The `user` claim a login issues. */
  datatype Claims = Claims(id: Id, fullname: string, isAdmin: bool, email: string)

  /** A verified payload: the `user` claim (absent for a token signed with
      another shape), issue time and expiry, in seconds. */
  datatype Payload = Payload(user: Option<Claims>, iat: int, exp: int)

  /** `expiresIn: 3600`. */
  const TokenLifetime: int := 3600

  const NoTokenMsg: string := "No token, authorization denied"
  const BadTokenMsg: string := "Token is not valid"

  /** `userAuth`: a missing or empty `x-auth-token` header is refused with
      "No token", a token the library rejects with "Token is not valid",
      both 401; otherwise the request proceeds with `req.user` set to the
      payload's `user` claim. The account store is never consulted. */
  function UserAuth(token: Option<string>, verify: string -> Option<Payload>): (r: Reply<Option<Claims>>)
    ensures r.Fail? ==> r.code == 401
    ensures token.None? || token.value == "" ==> r == Fail(401, NoTokenMsg)
    ensures token.Some? && token.value != "" ==>
      (r.Ok? <==> verify(token.value).Some?)
      && (r.Fail? ==> r.msg == BadTokenMsg)
      && (r.Ok? ==> r.value == verify(token.value).value.user)
  {
    if token.None? || token.value == "" then Fail(401, NoTokenMsg)
    else match verify(token.value)
      case None => Fail(401, BadTokenMsg)
      case Some(p) => Ok(200, p.user)
  }

  // ------------------------------------------------------------ register

  const EmailExistsMsg: string := "User with this email already exists"
  const PoliceIdExistsMsg: string := "This Police ID is already registered"
  const ContactExistsMsg: string := "This contact number is already registered"
  const RegisteredMsg: string := "Registration successful. Awaiting admin approval."

  /** The six fields `/register` destructures from the body; nothing else of
      the body reaches the new account. */
  datatype Registration = Registration(
    fullname: string, policeId: string, contact: string,
    email: string, city: string, password: string)

  function AccountOf(r: Registration): Option<User> {
    NewUser(r.fullname, r.policeId, r.contact, r.email, r.city, r.password)
  }

  /** `POST /register`: the email, police-id and contact lookups run in that
      order and the first conflict is reported with 400; then the account is
      saved pending and non-admin (201), or validation fails (500). Every
      refusal leaves the database as it was. */
  function Register(db: Db, newId: Id, r: Registration): (s: Step<string>)
    requires newId !in db.users
    ensures EmailTaken(db.users, r.email) ==> s == Step(db, Fail(400, EmailExistsMsg))
    ensures !EmailTaken(db.users, r.email) && PoliceIdTaken(db.users, r.policeId) ==>
      s == Step(db, Fail(400, PoliceIdExistsMsg))
    ensures (!EmailTaken(db.users, r.email) && !PoliceIdTaken(db.users, r.policeId)
             && ContactTaken(db.users, r.contact)) ==> s == Step(db, Fail(400, ContactExistsMsg))
    ensures s.reply.Ok? <==>
      && !EmailTaken(db.users, r.email) && !PoliceIdTaken(db.users, r.policeId)
      && !ContactTaken(db.users, r.contact) && AccountOf(r).Some?
    ensures s.reply.Fail? ==> s.db == db
    ensures s.reply.Ok? ==>
      && s.reply == Ok(201, RegisteredMsg)
      && s.db == db.(users := db.users[newId := AccountOf(r).value])
      && !s.db.users[newId].isApproved && !s.db.users[newId].isAdmin
  {
    if EmailTaken(db.users, r.email) then Step(db, Fail(400, EmailExistsMsg))
    else if PoliceIdTaken(db.users, r.policeId) then Step(db, Fail(400, PoliceIdExistsMsg))
    else if ContactTaken(db.users, r.contact) then Step(db, Fail(400, ContactExistsMsg))
    else match AccountOf(r)
      case None => Step(db, Fail(500, ServerError))
      case Some(u) => Step(db.(users := db.users[newId := u]), Ok(201, RegisteredMsg))
  }

  /** Registration keeps every stored document valid and the email, police id
      and contact unique. */
  lemma RegisterKeepsConsistent(db: Db, newId: Id, r: Registration)
    requires newId !in db.users && Consistent(db)
    ensures Consistent(Register(db, newId, r).db)
  {
    var s := Register(db, newId, r);
    if s.reply.Ok? {
      var users := s.db.users;
      forall a, b | a in users && b in users && a != b
        ensures users[a].email != users[b].email
        ensures users[a].policeId != users[b].policeId
        ensures users[a].contact != users[b].contact
      {
        if a == newId {
          assert users[b] == db.users[b];
        } else if b == newId {
          assert users[a] == db.users[a];
        }
      }
    }
  }

  // --------------------------------------------------------------- login

  const InvalidCredentialsMsg: string := "Invalid credentials"
  const NotApprovedMsg: string := "Your account has not been approved by an admin yet."

  /** The outcome of `/login`: a signed payload, or a refusal. */
  datatype LoginResult = Issued(payload: Payload) | Denied(code: int, msg: string)

  /** The password matches the stored one verbatim. */
  predicate CredentialsMatch(users: map<Id, User>, email: string, password: string) {
    exists id | id in users :: users[id].email == email && users[id].password == password
  }

  /** The credentials match an approved account. */
  predicate CanLogIn(users: map<Id, User>, email: string, password: string) {
    exists id | id in users ::
      users[id].email == email && users[id].password == password && users[id].isApproved
  }

  /** `POST /login` at time `now` (seconds). The account is found by email
      (unique, by the index); an unknown email and a wrong password both give
      400 "Invalid credentials"; only after that does an unapproved account
      give 403; otherwise the payload carries exactly the id, fullname, admin
      flag and email of the account, and expires an hour after issue. */
  function Login(users: map<Id, User>, email: string, password: string, now: int): (r: LoginResult)
    requires UniqueAccounts(users)
    ensures r.Denied? && r.code == 400 <==> !CredentialsMatch(users, email, password)
    ensures r.Denied? && r.code == 403 <==>
      CredentialsMatch(users, email, password) && !CanLogIn(users, email, password)
    ensures r.Denied? ==> r.code == 400 || r.code == 403
    ensures r.Issued? <==> CanLogIn(users, email, password)
    ensures r.Denied? && r.code == 400 ==> r.msg == InvalidCredentialsMsg
    ensures r.Issued? ==>
      && r.payload.user.Some?
      && var c := r.payload.user.value;
      && c.id in users && users[c.id].email == email
      && c == Claims(c.id, users[c.id].fullname, users[c.id].isAdmin, users[c.id].email)
      && r.payload.exp == r.payload.iat + TokenLifetime
  {
    if !EmailTaken(users, email) then Denied(400, InvalidCredentialsMsg)
    else
      var id :| id in users && users[id].email == email;
      var u := users[id];
      if password != u.password then Denied(400, InvalidCredentialsMsg)
      else if !u.isApproved then Denied(403, NotApprovedMsg)
      else Issued(Payload(Some(Claims(id, u.fullname, u.isAdmin, u.email)), now, now + TokenLifetime))
  }
}

=== FILE: base.dfy ===
/** Shared vocabulary of the model: optional values, identifiers, timestamps
    and the status-plus-body replies every route handler produces. */
module Base {

  /** A value that may be absent: JSON `undefined`, a missing document,
      a failed decode. */
  datatype Option<T> = None | Some(value: T) {

    /** The carried value, or `d` when absent (the `x || d` idiom). */
    function GetOr(d: T): T {
      if Some? then value else d
    }
  }

  /** A document identifier (a MongoDB ObjectId in its string form). */
  type Id = string

  /** A point in time as a JavaScript Date holds it: milliseconds since the epoch. */
  type Timestamp = int

  /** An HTTP reply: a success status with a JSON value, or a failure
      status with the `msg` text the handler sends. */
  datatype Reply<T> = Ok(code: int, value: T) | Fail(code: int, msg: string)

  /** The outcome of one client-side field check: the pages record an empty
      string for a field that passed and a message for one that did not. */
  datatype Check = Pass | Error(msg: string)

  /** The body every handler's catch block sends with status 500. */
  const ServerError: string := "Server Error"
}

=== FILE: case_forms.dfy ===
/** The three case forms of the client: adding a case, proposing an edit to
    a case one handles, and the admin's edit form. Their validators, the
    handler preset, the date clamp, the officer list, and the bodies they
    send to the case routes.

    Every form field is a string, "" where the form holds nothing: each
    check the pages make (`!x`, `(x || '').length`) treats an undefined field
    and an empty one alike. The date field holds the `YYYY-MM-DD` text of a
    date input; the server turns it into a Date, which is the parameter
    `dateOf` here (None when the text does not cast). */
module CaseForms {
  import opened Base
  import opened Text
  import opened Models
  import opened Names
  import Auth
  import Store
  import CaseRoutes
  import Listing

  /** The editable fields of a case as the form holds them. */
  datatype CaseForm = CaseForm(
    title: string,
    caseType: string,
    description: string,
    suspects: string,
    victim: string,
    guiltyName: string,
    date: string,
    status: string,
    handler: string)

  /** The error object a validator records: one check per field. */
  datatype CaseErrors = CaseErrors(
    title: Check,
    caseType: Check,
    description: Check,
    suspects: Check,
    victim: Check,
    guiltyName: Check,
    date: Check,
    status: Check,
    handler: Check)

  /** No error was recorded: the object has no keys, or only empty values. */
  predicate Clean(e: CaseErrors) {
    e == CaseErrors(Pass, Pass, Pass, Pass, Pass, Pass, Pass, Pass, Pass)
  }

  const MinTitleLength: nat := 5
  const MinDescriptionLength: nat := 20

  /** The body a form sends: every field of the form, the date as the server
      casts it, and no flags, target or request time. */
  function FormBody(f: CaseForm, dateOf: string -> Option<Timestamp>): (b: CaseBody)
    ensures b.isApproved.None? && b.isRemoved.None? && b.originalCaseId.None? && b.requestedAt.None?
    ensures b.date == dateOf(f.date)
    ensures b.title == Some(f.title) && b.caseType == Some(f.caseType)
    ensures b.description == Some(f.description) && b.suspects == Some(f.suspects)
    ensures b.victim == Some(f.victim) && b.guiltyName == Some(f.guiltyName)
    ensures b.handler == Some(f.handler) && b.status == Some(f.status)
  {
    CaseBody(Some(f.title), Some(f.caseType), Some(f.description), Some(f.suspects),
             Some(f.victim), Some(f.guiltyName), dateOf(f.date), Some(f.handler), Some(f.status),
             None, None, None, None)
  }

  /** The fields a saved case gets from a form whose date casts. */
  function FieldsOf(f: CaseForm, date: Timestamp): CaseFields {
    CaseFields(f.title, f.caseType, f.description, f.suspects, f.victim, f.guiltyName,
               date, f.handler, f.status)
  }

  // ------------------------------------------------------------- add page

  const AddTitleMsg: string := "Title must be at least 5 characters."
  const AddTypeMsg: string := "Please select a case type."
  const AddDescriptionMsg: string := "Description must be at least 20 characters."
  const AddDateMsg: string := "Case date is required."
  const AddHandlerMsg: string := "Please select a case handler."

  /** The decoded `user` claim belongs to an admin. */
  predicate IsAdmin(caller: Option<Auth.Claims>) {
    caller.Some? && caller.value.isAdmin
  }

  /** The add page's `validate`: title of at least 5 characters, a type, a
      description of at least 20, a date, a handler when the caller is an
      admin, and the three names fields; the status is not checked. */
  function AddCaseErrors(f: CaseForm, caller: Option<Auth.Claims>): (e: CaseErrors)
    ensures e.title == (if |f.title| < MinTitleLength then Error(AddTitleMsg) else Pass)
    ensures e.caseType == (if f.caseType == "" then Error(AddTypeMsg) else Pass)
    ensures e.description == (if |f.description| < MinDescriptionLength then Error(AddDescriptionMsg) else Pass)
    ensures e.date == (if f.date == "" then Error(AddDateMsg) else Pass)
    ensures e.handler == (if IsAdmin(caller) && f.handler == "" then Error(AddHandlerMsg) else Pass)
    ensures e.suspects.Pass? <==> NamesAccepted(f.suspects)
    ensures e.victim.Pass? <==> NamesAccepted(f.victim)
    ensures e.guiltyName.Pass? <==> NamesAccepted(f.guiltyName)
    ensures e.status == Pass
  {
    CaseErrors(
      if |f.title| < MinTitleLength then Error(AddTitleMsg) else Pass,
      if f.caseType == "" then Error(AddTypeMsg) else Pass,
      if |f.description| < MinDescriptionLength then Error(AddDescriptionMsg) else Pass,
      CheckNames(f.suspects),
      CheckNames(f.victim),
      CheckNames(f.guiltyName),
      if f.date == "" then Error(AddDateMsg) else Pass,
      Pass,
      if IsAdmin(caller) && f.handler == "" then Error(AddHandlerMsg) else Pass)
  }

  /** The form as the add page opens it: everything empty but the status,
      "ACTIVE"; for a logged-in non-admin the handler is the caller's own
      fullname, while an admin picks one from the officer list. */
  function OpenedAddForm(caller: Option<Auth.Claims>): (f: CaseForm)
    ensures f.status == "ACTIVE"
    ensures f.handler == (if caller.Some? && !caller.value.isAdmin then caller.value.fullname else "")
    ensures forall k | k != Status && k != Handler :: Get(f, k) == ""
  {
    var handler := if caller.Some? && !caller.value.isAdmin then caller.value.fullname else "";
    CaseForm("", "", "", "", "", "", "", "ACTIVE", handler)
  }

  /** The form after a successful submission, as the reset writes it. */
  function ResetAddForm(user: Auth.Claims): CaseForm {
    CaseForm("", "", "", "", "", "", "", "ACTIVE", if user.isAdmin then "" else user.fullname)
  }

  /** The reset restores the form the page opened with: a non-admin's
      handler is preset again, an admin's is cleared. */
  lemma ResetIsOpened(user: Auth.Claims)
    ensures ResetAddForm(user) == OpenedAddForm(Some(user))
    ensures ResetAddForm(user).handler == (if user.isAdmin then "" else user.fullname)
  {
  }

  /** What pressing submit on the add page does. */
  datatype AddOutcome =
    | AddRefused(errors: CaseErrors)     // validation recorded an error; nothing is sent
    | AddBroken                          // no decoded user: reading its admin flag throws
    | AddSent(body: CaseBody, next: CaseForm)

  /** `onSubmit`: nothing is sent unless the form validates; the body is the
      form with `isApproved` set to the caller's admin flag; after the post
      the form is reset. */
  function AddSubmit(f: CaseForm, caller: Option<Auth.Claims>, dateOf: string -> Option<Timestamp>)
    : (r: AddOutcome)
    ensures r.AddRefused? <==> !Clean(AddCaseErrors(f, caller))
    ensures r.AddRefused? ==> r.errors == AddCaseErrors(f, caller)
    ensures r.AddBroken? <==> Clean(AddCaseErrors(f, caller)) && caller.None?
    ensures r.AddSent? ==>
      && caller.Some?
      && r.body == FormBody(f, dateOf).(isApproved := Some(caller.value.isAdmin))
      && r.next == OpenedAddForm(caller)
  {
    var e := AddCaseErrors(f, caller);
    if !Clean(e) then AddRefused(e)
    else if caller.None? then AddBroken
    else
      ResetIsOpened(caller.value);
      AddSent(FormBody(f, dateOf).(isApproved := Some(caller.value.isAdmin)), ResetAddForm(caller.value))
  }

  /** A form the add page accepts, with a status from the enum, a date that
      casts and a handler, is stored by the create route as typed, approved
      exactly when the caller is an admin and not removed. The body's
      `isApproved` agrees with the one the server forces. */
  lemma AddedFormIsStored(db: Store.Db, token: Option<string>, verify: string -> Option<Auth.Payload>,
                          newId: Id, f: CaseForm, user: Auth.Claims, dateOf: string -> Option<Timestamp>)
    requires newId !in db.cases
    requires Auth.UserAuth(token, verify) == Ok(200, Some(user))
    requires AddSubmit(f, Some(user), dateOf).AddSent?
    requires IsStatus(f.status) && dateOf(f.date).Some? && f.handler != ""
    ensures var s := CaseRoutes.CreateCase(db, token, verify, newId, AddSubmit(f, Some(user), dateOf).body);
      && s.reply.Ok?
      && s.reply.value == Case(FieldsOf(f, dateOf(f.date).value), user.isAdmin, false)
      && s.db.cases == db.cases[newId := s.reply.value]
  {
    var b := AddSubmit(f, Some(user), dateOf).body;
    assert HasRequiredFields(b);
  }

  // ---------------------------------------------------------- update page

  const TitleMissingMsg: string := "Please enter the case title"
  const TitleShortMsg: string := "At least 5 characters"
  const TypeMissingMsg: string := "Please select a case type"
  const DescriptionMissingMsg: string := "Please provide a description"
  const DescriptionShortMsg: string := "At least 20 characters"
  const DateMissingMsg: string := "Please select a case date"
  const StatusMissingMsg: string := "Please select a case status"
  const HandlerMissingMsg: string := "Please select a case handler"

  /** The edit pages' `validate`: the add page's rules without the handler,
      plus a status; a missing title or description is told apart from a
      short one. */
  function UpdateCaseErrors(f: CaseForm): (e: CaseErrors)
    ensures e.title.Pass? <==> |f.title| >= MinTitleLength
    ensures f.title == "" ==> e.title == Error(TitleMissingMsg)
    ensures 0 < |f.title| < MinTitleLength ==> e.title == Error(TitleShortMsg)
    ensures e.description.Pass? <==> |f.description| >= MinDescriptionLength
    ensures f.description == "" ==> e.description == Error(DescriptionMissingMsg)
    ensures 0 < |f.description| < MinDescriptionLength ==> e.description == Error(DescriptionShortMsg)
    ensures e.caseType == (if f.caseType == "" then Error(TypeMissingMsg) else Pass)
    ensures e.date == (if f.date == "" then Error(DateMissingMsg) else Pass)
    ensures e.status == (if f.status == "" then Error(StatusMissingMsg) else Pass)
    ensures e.suspects.Pass? <==> NamesAccepted(f.suspects)
    ensures e.victim.Pass? <==> NamesAccepted(f.victim)
    ensures e.guiltyName.Pass? <==> NamesAccepted(f.guiltyName)
    ensures e.handler == Pass
  {
    CaseErrors(
      if f.title == "" then Error(TitleMissingMsg)
      else if |f.title| < MinTitleLength then Error(TitleShortMsg) else Pass,
      if f.caseType == "" then Error(TypeMissingMsg) else Pass,
      if f.description == "" then Error(DescriptionMissingMsg)
      else if |f.description| < MinDescriptionLength then Error(DescriptionShortMsg) else Pass,
      CheckNames(f.suspects),
      CheckNames(f.victim),
      CheckNames(f.guiltyName),
      if f.date == "" then Error(DateMissingMsg) else Pass,
      if f.status == "" then Error(StatusMissingMsg) else Pass,
      Pass)
  }

  /** The admin edit form's `validate`: the update page's rules and a
      handler. */
  function AdminCaseErrors(f: CaseForm): (e: CaseErrors)
    ensures e == UpdateCaseErrors(f).(handler := e.handler)
    ensures e.handler == (if f.handler == "" then Error(HandlerMissingMsg) else Pass)
  {
    UpdateCaseErrors(f).(handler := if f.handler == "" then Error(HandlerMissingMsg) else Pass)
  }

  /** A form both edit pages accept is one the add page accepts too, for any
      caller; the add page alone lets an empty status through. */
  lemma EditRulesImplyAddRules(f: CaseForm, caller: Option<Auth.Claims>)
    ensures Clean(AdminCaseErrors(f)) ==> Clean(AddCaseErrors(f, caller))
    ensures Clean(UpdateCaseErrors(f)) && (IsAdmin(caller) ==> f.handler != "") ==>
      Clean(AddCaseErrors(f, caller))
    ensures f.status == "" ==> !Clean(UpdateCaseErrors(f)) && !Clean(AdminCaseErrors(f))
  {
  }

  /** The separator of an ISO date-time. */
  const TimeMark: char := 'T'

  /** `handleEditClick`: the form takes the case's fields, with the date as
      the part of its ISO text (`iso`, the `toISOString` of the stored date)
      before the first `T`. */
  function EditForm(c: Case, iso: Timestamp -> string): (f: CaseForm)
    ensures TimeMark !in f.date
    ensures TimeMark in iso(c.fields.date) ==>
      |f.date| < |iso(c.fields.date)|
      && iso(c.fields.date) == f.date + [TimeMark] + iso(c.fields.date)[|f.date| + 1..]
    ensures TimeMark !in iso(c.fields.date) ==> f.date == iso(c.fields.date)
    ensures f.title == c.fields.title && f.caseType == c.fields.caseType
    ensures f.description == c.fields.description && f.suspects == c.fields.suspects
    ensures f.victim == c.fields.victim && f.guiltyName == c.fields.guiltyName
    ensures f.status == c.fields.status && f.handler == c.fields.handler
  {
    var s := iso(c.fields.date);
    var day := Split(s, TimeMark)[0];
    DayPart(s);
    CaseForm(c.fields.title, c.fields.caseType, c.fields.description, c.fields.suspects,
             c.fields.victim, c.fields.guiltyName, day, c.fields.status, c.fields.handler)
  }

  /** The first piece of a split at `T` is the text before the first `T`. */
  lemma DayPart(s: string)
    ensures var day := Split(s, TimeMark)[0];
      && TimeMark !in day
      && (TimeMark in s ==> |day| < |s| && s == day + [TimeMark] + s[|day| + 1..])
      && (TimeMark !in s ==> day == s)
  {
    var ps := Split(s, TimeMark);
    JoinSplit(s, TimeMark);
    var rest := if |ps| == 1 then [] else [TimeMark] + Join(ps[1..], TimeMark);
    assert s == ps[0] + rest;
    if TimeMark in s {
      assert TimeMark in rest;
      assert s == ps[0] + [TimeMark] + rest[1..];
    } else {
      SplitFree(s, TimeMark);
    }
  }

  /** The page's draft: the form and the two flags of the loaded case, which
      the page never shows but carries along. */
  datatype EditDraft = EditDraft(caseId: Id, form: CaseForm, isApproved: bool, isRemoved: bool)

  /** The proposal body: the draft without `_id`, `__v`, the two flags and
      the timestamps, with `originalCaseId` set to the edited case. */
  function ProposalBody(d: EditDraft, dateOf: string -> Option<Timestamp>): (b: CaseBody)
    ensures b.originalCaseId == Some(d.caseId)
    ensures b.isApproved.None? && b.isRemoved.None?
    ensures b.(originalCaseId := None) == FormBody(d.form, dateOf)
  {
    FormBody(d.form, dateOf).(originalCaseId := Some(d.caseId))
  }

  /** What pressing submit on the update page does. */
  datatype UpdateOutcome = UpdateRefused(errors: CaseErrors) | UpdateSent(body: CaseBody)

  function UpdateSubmit(d: EditDraft, dateOf: string -> Option<Timestamp>): (r: UpdateOutcome)
    ensures r.UpdateRefused? <==> !Clean(UpdateCaseErrors(d.form))
    ensures r.UpdateRefused? ==> r.errors == UpdateCaseErrors(d.form)
    ensures r.UpdateSent? ==> r.body == ProposalBody(d, dateOf)
  {
    var e := UpdateCaseErrors(d.form);
    if !Clean(e) then UpdateRefused(e) else UpdateSent(ProposalBody(d, dateOf))
  }

  /** A draft the update page sends, with a status from the enum, a date
      that casts and a handler, becomes a proposal for the edited case
      carrying exactly the form's fields; the draft's flags play no part,
      and no case changes. */
  lemma ProposalCarriesDraft(db: Store.Db, token: Option<string>, verify: string -> Option<Auth.Payload>,
                             newId: Id, d: EditDraft, a: bool, r: bool,
                             dateOf: string -> Option<Timestamp>, now: Timestamp)
    requires newId !in db.updates
    requires Auth.UserAuth(token, verify).Ok?
    requires UpdateSubmit(d, dateOf).UpdateSent?
    requires IsStatus(d.form.status) && dateOf(d.form.date).Some? && d.form.handler != ""
    ensures var s := CaseRoutes.RequestUpdate(db, token, verify, newId, UpdateSubmit(d, dateOf).body, now);
      && s.reply.Ok?
      && s.db.updates == db.updates[newId := Proposal(d.caseId, FieldsOf(d.form, dateOf(d.form.date).value), now)]
      && s.db.cases == db.cases
    ensures UpdateSubmit(d.(isApproved := a, isRemoved := r), dateOf) == UpdateSubmit(d, dateOf)
  {
    var b := UpdateSubmit(d, dateOf).body;
    assert HasRequiredFields(b);
  }

  // ------------------------------------------------------ admin edit form

  /** `onChange` on the date input: a non-empty date after `today` (compared
      as text, as `>` on strings does) becomes `today`; anything else is
      kept. */
  function ClampDate(v: string, today: string): (r: string)
    ensures AtMost(r, today)
    ensures AtMost(v, today) ==> r == v
    ensures r == v || r == today
  {
    if v != "" && Less(today, v) then
      LessAsymmetric(today, v);
      LessIrreflexive(today);
      today
    else v
  }

  /** Clamping twice is clamping once. */
  lemma ClampIdempotent(v: string, today: string)
    ensures ClampDate(ClampDate(v, today), today) == ClampDate(v, today)
  {
  }

  /** The inputs of the admin form. */
  datatype Field = Title | CaseType | Description | Suspects | Victim | GuiltyName | Date | Status | Handler

  function Get(f: CaseForm, k: Field): string {
    match k
    case Title => f.title
    case CaseType => f.caseType
    case Description => f.description
    case Suspects => f.suspects
    case Victim => f.victim
    case GuiltyName => f.guiltyName
    case Date => f.date
    case Status => f.status
    case Handler => f.handler
  }

  /** Stores `v` in field `k` and leaves the rest. */
  function Put(f: CaseForm, k: Field, v: string): (r: CaseForm)
    ensures Get(r, k) == v
    ensures forall j | j != k :: Get(r, j) == Get(f, j)
  {
    match k
    case Title => f.(title := v)
    case CaseType => f.(caseType := v)
    case Description => f.(description := v)
    case Suspects => f.(suspects := v)
    case Victim => f.(victim := v)
    case GuiltyName => f.(guiltyName := v)
    case Date => f.(date := v)
    case Status => f.(status := v)
    case Handler => f.(handler := v)
  }

  /** The admin form's `onChange`: the date is clamped to `today`, every
      other field is stored verbatim, and nothing else changes. */
  function AdminInput(f: CaseForm, k: Field, value: string, today: string): (r: CaseForm)
    ensures k != Date ==> Get(r, k) == value
    ensures k == Date ==> r.date == ClampDate(value, today) && AtMost(r.date, today)
    ensures forall j | j != k :: Get(r, j) == Get(f, j)
  {
    Put(f, k, if k == Date then ClampDate(value, today) else value)
  }

  /** The admin's draft: the form and the loaded case's two flags, which the
      page holds in its state but binds to no input. */
  datatype AdminDraft = AdminDraft(form: CaseForm, isApproved: bool, isRemoved: bool)

  /** The admin form's load effect: the case's fields with the date cut to
      its day, and the case's two flags, carried along by `{...caseRes.data}`. */
  function AdminLoad(c: Case, iso: Timestamp -> string): (d: AdminDraft)
    ensures d.isApproved == c.isApproved && d.isRemoved == c.isRemoved
    ensures d.form == EditForm(c, iso)
  {
    AdminDraft(EditForm(c, iso), c.isApproved, c.isRemoved)
  }

  /** The last value typed into field `k`, if any. */
  function LastTyped(inputs: seq<(Field, string)>, k: Field): Option<string>
    decreases |inputs|
  {
    if inputs == [] then None
    else
      var later := LastTyped(inputs[1..], k);
      if later.Some? then later
      else if inputs[0].0 == k then Some(inputs[0].1)
      else None
  }

  /** A field's value after typing: unchanged when nothing was typed into
      it, otherwise the last value typed, the date clamped to today. */
  function AfterTyping(before: string, typed: Option<string>, k: Field, today: string): string {
    match typed
    case None => before
    case Some(v) => if k == Date then ClampDate(v, today) else v
  }

  /** A sequence of `onChange` events on the admin form. */
  function AdminEdits(f: CaseForm, inputs: seq<(Field, string)>, today: string): (r: CaseForm)
    ensures forall k :: Get(r, k) == AfterTyping(Get(f, k), LastTyped(inputs, k), k, today)
    decreases |inputs|
  {
    if inputs == [] then f
    else AdminEdits(AdminInput(f, inputs[0].0, inputs[0].1, today), inputs[1..], today)
  }

  /** The draft after loading `c` and typing `inputs`: the flags stay the
      loaded case's, and each field is the loaded one unless typed over. */
  function EditedDraft(c: Case, iso: Timestamp -> string, inputs: seq<(Field, string)>, today: string): (d: AdminDraft)
    ensures d.isApproved == c.isApproved && d.isRemoved == c.isRemoved
    ensures forall k | LastTyped(inputs, k).None? :: Get(d.form, k) == Get(EditForm(c, iso), k)
    ensures forall k | LastTyped(inputs, k).Some? && k != Date :: Get(d.form, k) == LastTyped(inputs, k).value
    ensures LastTyped(inputs, Date).Some? ==> d.form.date == ClampDate(LastTyped(inputs, Date).value, today)
  {
    var d := AdminLoad(c, iso);
    d.(form := AdminEdits(d.form, inputs, today))
  }

  /** What pressing save on the admin form does. */
  datatype AdminOutcome =
    | AdminRefused(errors: CaseErrors)
    | FutureDate                 // "Case date cannot be in the future."
    | AdminSent(body: CaseBody)

  const FutureDateMsg: string := "Case date cannot be in the future."

  /** `onSubmit`: validation first, then a date after `today` is refused,
      then the whole draft, flags included, is sent to the `PUT` route. */
  function AdminSubmit(d: AdminDraft, today: string, dateOf: string -> Option<Timestamp>): (r: AdminOutcome)
    ensures r.AdminRefused? <==> !Clean(AdminCaseErrors(d.form))
    ensures r.FutureDate? <==> Clean(AdminCaseErrors(d.form)) && Less(today, d.form.date)
    ensures r.AdminSent? ==>
      && AtMost(d.form.date, today)
      && r.body == FormBody(d.form, dateOf).(isApproved := Some(d.isApproved), isRemoved := Some(d.isRemoved))
  {
    var e := AdminCaseErrors(d.form);
    if !Clean(e) then AdminRefused(e)
    else if d.form.date != "" && Less(today, d.form.date) then FutureDate
    else AdminSent(FormBody(d.form, dateOf).(isApproved := Some(d.isApproved), isRemoved := Some(d.isRemoved)))
  }

  /** A date typed into the form on the same day is never refused as a
      future one: only a date loaded from the case can be. */
  lemma TypedDateNeverFuture(d: AdminDraft, v: string, today: string, dateOf: string -> Option<Timestamp>)
    ensures !AdminSubmit(d.(form := AdminInput(d.form, Date, v, today)), today, dateOf).FutureDate?
  {
  }

  /** Saving a draft of a case that is not removed writes every field of the
      draft and both its flags, as the draft holds them, onto the case. */
  lemma AdminSaveStoresDraft(db: Store.Db, id: Id, d: AdminDraft, today: string,
                             dateOf: string -> Option<Timestamp>)
    requires id in db.cases && !db.cases[id].isRemoved
    requires AdminSubmit(d, today, dateOf).AdminSent? && dateOf(d.form.date).Some?
    ensures var s := CaseRoutes.PutCase(db, id, AdminSubmit(d, today, dateOf).body);
      && s.reply.Ok?
      && s.db.cases[id] == Case(FieldsOf(d.form, dateOf(d.form.date).value), d.isApproved, d.isRemoved)
  {
  }

  /** No input of the page reaches the flags: whatever the admin types,
      saving a live case writes the typed fields and keeps the approval it
      was loaded with, and the case stays live. */
  lemma AdminSaveKeepsLoadedFlags(db: Store.Db, id: Id, iso: Timestamp -> string, inputs: seq<(Field, string)>,
                                  today: string, dateOf: string -> Option<Timestamp>)
    requires id in db.cases && !db.cases[id].isRemoved
    requires var d := EditedDraft(db.cases[id], iso, inputs, today);
      AdminSubmit(d, today, dateOf).AdminSent? && dateOf(d.form.date).Some?
    ensures var d := EditedDraft(db.cases[id], iso, inputs, today);
      var s := CaseRoutes.PutCase(db, id, AdminSubmit(d, today, dateOf).body);
      && s.reply.Ok?
      && s.db.cases[id].isApproved == db.cases[id].isApproved && !s.db.cases[id].isRemoved
      && s.db.cases[id].fields == FieldsOf(d.form, dateOf(d.form.date).value)
  {
    AdminSaveStoresDraft(db, id, EditedDraft(db.cases[id], iso, inputs, today), today, dateOf);
  }

  /** The officer list of the admin form: the active users' names with the
      case's current handler put first when it is set and not among them
      (an unapproved or admin handler, say). */
  function OfficerChoices(names: seq<string>, current: string): (r: seq<string>)
    ensures forall n :: n in r <==> n in names || (n == current && current != "")
    ensures |r| >= |names| && r[|r| - |names|..] == names
    ensures |r| <= |names| + 1
    ensures Listing.Distinct(names) ==> Listing.Distinct(r)
  {
    if current != "" && current !in names then [current] + names else names
  }

  /** Building the list again from its own result changes nothing. */
  lemma OfficerChoicesIdempotent(names: seq<string>, current: string)
    ensures OfficerChoices(OfficerChoices(names, current), current) == OfficerChoices(names, current)
  {
  }
}

=== FILE: case_routes.dfy ===
/** The case router: the caller's own cases, reading, creating, editing,
    proposing edits to, soft-deleting and restoring cases. The public list
    and its search are `Search.Run` in the `Public` scope.

    Routes behind `userAuth` take the `x-auth-token` header and the token
    verifier; the routes the source puts behind `adminAuth` take no caller,
    since that middleware is the register/login router and lets every other
    request through. */
module CaseRoutes {
  import opened Base
  import opened Models
  import opened Store
  import opened Auth
  import opened Listing
  import Search

  const CaseNotFoundMsg: string := "Case not found"
  const ProposalSubmittedMsg: string := "Update request submitted successfully. It will be reviewed by an admin."
  const RemovedMsg: string := "Case marked as removed successfully"
  const RestoredMsg: string := "Case restored successfully"

  /** A `userAuth` refusal, re-sent as the route's own reply. */
  function Refused<T>(auth: Reply<Option<Claims>>): (r: Reply<T>)
    requires auth.Fail?
    ensures r.Fail? && r.code == auth.code && r.msg == auth.msg
  {
    Fail(auth.code, auth.msg)
  }

  /** A case the caller handles and the public can see. */
  predicate AssignedTo(c: Case, name: string) {
    c.fields.handler == name && c.isApproved && !c.isRemoved
  }

  /** `GET /me/assigned`: the approved, non-removed cases whose handler is the
      caller's fullname, newest first. A token without a `user` claim makes
      the handler read a field of `undefined`, which the route reports as 500. */
  method MyAssigned(cases: map<Id, Case>, token: Option<string>, verify: string -> Option<Payload>)
    returns (r: Reply<seq<Id>>)
    ensures UserAuth(token, verify).Fail? ==> r == Refused(UserAuth(token, verify))
    ensures UserAuth(token, verify) == Ok(200, None) ==> r == Fail(500, ServerError)
    ensures r.Ok? <==> UserAuth(token, verify).Ok? && UserAuth(token, verify).value.Some?
    ensures r.Ok? ==>
      && r.code == 200 && Distinct(r.value) && InDomain(cases, r.value)
      && var name := UserAuth(token, verify).value.value.fullname;
      && (forall id :: id in r.value <==> id in cases && AssignedTo(cases[id], name))
      && Ordered(cases, NewestCaseFirst, r.value)
  {
    var auth := UserAuth(token, verify);
    if auth.Fail? {
      return Refused(auth);
    }
    if auth.value.None? {
      return Fail(500, ServerError);
    }
    var name := auth.value.value.fullname;
    SortOrdersArePreorders();
    var ids := Select(cases, c => AssignedTo(c, name), NewestCaseFirst);
    return Ok(200, ids);
  }

  /** `GET /:id`: any non-removed case, approved or not, to any holder of a
      valid token; 404 for a missing or removed one. */
  function GetCase(cases: map<Id, Case>, token: Option<string>, verify: string -> Option<Payload>, id: Id)
    : (r: Reply<Case>)
    ensures UserAuth(token, verify).Fail? ==> r == Refused(UserAuth(token, verify))
    ensures UserAuth(token, verify).Ok? ==>
      (r.Ok? <==> id in cases && !cases[id].isRemoved)
      && (r.Ok? ==> r == Ok(200, cases[id]))
      && (r.Fail? ==> r == Fail(404, CaseNotFoundMsg))
  {
    var auth := UserAuth(token, verify);
    if auth.Fail? then Refused(auth)
    else if id in cases && !cases[id].isRemoved then Ok(200, cases[id])
    else Fail(404, CaseNotFoundMsg)
  }

  /** `POST /`: the case is built from the body with `isApproved` forced to
      the caller's admin flag and saved under `newId` (201); a body that
      fails the schema, or a token without a `user` claim, gives 500. */
  function CreateCase(db: Db, token: Option<string>, verify: string -> Option<Payload>,
                      newId: Id, body: CaseBody): (s: Step<Case>)
    requires newId !in db.cases
    ensures UserAuth(token, verify).Fail? ==> s == Step(db, Refused(UserAuth(token, verify)))
    ensures s.reply.Fail? ==> s.db == db
    ensures s.reply.Ok? <==>
      UserAuth(token, verify).Ok? && UserAuth(token, verify).value.Some? && HasRequiredFields(body)
    ensures s.reply.Ok? ==>
      && s.reply.code == 201
      && s.db == db.(cases := db.cases[newId := s.reply.value])
      && ValidFields(s.reply.value.fields)
      && s.reply.value.isApproved == UserAuth(token, verify).value.value.isAdmin
      && s.reply.value.isRemoved == body.isRemoved.GetOr(false)
      && Some(s.reply.value.fields) == FieldsFromBody(body)
  {
    var auth := UserAuth(token, verify);
    if auth.Fail? then Step(db, Refused(auth))
    else if auth.value.None? then Step(db, Fail(500, ServerError))
    else match NewCase(body, auth.value.value.isAdmin)
      case None => Step(db, Fail(500, ServerError))
      case Some(c) => Step(db.(cases := db.cases[newId := c]), Ok(201, c))
  }

  /** `POST /request-update`: the body is saved as a proposal under `newId`
      at time `now` (201). The target id is not looked up and no case
      changes; a body without a target or with invalid fields gives 500. */
  function RequestUpdate(db: Db, token: Option<string>, verify: string -> Option<Payload>,
                         newId: Id, body: CaseBody, now: Timestamp): (s: Step<string>)
    requires newId !in db.updates
    ensures UserAuth(token, verify).Fail? ==> s == Step(db, Refused(UserAuth(token, verify)))
    ensures s.db.users == db.users && s.db.cases == db.cases && s.db.reports == db.reports
    ensures s.reply.Fail? ==> s.db == db
    ensures s.reply.Ok? <==> UserAuth(token, verify).Ok? && NewProposal(body, now).Some?
    ensures s.reply.Ok? ==>
      && s.reply == Ok(201, ProposalSubmittedMsg)
      && s.db.updates == db.updates[newId := NewProposal(body, now).value]
  {
    var auth := UserAuth(token, verify);
    if auth.Fail? then Step(db, Refused(auth))
    else match NewProposal(body, now)
      case None => Step(db, Fail(500, ServerError))
      case Some(p) => Step(db.(updates := db.updates[newId := p]), Ok(201, ProposalSubmittedMsg))
  }

  /** `PUT /:id`: a non-removed case gets the body `$set` on it, flags
      included, and is returned; a missing or removed one gives 404. */
  function PutCase(db: Db, id: Id, body: CaseBody): (s: Step<Case>)
    ensures s.reply.Ok? <==> id in db.cases && !db.cases[id].isRemoved
    ensures s.reply.Fail? ==> s == Step(db, Fail(404, CaseNotFoundMsg))
    ensures s.reply.Ok? ==>
      && s.reply.code == 200
      && s.db == db.(cases := db.cases[id := s.reply.value])
      && s.reply.value == ApplySet(db.cases[id], body)
  {
    if id in db.cases && !db.cases[id].isRemoved then
      var c := ApplySet(db.cases[id], body);
      Step(db.(cases := db.cases[id := c]), Ok(200, c))
    else Step(db, Fail(404, CaseNotFoundMsg))
  }

  /** Sets `is_removed` of an existing case, leaving every other path; 404
      for a missing id whatever the flag was. */
  function SetRemoved(db: Db, id: Id, removed: bool, msg: string): (s: Step<string>)
    ensures s.reply.Ok? <==> id in db.cases
    ensures s.reply.Fail? ==> s == Step(db, Fail(404, CaseNotFoundMsg))
    ensures s.reply.Ok? ==>
      && s.reply == Ok(200, msg)
      && s.db == db.(cases := db.cases[id := db.cases[id].(isRemoved := removed)])
  {
    if id in db.cases then
      Step(db.(cases := db.cases[id := db.cases[id].(isRemoved := removed)]), Ok(200, msg))
    else Step(db, Fail(404, CaseNotFoundMsg))
  }

  /** `DELETE /:id`: soft delete. */
  function SoftDelete(db: Db, id: Id): (s: Step<string>)
    ensures s.reply.Ok? <==> id in db.cases
    ensures s.reply.Fail? ==> s.db == db
    ensures s.db.users == db.users && s.db.updates == db.updates && s.db.reports == db.reports
    ensures s.db.cases.Keys == db.cases.Keys
    ensures forall k | k in db.cases && k != id :: s.db.cases[k] == db.cases[k]
    ensures s.reply.Ok? ==>
      && s.db.cases[id].isRemoved
      && s.db.cases[id].isApproved == db.cases[id].isApproved
      && s.db.cases[id].fields == db.cases[id].fields
  {
    SetRemoved(db, id, true, RemovedMsg)
  }

  /** `PUT /:id/restore`. */
  function Restore(db: Db, id: Id): (s: Step<string>)
    ensures s.reply.Ok? <==> id in db.cases
    ensures s.reply.Fail? ==> s.db == db
    ensures s.db.users == db.users && s.db.updates == db.updates && s.db.reports == db.reports
    ensures s.db.cases.Keys == db.cases.Keys
    ensures forall k | k in db.cases && k != id :: s.db.cases[k] == db.cases[k]
    ensures s.reply.Ok? ==>
      && !s.db.cases[id].isRemoved
      && s.db.cases[id].isApproved == db.cases[id].isApproved
      && s.db.cases[id].fields == db.cases[id].fields
  {
    SetRemoved(db, id, false, RestoredMsg)
  }

  // ------------------------------------------------------------- lemmas

  /** An assigned case is one the public list shows. */
  lemma AssignedIsPublic(c: Case, name: string)
    requires AssignedTo(c, name)
    ensures Search.Matches(Search.ScopeFilter(Search.Public), c)
  {
    Search.ScopeSemantics(c);
  }

  /** The `isApproved` a client puts in the body has no effect: only the
      caller's admin flag decides. */
  lemma CreateIgnoresBodyApproval(db: Db, token: Option<string>, verify: string -> Option<Payload>,
                                  newId: Id, body: CaseBody, x: Option<bool>)
    requires newId !in db.cases
    ensures CreateCase(db, token, verify, newId, body.(isApproved := x))
         == CreateCase(db, token, verify, newId, body)
  {
    NewCaseIgnoresBodyApproval(body, x, false);
    NewCaseIgnoresBodyApproval(body, x, true);
  }

  /** Soft delete and restore are idempotent. */
  lemma SetRemovedIdempotent(db: Db, id: Id)
    ensures SoftDelete(SoftDelete(db, id).db, id) == SoftDelete(db, id)
    ensures Restore(Restore(db, id).db, id) == Restore(db, id)
  {
  }

  /** Restoring a case that was deleted while live gives back the database
      it was deleted from, and the other way round. */
  lemma RestoreUndoesDelete(db: Db, id: Id)
    requires id in db.cases
    ensures !db.cases[id].isRemoved ==> Restore(SoftDelete(db, id).db, id).db == db
    ensures db.cases[id].isRemoved ==> SoftDelete(Restore(db, id).db, id).db == db
  {
    var c := db.cases[id];
    if !c.isRemoved {
      assert c.(isRemoved := true).(isRemoved := false) == c;
      assert db.cases[id := c] == db.cases;
    } else {
      assert c.(isRemoved := false).(isRemoved := true) == c;
      assert db.cases[id := c] == db.cases;
    }
  }

  /** Once a case is soft-deleted it can be neither read nor edited through
      this router until it is restored. */
  lemma DeletedIsHidden(db: Db, token: Option<string>, verify: string -> Option<Payload>,
                        id: Id, body: CaseBody)
    requires id in db.cases && UserAuth(token, verify).Ok?
    ensures GetCase(SoftDelete(db, id).db.cases, token, verify, id) == Fail(404, CaseNotFoundMsg)
    ensures PutCase(SoftDelete(db, id).db, id, body).reply == Fail(404, CaseNotFoundMsg)
    ensures GetCase(Restore(SoftDelete(db, id).db, id).db.cases, token, verify, id).Ok?
  {
  }

  /** Creating a case keeps every stored document valid. */
  lemma CreateKeepsConsistent(db: Db, token: Option<string>, verify: string -> Option<Payload>,
                              newId: Id, body: CaseBody)
    requires Consistent(db) && newId !in db.cases
    ensures Consistent(CreateCase(db, token, verify, newId, body).db)
  {
    var s := CreateCase(db, token, verify, newId, body);
    if s.reply.Ok? {
      assert forall id | id in s.db.cases :: id == newId || s.db.cases[id] == db.cases[id];
    }
  }

  /** Proposing an edit keeps every stored document valid. */
  lemma RequestUpdateKeepsConsistent(db: Db, token: Option<string>, verify: string -> Option<Payload>,
                                     newId: Id, body: CaseBody, now: Timestamp)
    requires Consistent(db) && newId !in db.updates
    ensures Consistent(RequestUpdate(db, token, verify, newId, body, now).db)
  {
    var s := RequestUpdate(db, token, verify, newId, body, now);
    if s.reply.Ok? {
      assert forall id | id in s.db.updates :: id == newId || s.db.updates[id] == db.updates[id];
    }
  }

  /** Deleting and restoring keep every stored document valid. */
  lemma SetRemovedKeepsConsistent(db: Db, id: Id)
    requires Consistent(db)
    ensures Consistent(SoftDelete(db, id).db)
    ensures Consistent(Restore(db, id).db)
  {
  }

  /** An edit keeps the case valid when the body's own values are valid. */
  lemma PutCaseKeepsValidBody(db: Db, id: Id, body: CaseBody)
    requires Consistent(db) && HasRequiredFields(body)
    ensures Consistent(PutCase(db, id, body).db)
  {
  }

  /** An edit runs no schema validators: a live, valid case can be given a
      status outside the enum, or an empty title. */
  lemma PutCaseSkipsValidation(db: Db, id: Id)
    requires Consistent(db) && id in db.cases && !db.cases[id].isRemoved
    ensures PutCase(db, id, EmptyBody.(status := Some("PENDING"))).reply.Ok?
    ensures !Consistent(PutCase(db, id, EmptyBody.(status := Some("PENDING"))).db)
    ensures !Consistent(PutCase(db, id, EmptyBody.(title := Some(""))).db)
  {
    var s := PutCase(db, id, EmptyBody.(status := Some("PENDING")));
    assert !ValidFields(s.db.cases[id].fields);
    var t := PutCase(db, id, EmptyBody.(title := Some("")));
    assert !ValidFields(t.db.cases[id].fields);
  }
}

=== FILE: email.dfy ===
/** The two e-mail patterns of the client forms: the anchored
    `^[^\s@]+@[^\s@]+\.[^\s@]+$` of the login and public-report pages, and the
    unanchored `\S+@\S+\.\S+` of the registration page. */
module Email {
  import opened Base
  import opened Text

  const At: char := '@'
  const Dot: char := '.'

  /** The class `[^\s@]`. */
  predicate Plain(c: char) {
    !IsSpace(c) && c != At
  }

  /** The anchored pattern matches all of `s`, with the `@` at index `at` and
      the dot that starts the last run at index `dot`: three non-empty runs
      of plain characters around the two separators. */
  predicate AnchoredAt(s: string, at: int, dot: int) {
    && 0 < at && at + 1 < dot && dot + 1 < |s|
    && s[at] == At && s[dot] == Dot
    && forall k | 0 <= k < |s| && k != at :: Plain(s[k])
  }

  predicate AnchoredMatch(s: string) {
    exists at, dot | 0 <= at < |s| && 0 <= dot < |s| :: AnchoredAt(s, at, dot)
  }

  /** The unanchored pattern matches the slice `s[i..j]`: a non-empty run of
      non-whitespace, the `@` at `at`, a non-empty run, the dot at `dot`, and
      a non-empty run. */
  predicate LooseAt(s: string, i: int, at: int, dot: int, j: int) {
    && 0 <= i < at && at + 1 < dot && dot + 1 < j <= |s|
    && s[at] == At && s[dot] == Dot
    && forall k | i <= k < j :: !IsSpace(s[k])
  }

  /** `/\S+@\S+\.\S+/.test(s)`: some slice of `s` matches. */
  predicate LooseMatch(s: string) {
    exists i, at, dot, j | 0 <= i <= |s| && 0 <= at <= |s| && 0 <= dot <= |s| && 0 <= j <= |s| ::
      LooseAt(s, i, at, dot, j)
  }

  /** The shape the anchored pattern describes, as one reads it: exactly
      one `@` with something before it, no whitespace, and a dot strictly
      inside the part after the `@`. */
  predicate EmailShape(s: string) {
    var ps := Split(s, At);
    && |ps| == 2 && ps[0] != []
    && (forall k | 0 <= k < |s| :: !IsSpace(s[k]))
    && |ps[1]| >= 3 && Dot in ps[1][1..|ps[1]| - 1]
  }

  /** `re.test(email)` for the anchored pattern. */
  function IsEmail(s: string): (b: bool)
    ensures b <==> AnchoredMatch(s)
  {
    MatchHasShape(s);
    ShapeMatches(s);
    EmailShape(s)
  }

  /** A match has the shape. */
  lemma MatchHasShape(s: string)
    ensures AnchoredMatch(s) ==> EmailShape(s)
  {
    if AnchoredMatch(s) {
      var at, dot :| 0 <= at < |s| && 0 <= dot < |s| && AnchoredAt(s, at, dot);
      MatchShape(s, at, dot);
    }
  }

  lemma MatchShape(s: string, at: int, dot: int)
    requires AnchoredAt(s, at, dot)
    ensures EmailShape(s)
  {
    var a, d := s[..at], s[at + 1..];
    assert s == a + [At] + d;
    assert At !in a by {
      forall k | 0 <= k < |a| ensures a[k] != At {
        assert a[k] == s[k];
      }
    }
    assert At !in d by {
      forall k | 0 <= k < |d| ensures d[k] != At {
        assert d[k] == s[at + 1 + k];
      }
    }
    SplitAround(a, At, d);
    SplitFree(d, At);
    assert Split(s, At) == [a, d];
    assert d[1..|d| - 1][dot - at - 2] == s[dot];
  }

  /** The shape is a match. */
  lemma ShapeMatches(s: string)
    ensures EmailShape(s) ==> AnchoredMatch(s)
  {
    if EmailShape(s) {
      var ps := Split(s, At);
      var a, d := ps[0], ps[1];
      JoinSplit(s, At);
      assert s == a + [At] + d;
      var m :| 0 <= m < |d| - 2 && d[1..|d| - 1][m] == Dot;
      var at, dot := |a|, |a| + 2 + m;
      forall k | 0 <= k < |s| && k != at
        ensures Plain(s[k])
      {
        if k < at {
          assert s[k] == a[k];
        } else {
          assert s[k] == d[k - at - 1];
        }
      }
      assert AnchoredAt(s, at, dot);
    }
  }

  const EmailMissingMsg: string := "Please enter your Email"
  const EmailInvalidMsg: string := "Enter a valid Email address"

  /** The e-mail check the login and public-report pages share: required,
      then the anchored pattern. */
  function EmailCheck(email: string): (r: Check)
    ensures r.Pass? <==> AnchoredMatch(email)
    ensures email == "" ==> r == Error(EmailMissingMsg)
    ensures email != "" && !AnchoredMatch(email) ==> r == Error(EmailInvalidMsg)
  {
    if email == "" then Error(EmailMissingMsg) else if !IsEmail(email) then Error(EmailInvalidMsg) else Pass
  }

  /** Whatever the login and public-report pages accept, the registration
      page accepts too. */
  lemma AnchoredIsLoose(s: string)
    requires AnchoredMatch(s)
    ensures LooseMatch(s)
  {
    var at, dot :| 0 <= at < |s| && 0 <= dot < |s| && AnchoredAt(s, at, dot);
    assert LooseAt(s, 0, at, dot, |s|);
  }

  /** The converse fails: the registration pattern finds an address inside
      a string with leading whitespace, and lets a second `@` through. */
  lemma LooseIsWeaker(s: string, t: string)
    requires s == " a@b.c" && t == "a@b@c.d"
    ensures LooseMatch(s) && !AnchoredMatch(s)
    ensures LooseMatch(t) && !AnchoredMatch(t)
  {
    assert LooseAt(s, 1, 2, 4, 6);
    forall at, dot ensures !AnchoredAt(s, at, dot) {
      assert !Plain(s[0]);
    }
    assert LooseAt(t, 0, 1, 5, 7);
    forall at, dot ensures !AnchoredAt(t, at, dot) {
      if at != 1 {
        assert !Plain(t[1]);
      } else {
        assert !Plain(t[3]);
      }
    }
  }
}

=== FILE: guards.dfy ===
/** The client's route guards: the member pages need a stored token, the
    admin pages a token whose `user` claim says admin, and the home page
    picks the admin or the member dashboard the same way. The guards decode
    the token without checking its signature or expiry: decoding is a
    parameter `decode`, None when the library throws. */
module Guards {
  import opened Base
  import Auth

  /** What a guard renders: the nested page, a redirect, one of the two
      dashboards, or nothing, for a path no route matches. */
  datatype View = Outlet | ToLogin | ToRoot | AdminHome | ClientHome | NoMatch

  /** Which guard a page sits behind. */
  datatype Area = Open | Member | AdminOnly

  /** A stored token that JavaScript counts as true: present and non-empty. */
  predicate Present(token: Option<string>) {
    token.Some? && token.value != ""
  }

  /** The decoded `user` claim says admin. */
  predicate DecodesAdmin(token: Option<string>, decode: string -> Option<Auth.Payload>) {
    && Present(token) && decode(token.value).Some?
    && decode(token.value).value.user.Some? && decode(token.value).value.user.value.isAdmin
  }

  /** The decoded `user` claim is there and does not say admin. */
  predicate DecodesMember(token: Option<string>, decode: string -> Option<Auth.Payload>) {
    && Present(token) && decode(token.value).Some?
    && decode(token.value).value.user.Some? && !decode(token.value).value.user.value.isAdmin
  }

  /** `PrivateRoutes`: any stored token opens the member pages. */
  function PrivateRoutes(token: Option<string>): (v: View)
    ensures v == Outlet <==> Present(token)
    ensures v == Outlet || v == ToLogin
  {
    if Present(token) then Outlet else ToLogin
  }

  /** `AdminRoutes`: a token claiming admin opens the admin pages, a token
      claiming a member goes home, and no token, one that does not decode,
      or one without a `user` claim (reading `isAdmin` of it throws) goes
      to the login page. */
  function AdminRoutes(token: Option<string>, decode: string -> Option<Auth.Payload>): (v: View)
    ensures v == Outlet <==> DecodesAdmin(token, decode)
    ensures v == ToRoot <==> DecodesMember(token, decode)
    ensures v == ToLogin <==> !DecodesAdmin(token, decode) && !DecodesMember(token, decode)
  {
    if !Present(token) then ToLogin
    else match decode(token.value)
      case None => ToLogin
      case Some(p) =>
        match p.user
        case None => ToLogin
        case Some(u) => if u.isAdmin then Outlet else ToRoot
  }

  /** `HomeRoute`: the same decision as `AdminRoutes`, rendering a dashboard
      in place of the nested page or the redirect home. */
  function HomeRoute(token: Option<string>, decode: string -> Option<Auth.Payload>): (v: View)
    ensures v == AdminHome <==> DecodesAdmin(token, decode)
    ensures v == ClientHome <==> DecodesMember(token, decode)
    ensures v == ToLogin <==> !DecodesAdmin(token, decode) && !DecodesMember(token, decode)
  {
    if !Present(token) then ToLogin
    else match decode(token.value)
      case None => ToLogin
      case Some(p) =>
        match p.user
        case None => ToLogin
        case Some(u) => if u.isAdmin then AdminHome else ClientHome
  }

  /** A page behind the given guard. */
  function Guard(area: Area, token: Option<string>, decode: string -> Option<Auth.Payload>): (v: View)
    ensures area == Open ==> v == Outlet
    ensures area == Member ==> v == PrivateRoutes(token)
    ensures area == AdminOnly ==> v == AdminRoutes(token, decode)
  {
    match area
    case Open => Outlet
    case Member => PrivateRoutes(token)
    case AdminOnly => AdminRoutes(token, decode)
  }

  /** The home path `/`: its route sits inside the member guard. */
  function Home(token: Option<string>, decode: string -> Option<Auth.Payload>): (v: View)
    ensures v == HomeRoute(token, decode)
  {
    if PrivateRoutes(token) == ToLogin then ToLogin else HomeRoute(token, decode)
  }

  // -------------------------------------------------------- route table

  /** The paths of `App`'s four public routes. */
  const OpenPaths: set<string> := {"/login", "/register", "/report-issue", "/terms"}

  /** The fixed paths behind `PrivateRoutes`; `/case/:id` is matched apart. */
  const MemberPaths: set<string> :=
    {"/", "/add", "/update", "/search", "/report"}

  /** The fixed paths behind `AdminRoutes`; `/admin/update-form/:id` is
      matched apart. */
  const AdminPaths: set<string> :=
    {"/admin/pending-users", "/admin/active-users", "/admin/reports", "/admin/pending-cases",
     "/admin/pending-updates", "/admin/add-case", "/admin/update-case", "/admin/remove-case",
     "/admin/AdminRemovedCasesPage"}

  const CaseStem: string := "/case/"
  const AdminFormStem: string := "/admin/update-form/"
  const AdminStem: string := "/admin/"

  /** A path `stem` + `:id`: one more non-empty segment, without a slash. */
  predicate WithParam(stem: string, path: string) {
    |path| > |stem| && path[..|stem|] == stem && '/' !in path[|stem|..]
  }

  /** The guard around the page a path leads to, or None when no route
      matches it. */
  function AreaOf(path: string): Option<Area> {
    if path in OpenPaths then Some(Open)
    else if path in MemberPaths || WithParam(CaseStem, path) then Some(Member)
    else if path in AdminPaths || WithParam(AdminFormStem, path) then Some(AdminOnly)
    else None
  }

  /** What the app renders at `path`: the guard of its page, and for `/` the
      home route inside the member guard. */
  function Render(path: string, token: Option<string>, decode: string -> Option<Auth.Payload>): (v: View)
    ensures v == NoMatch <==> AreaOf(path).None?
    ensures path in OpenPaths ==> v == Outlet
    ensures path == "/" ==> v == HomeRoute(token, decode)
    ensures AreaOf(path) == Some(Member) && path != "/" ==> v == PrivateRoutes(token)
    ensures AreaOf(path) == Some(AdminOnly) ==> v == AdminRoutes(token, decode)
  {
    match AreaOf(path)
    case None => NoMatch
    case Some(area) => if path == "/" then Home(token, decode) else Guard(area, token, decode)
  }

  // ------------------------------------------------------------- lemmas

  /** The admin guard stands exactly in front of the routed paths under
      `/admin/`. */
  lemma AdminAreaIsAdminPrefix(path: string)
    requires AreaOf(path).Some?
    ensures AreaOf(path) == Some(AdminOnly) <==> AdminStem <= path
  {
    if AdminStem <= path {
      OthersOutsideAdmin(path);
    } else if AreaOf(path) == Some(AdminOnly) {
      AdminPathsUnderStem(path);
    }
  }

  /** Each admin route lies under `/admin/`. */
  lemma AdminPathsUnderStem(path: string)
    requires path in AdminPaths || WithParam(AdminFormStem, path)
    ensures AdminStem <= path
  {
    if WithParam(AdminFormStem, path) {
      assert path[..|AdminStem|] == path[..|AdminFormStem|][..|AdminStem|];
    }
  }

  /** No public or member route lies under `/admin/`. */
  lemma OthersOutsideAdmin(path: string)
    requires AdminStem <= path
    ensures path !in OpenPaths && path !in MemberPaths && !WithParam(CaseStem, path)
  {
    assert |path| >= 7 && path[1] == 'a' && path[2] == 'd' && path[3] == 'm';
    if |path| > |CaseStem| {
      assert path[..|CaseStem|][1] == 'a';
    }
  }

  /** Every page outside the admin area opens for a logged-in member; every
      page inside it opens only for a token whose claim says admin. */
  lemma PagesByArea(path: string, token: Option<string>, decode: string -> Option<Auth.Payload>)
    requires AreaOf(path).Some?
    ensures !(AdminStem <= path) && DecodesMember(token, decode) ==>
      Render(path, token, decode) in {Outlet, ClientHome}
    ensures AdminStem <= path ==>
      (Render(path, token, decode) == Outlet <==> DecodesAdmin(token, decode))
  {
    AdminAreaIsAdminPrefix(path);
  }

  /** The public pages render without any token, and the member report page
      is not one of them. */
  lemma OpenPagesNeedNoToken(decode: string -> Option<Auth.Payload>)
    ensures forall p | p in OpenPaths :: Render(p, None, decode) == Outlet
    ensures Render("/report", None, decode) == ToLogin
  {
  }

  /** The home page and the admin guard make one decision: the admin
      dashboard exactly when the admin pages open, the member dashboard
      exactly when they redirect home, the login page in both or neither. */
  lemma HomeAgreesWithAdminGuard(token: Option<string>, decode: string -> Option<Auth.Payload>)
    ensures Home(token, decode) == AdminHome <==> AdminRoutes(token, decode) == Outlet
    ensures Home(token, decode) == ClientHome <==> AdminRoutes(token, decode) == ToRoot
    ensures Home(token, decode) == ToLogin <==> AdminRoutes(token, decode) == ToLogin
  {
  }

  /** Every page an admin guard opens, the member guard opens too; the
      converse fails for a token that does not decode. */
  lemma AdminAreaWithinMemberArea(token: Option<string>, decode: string -> Option<Auth.Payload>)
    ensures Guard(AdminOnly, token, decode) == Outlet ==> Guard(Member, token, decode) == Outlet
    ensures Present(token) && decode(token.value).None? ==>
      Guard(Member, token, decode) == Outlet && Guard(AdminOnly, token, decode) == ToLogin
  {
  }

  /** The guards never verify: a token whose claims say admin opens the
      admin pages even when the server rejects it (a bad signature, or
      expired), while every server route that checks the token answers
      401. */
  lemma UnverifiedAdminTokenPassesGuard(token: Option<string>, decode: string -> Option<Auth.Payload>,
                                        verify: string -> Option<Auth.Payload>)
    requires DecodesAdmin(token, decode) && verify(token.value).None?
    ensures AdminRoutes(token, decode) == Outlet && HomeRoute(token, decode) == AdminHome
    ensures Auth.UserAuth(token, verify) == Fail(401, Auth.BadTokenMsg)
  {
  }
}

=== FILE: listing.dfy ===
/** What a `Model.find(filter).sort(order)` call returns, over a collection
    held as a finite map: every matching document exactly once, in the
    requested order. */
module Listing {

  /** `le` is a total preorder: the comparison a sort key induces. */
  ghost predicate TotalPreorder<V(!new)>(le: (V, V) -> bool) {
    && (forall a, b :: le(a, b) || le(b, a))
    && (forall a, b, c :: le(a, b) && le(b, c) ==> le(a, c))
  }

  predicate Distinct<K(==)>(ks: seq<K>) {
    forall i, j | 0 <= i < j < |ks| :: ks[i] != ks[j]
  }

  predicate InDomain<K, V>(m: map<K, V>, ks: seq<K>) {
    forall i | 0 <= i < |ks| :: ks[i] in m
  }

  /** The documents named by `ks` appear in `le` order. */
  predicate Ordered<K, V>(m: map<K, V>, le: (V, V) -> bool, ks: seq<K>)
    requires InDomain(m, ks)
  {
    forall i, j | 0 <= i < j < |ks| :: le(m[ks[i]], m[ks[j]])
  }

  /** Places `k` in front of the first key whose document `k`'s document
      does not follow. */
  function Insert<K, V(!new)>(m: map<K, V>, le: (V, V) -> bool, k: K, ks: seq<K>): (r: seq<K>)
    requires k in m && InDomain(m, ks) && Ordered(m, le, ks) && TotalPreorder(le)
    ensures InDomain(m, r) && Ordered(m, le, r)
    ensures k in r && (forall x | x in ks :: x in r) && (forall x | x in r :: x == k || x in ks)
    ensures Distinct(ks) && k !in ks ==> Distinct(r)
    decreases |ks|
  {
    if |ks| == 0 then [k]
    else if le(m[k], m[ks[0]]) then
      assert forall j | 0 <= j < |ks| :: le(m[k], m[ks[j]]) by {
        forall j | 0 <= j < |ks|
          ensures le(m[k], m[ks[j]])
        {
          if j > 0 {
            assert le(m[ks[0]], m[ks[j]]);
          }
        }
      }
      [k] + ks
    else
      var t := Insert(m, le, k, ks[1..]);
      assert le(m[ks[0]], m[k]);
      assert forall j | 0 <= j < |t| :: le(m[ks[0]], m[t[j]]) by {
        forall j | 0 <= j < |t|
          ensures le(m[ks[0]], m[t[j]])
        {
          if t[j] != k {
            assert t[j] in ks[1..];
            var i :| 0 <= i < |ks[1..]| && ks[1..][i] == t[j];
            assert le(m[ks[0]], m[ks[i + 1]]);
          }
        }
      }
      assert Distinct(ks) && k !in ks ==> ks[0] !in t by {
        if Distinct(ks) && k !in ks {
          assert forall i | 0 <= i < |ks[1..]| :: ks[1..][i] == ks[i + 1];
          assert ks[0] !in ks[1..];
        }
      }
      [ks[0]] + t
  }

  /** The keys of `m` whose documents satisfy `keep`, each once, in `le` order. */
  method Select<K, V(!new)>(m: map<K, V>, keep: V -> bool, le: (V, V) -> bool) returns (ks: seq<K>)
    requires TotalPreorder(le)
    ensures Distinct(ks) && InDomain(m, ks)
    ensures forall k :: k in ks <==> k in m && keep(m[k])
    ensures Ordered(m, le, ks)
  {
    var rest := m.Keys;
    ks := [];
    while rest != {}
      invariant rest <= m.Keys
      invariant Distinct(ks) && InDomain(m, ks) && Ordered(m, le, ks)
      invariant forall k :: k in ks <==> k in m && k !in rest && keep(m[k])
      decreases rest
    {
      var k :| k in rest;
      rest := rest - {k};
      if keep(m[k]) {
        ks := Insert(m, le, k, ks);
      }
    }
  }
}

=== FILE: models.dfy ===
/** The four document shapes (User, Case, UpdateCase, Report) with the
    schema rules Mongoose enforces when a document is constructed and saved:
    required paths, the status enum, the police-id length cap and the
    defaults. */
module Models {
  import opened Base
  import Text
  import Listing

  /** Mongoose's `required` check on a String path: present and not empty. */
  predicate Required(s: string) {
    s != ""
  }

  // ---------------------------------------------------------------- users

  /** A registered account. */
  datatype User = User(
    fullname: string,
    policeId: string,
    contact: string,
    email: string,
    city: string,
    password: string,
    isAdmin: bool,
    isApproved: bool)

  const PoliceIdMaxLength: nat := 8

  /** The schema's validators for an account: six required strings and the
      `maxlength` on the police id. */
  predicate ValidUser(u: User) {
    && Required(u.fullname) && Required(u.policeId) && Required(u.contact)
    && Required(u.email) && Required(u.city) && Required(u.password)
    && |u.policeId| <= PoliceIdMaxLength
  }

  /** `new User({fullname, police_id, contact, email, city, password})` followed by
      `save()`: None when validation rejects it; otherwise both flags take
      their schema default, false. */
  function NewUser(fullname: string, policeId: string, contact: string, email: string, city: string, password: string): (r: Option<User>)
    ensures r.Some? <==>
      && Required(fullname) && Required(policeId) && Required(contact)
      && Required(email) && Required(city) && Required(password)
      && |policeId| <= PoliceIdMaxLength
    ensures r.Some? ==> ValidUser(r.value) && !r.value.isAdmin && !r.value.isApproved
    ensures r.Some? ==>
      && r.value.fullname == fullname && r.value.policeId == policeId
      && r.value.contact == contact && r.value.email == email
      && r.value.city == city && r.value.password == password
  {
    var u := User(fullname, policeId, contact, email, city, password, false, false);
    if ValidUser(u) then Some(u) else None
  }

  // ---------------------------------------------------------------- cases

  /** The editable fields a case and an update proposal share. `date` is the
      `case_date` Date; `status` holds whatever string was stored, which the
      enum validator restricts only on `save`. */
  datatype CaseFields = CaseFields(
    title: string,
    caseType: string,
    description: string,
    suspects: string,
    victim: string,
    guiltyName: string,
    date: Timestamp,
    handler: string,
    status: string)

  /** A case: the editable fields and two independent lifecycle flags,
      `isApproved` and `is_removed`. */
  datatype Case = Case(fields: CaseFields, isApproved: bool, isRemoved: bool)

  /** The status enum. */
  predicate IsStatus(s: string) {
    s == "ACTIVE" || s == "CLOSE"
  }

  /** The schema's validators over the editable fields. */
  predicate ValidFields(f: CaseFields) {
    Required(f.title) && Required(f.caseType) && Required(f.handler) && IsStatus(f.status)
  }

  /** Each of the four flag combinations is a valid case: the schema
      constrains the fields, never the flags. */
  lemma FlagsIndependent(c: Case, approved: bool, removed: bool)
    requires ValidFields(c.fields)
    ensures ValidFields(c.(isApproved := approved, isRemoved := removed).fields)
  {
  }

  /** A JSON body sent to the case routes. Absent keys are None; keys outside
      the schema are dropped by Mongoose's strict mode and are not carried. */
  datatype CaseBody = CaseBody(
    title: Option<string>,
    caseType: Option<string>,
    description: Option<string>,
    suspects: Option<string>,
    victim: Option<string>,
    guiltyName: Option<string>,
    date: Option<Timestamp>,
    handler: Option<string>,
    status: Option<string>,
    isApproved: Option<bool>,
    isRemoved: Option<bool>,
    originalCaseId: Option<Id>,
    requestedAt: Option<Timestamp>)

  const EmptyBody: CaseBody := CaseBody(None, None, None, None, None, None, None, None, None, None, None, None, None)

  /** Whether a body carries the required paths with valid values. */
  predicate HasRequiredFields(b: CaseBody) {
    && b.title.Some? && Required(b.title.value)
    && b.caseType.Some? && Required(b.caseType.value)
    && b.date.Some?
    && b.handler.Some? && Required(b.handler.value)
    && b.status.Some? && IsStatus(b.status.value)
  }

  /** Builds the editable fields from a body as the schema does: required
      paths must be present and valid, the four free-text paths default to "". */
  function FieldsFromBody(b: CaseBody): (r: Option<CaseFields>)
    ensures r.Some? <==> HasRequiredFields(b)
    ensures r.Some? ==> ValidFields(r.value)
    ensures r.Some? ==>
      && r.value.title == b.title.value && r.value.caseType == b.caseType.value
      && r.value.date == b.date.value && r.value.handler == b.handler.value
      && r.value.status == b.status.value
      && r.value.description == b.description.GetOr("")
      && r.value.suspects == b.suspects.GetOr("")
      && r.value.victim == b.victim.GetOr("")
      && r.value.guiltyName == b.guiltyName.GetOr("")
  {
    if HasRequiredFields(b) then
      Some(CaseFields(b.title.value, b.caseType.value, b.description.GetOr(""),
                      b.suspects.GetOr(""), b.victim.GetOr(""), b.guiltyName.GetOr(""),
                      b.date.value, b.handler.value, b.status.value))
    else None
  }

  /** `new Case({...body, isApproved: approved})` then `save()`: the explicit
      `approved` always wins over the body's own `isApproved`, while
      `is_removed` comes from the body or defaults to false. */
  function NewCase(b: CaseBody, approved: bool): (r: Option<Case>)
    ensures r.Some? <==> HasRequiredFields(b)
    ensures r.Some? ==> ValidFields(r.value.fields) && r.value.isApproved == approved
    ensures r.Some? ==> r.value.isRemoved == b.isRemoved.GetOr(false)
  {
    match FieldsFromBody(b)
    case Some(f) => Some(Case(f, approved, b.isRemoved.GetOr(false)))
    case None => None
  }

  /** The body's own `isApproved` has no influence on the created case. */
  lemma NewCaseIgnoresBodyApproval(b: CaseBody, x: Option<bool>, approved: bool)
    ensures NewCase(b.(isApproved := x), approved) == NewCase(b, approved)
  {
  }

  /** One path under `$set`: a value present in the body replaces the
      stored one, an absent path keeps it. */
  predicate Written<T(==)>(sent: Option<T>, before: T, after: T) {
    (sent.Some? ==> after == sent.value) && (sent.None? ==> after == before)
  }

  /** `$set: body` on a stored case, without validators (Mongoose runs none on
      updates by default): every present path overwrites, the flags
      included; paths outside the Case schema are dropped. */
  function ApplySet(c: Case, b: CaseBody): (r: Case)
    ensures Written(b.title, c.fields.title, r.fields.title)
    ensures Written(b.caseType, c.fields.caseType, r.fields.caseType)
    ensures Written(b.description, c.fields.description, r.fields.description)
    ensures Written(b.suspects, c.fields.suspects, r.fields.suspects)
    ensures Written(b.victim, c.fields.victim, r.fields.victim)
    ensures Written(b.guiltyName, c.fields.guiltyName, r.fields.guiltyName)
    ensures Written(b.date, c.fields.date, r.fields.date)
    ensures Written(b.handler, c.fields.handler, r.fields.handler)
    ensures Written(b.status, c.fields.status, r.fields.status)
    ensures Written(b.isApproved, c.isApproved, r.isApproved)
    ensures Written(b.isRemoved, c.isRemoved, r.isRemoved)
    ensures b == EmptyBody ==> r == c
  {
    var f := c.fields;
    Case(CaseFields(b.title.GetOr(f.title), b.caseType.GetOr(f.caseType),
                    b.description.GetOr(f.description), b.suspects.GetOr(f.suspects),
                    b.victim.GetOr(f.victim), b.guiltyName.GetOr(f.guiltyName),
                    b.date.GetOr(f.date), b.handler.GetOr(f.handler), b.status.GetOr(f.status)),
         b.isApproved.GetOr(c.isApproved), b.isRemoved.GetOr(c.isRemoved))
  }

  /** The body that carries every path of `c`, as a form loaded from `c` sends it. */
  function BodyOf(c: Case): CaseBody {
    var f := c.fields;
    CaseBody(Some(f.title), Some(f.caseType), Some(f.description), Some(f.suspects),
             Some(f.victim), Some(f.guiltyName), Some(f.date), Some(f.handler), Some(f.status),
             Some(c.isApproved), Some(c.isRemoved), None, None)
  }

  /** Applying the same `$set` twice is applying it once. */
  lemma ApplySetIdempotent(c: Case, b: CaseBody)
    ensures ApplySet(ApplySet(c, b), b) == ApplySet(c, b)
  {
  }

  /** Writing back a case's own values is a no-op; writing another case's
      values makes the case equal to that case. */
  lemma ApplySetBodyOf(c: Case, d: Case)
    ensures ApplySet(c, BodyOf(d)) == d
    ensures ApplySet(c, BodyOf(c)) == c
  {
  }

  /** An update that sets a status outside the enum is stored as sent: the
      enum holds for saved documents but not after `$set`. */
  lemma ApplySetSkipsEnum(c: Case)
    ensures !IsStatus(ApplySet(c, EmptyBody.(status := Some("PENDING"))).fields.status)
  {
  }

  // ------------------------------------------------------------ proposals

  /** A pending edit: the target case, the proposed fields and `requestedAt`.
      The schema has no lifecycle flags, so a proposal cannot carry any. */
  datatype Proposal = Proposal(target: Id, fields: CaseFields, requestedAt: Timestamp)

  predicate ValidProposal(p: Proposal) {
    ValidFields(p.fields)
  }

  /** `new UpdateCase(body)` then `save()` at time `now`: `originalCaseId` and
      the case's required paths must be present; `requestedAt` defaults to
      `now`. */
  function NewProposal(b: CaseBody, now: Timestamp): (r: Option<Proposal>)
    ensures r.Some? <==> b.originalCaseId.Some? && HasRequiredFields(b)
    ensures r.Some? ==> ValidProposal(r.value) && r.value.target == b.originalCaseId.value
    ensures r.Some? ==> r.value.requestedAt == b.requestedAt.GetOr(now)
    ensures r.Some? ==> Some(r.value.fields) == FieldsFromBody(b)
  {
    match FieldsFromBody(b)
    case Some(f) =>
      if b.originalCaseId.Some? then Some(Proposal(b.originalCaseId.value, f, b.requestedAt.GetOr(now)))
      else None
    case None => None
  }

  /** Lifecycle flags in a proposal body are discarded. */
  lemma NewProposalIgnoresFlags(b: CaseBody, now: Timestamp, a: Option<bool>, r: Option<bool>)
    ensures NewProposal(b.(isApproved := a, isRemoved := r), now) == NewProposal(b, now)
  {
  }

  /** The `$set` document approve-update builds: every proposal path except
      `_id`, `__v` and `originalCaseId`. `requestedAt` is carried but is not
      a Case path, so `ApplySet` drops it. */
  function MergeBody(p: Proposal): CaseBody {
    var f := p.fields;
    CaseBody(Some(f.title), Some(f.caseType), Some(f.description), Some(f.suspects),
             Some(f.victim), Some(f.guiltyName), Some(f.date), Some(f.handler), Some(f.status),
             None, None, None, Some(p.requestedAt))
  }

  /** Merging a proposal replaces all editable fields and keeps both flags. */
  lemma MergeReplacesFields(c: Case, p: Proposal)
    ensures ApplySet(c, MergeBody(p)) == Case(p.fields, c.isApproved, c.isRemoved)
  {
  }

  // -------------------------------------------------------------- reports

  /** A submitted report; existence is its only state. */
  datatype Report = Report(email: string, text: string, date: Timestamp)

  /** `new Report({email, reportText})` then `save()` at time `now`. */
  function NewReport(email: string, text: string, now: Timestamp): (r: Option<Report>)
    ensures r.Some? <==> Required(email) && Required(text)
    ensures r.Some? ==> r.value == Report(email, text, now)
  {
    if Required(email) && Required(text) then Some(Report(email, text, now)) else None
  }

  // ------------------------------------------------------- sort orders

  /** `sort({ case_date: -1 })`: newer cases first. */
  predicate NewestCaseFirst(a: Case, b: Case) {
    a.fields.date >= b.fields.date
  }

  /** `sort({ requestedAt: -1 })`. */
  predicate NewestProposalFirst(a: Proposal, b: Proposal) {
    a.requestedAt >= b.requestedAt
  }

  /** `sort({ date: -1 })`. */
  predicate NewestReportFirst(a: Report, b: Report) {
    a.date >= b.date
  }

  /** `sort({ fullname: 'asc' })`, by code point as the database compares strings. */
  predicate ByFullname(a: User, b: User) {
    Text.AtMost(a.fullname, b.fullname)
  }

  /** Each sort key gives a total preorder, so sorting by it is well defined. */
  lemma SortOrdersArePreorders()
    ensures Listing.TotalPreorder(NewestCaseFirst)
    ensures Listing.TotalPreorder(NewestProposalFirst)
    ensures Listing.TotalPreorder(NewestReportFirst)
    ensures Listing.TotalPreorder(ByFullname)
  {
    forall a: User, b: User
      ensures ByFullname(a, b) || ByFullname(b, a)
    {
      Text.AtMostTotal(a.fullname, b.fullname);
    }
    forall a: User, b: User, c: User | ByFullname(a, b) && ByFullname(b, c)
      ensures ByFullname(a, c)
    {
      Text.AtMostTransitive(a.fullname, b.fullname, c.fullname);
    }
  }
}

=== FILE: names.dfy ===
/** The names-list rule the three case forms apply to the suspects, victim
    and guilty-name fields: after trimming, an empty value asks for "N/A",
    "N/A" in any letter case is accepted, and anything else must be a
    comma-separated list of whitespace-separated alphabetic words. */
module Names {
  import opened Base
  import opened Text

  const NoPersonMsg: string := "If there is no person, enter N/A."
  const NamesFormatMsg: string := "Enter names like 'Name, Name, Name'."

  const Comma: char := ','

  /** Every character is an ASCII letter or whitespace. */
  predicate LettersAndSpaces(p: string) {
    forall c | c in p :: IsLetter(c) || IsSpace(c)
  }

  predicate HasLetter(p: string) {
    exists c | c in p :: IsLetter(c)
  }

  /** One entry of the list: words separated, and possibly surrounded, by
      whitespace. */
  predicate NamesPiece(p: string) {
    LettersAndSpaces(p) && HasLetter(p)
  }

  /** The language of the pattern
      `^\s*[A-Za-z]+(?:\s+[A-Za-z]+)*(?:\s*,\s*[A-Za-z]+(?:\s+[A-Za-z]+)*)*\s*$`:
      every comma-separated piece is an entry. */
  predicate NamesList(v: string) {
    forall p | p in Split(v, Comma) :: NamesPiece(p)
  }

  /** The four spellings `toUpperCase` maps to "N/A". */
  const NotApplicable: set<string> := {"N/A", "N/a", "n/A", "n/a"}

  // ------------------------------------------------------------ matcher

  /** The states of a left-to-right matcher for the pattern: inside an entry
      that has no letter yet, inside an entry that has one, or failed. */
  datatype State = Blank | Named | Dead

  function Next(st: State, c: char): State {
    match st
    case Blank => if IsSpace(c) then Blank else if IsLetter(c) then Named else Dead
    case Named => if IsLetter(c) || IsSpace(c) then Named else if c == Comma then Blank else Dead
    case Dead => Dead
  }

  function Run(st: State, s: string): State
    decreases |s|
  {
    if s == [] then st else Run(Next(st, s[0]), s[1..])
  }

  /** A failed match stays failed. */
  lemma {:induction false} DeadStays(s: string)
    ensures Run(Dead, s) == Dead
    decreases |s|
  {
    if s != [] {
      DeadStays(s[1..]);
    }
  }

  /** The entries after the first one. */
  predicate LaterPieces(ps: seq<string>)
    requires ps != []
  {
    forall p | p in ps[1..] :: NamesPiece(p)
  }

  /** What each start state accepts, in terms of the pieces of the input:
      from `Blank` the first piece must be a full entry, from `Named` (a
      letter already seen) it need only be letters and whitespace. */
  lemma {:induction false} RunAccepts(s: string)
    ensures var ps := Split(s, Comma);
      && (Run(Blank, s) == Named <==> NamesPiece(ps[0]) && LaterPieces(ps))
      && (Run(Named, s) == Named <==> LettersAndSpaces(ps[0]) && LaterPieces(ps))
    decreases |s|
  {
    if s == [] {
      assert Split(s, Comma) == [[]];
    } else {
      var c, x := s[0], s[1..];
      assert s == [c] + x;
      SplitCons(c, x, Comma);
      RunAccepts(x);
      DeadStays(x);
      var t := Split(x, Comma);
      var ps := Split(s, Comma);
      assert t == [t[0]] + t[1..];
      if c == Comma {
        assert ps[0] == [] && ps[1..] == t;
        assert !HasLetter(ps[0]);
      } else {
        assert ps[0] == [c] + t[0] && ps[1..] == t[1..];
        assert LettersAndSpaces(ps[0]) <==> (IsLetter(c) || IsSpace(c)) && LettersAndSpaces(t[0]);
        assert HasLetter(ps[0]) <==> IsLetter(c) || HasLetter(t[0]);
      }
    }
  }

  /** `namesListRegex.test(v)`: the matcher run from the start of `v`
      accepts exactly the names lists. */
  function MatchesNamesList(v: string): (b: bool)
    ensures b <==> NamesList(v)
  {
    RunAccepts(v);
    var ps := Split(v, Comma);
    assert ps == [ps[0]] + ps[1..];
    Run(Blank, v) == Named
  }

  // ------------------------------------------------------------- checker

  /** `toUpperCase() === 'N/A'` holds exactly for the four case spellings. */
  lemma UpperIsNotApplicable(v: string)
    ensures Upper(v) == "N/A" <==> v in NotApplicable
  {
    if Upper(v) == "N/A" {
      assert |v| == 3;
      assert UpperChar(v[0]) == 'N' && UpperChar(v[1]) == '/' && UpperChar(v[2]) == 'A';
      assert v == [v[0], v[1], v[2]];
    }
  }

  /** A field the rule accepts. */
  predicate NamesAccepted(val: string) {
    var v := Trim(val);
    v in NotApplicable || NamesList(v)
  }

  /** `checkNamesField`: passes when the trimmed value is "N/A" in any case
      or a names list; a blank value gets the "enter N/A" message and
      anything else the format message. */
  function CheckNames(val: string): (r: Check)
    ensures r.Pass? <==> NamesAccepted(val)
    ensures AllSpace(val) ==> r == Error(NoPersonMsg)
    ensures !AllSpace(val) && !NamesAccepted(val) ==> r == Error(NamesFormatMsg)
  {
    var v := Trim(val);
    UpperIsNotApplicable(v);
    if v == [] then
      assert Split(v, Comma) == [[]] && !NamesPiece(v);
      assert !NamesList(v);
      assert v !in NotApplicable;
      Error(NoPersonMsg)
    else if Upper(v) == "N/A" then Pass
    else if MatchesNamesList(v) then Pass else Error(NamesFormatMsg)
  }

  /** A names list is made of letters, whitespace and commas only. */
  lemma ListChars(v: string)
    requires NamesList(v)
    ensures forall c | c in v :: IsLetter(c) || IsSpace(c) || c == Comma
  {
    forall c | c in v && c != Comma
      ensures IsLetter(c) || IsSpace(c)
    {
      PieceOfChar(v, c);
      var i :| 0 <= i < |Split(v, Comma)| && c in Split(v, Comma)[i];
      assert NamesPiece(Split(v, Comma)[i]);
    }
  }

  /** A names list holds a letter, is never blank, and never contains the
      slash of "N/A", so the two accepted forms do not overlap. */
  lemma NamesListShape(v: string)
    requires NamesList(v)
    ensures v !in NotApplicable
    ensures exists c | c in v :: IsLetter(c)
    ensures !AllSpace(v)
  {
    ListChars(v);
    assert '/' !in v;
    var ps := Split(v, Comma);
    assert NamesPiece(ps[0]);
    var c :| c in ps[0] && IsLetter(c);
    CharInPiece(v, 0, c);
    var k :| 0 <= k < |v| && v[k] == c;
    assert !IsSpace(v[k]);
  }

  /** A character of a piece is a character of the string. */
  lemma {:induction false} CharInPiece(v: string, i: nat, c: char)
    requires i < |Split(v, Comma)| && c in Split(v, Comma)[i]
    ensures c in v
    decreases |v|
  {
    if v != [] {
      var x := v[1..];
      assert v == [v[0]] + x;
      SplitCons(v[0], x, Comma);
      if v[0] == Comma {
        if i > 0 {
          CharInPiece(x, i - 1, c);
        }
      } else if i == 0 {
        if c != v[0] {
          CharInPiece(x, 0, c);
        }
      } else {
        CharInPiece(x, i, c);
      }
    }
  }

  /** A non-comma character of the string lies in some piece. */
  lemma {:induction false} PieceOfChar(v: string, c: char)
    requires c in v && c != Comma
    ensures exists i | 0 <= i < |Split(v, Comma)| :: c in Split(v, Comma)[i]
    decreases |v|
  {
    var x := v[1..];
    assert v == [v[0]] + x;
    SplitCons(v[0], x, Comma);
    var t := Split(x, Comma);
    if v[0] == c {
      assert c in Split(v, Comma)[0];
    } else {
      PieceOfChar(x, c);
      var i :| 0 <= i < |t| && c in t[i];
      if v[0] == Comma {
        assert c in Split(v, Comma)[i + 1];
      } else if i == 0 {
        assert c in Split(v, Comma)[0];
      } else {
        assert c in Split(v, Comma)[i];
      }
    }
  }

  /** The checker accepts exactly the "N/A" spellings and the names lists,
      once surrounding whitespace is removed, and each for its own reason. */
  lemma CheckNamesCases(val: string)
    ensures var v := Trim(val);
      && (v in NotApplicable ==> CheckNames(val) == Pass && !NamesList(v))
      && (NamesList(v) ==> CheckNames(val) == Pass && v !in NotApplicable)
  {
    var v := Trim(val);
    if NamesList(v) {
      NamesListShape(v);
    }
  }
}

=== FILE: report_forms.dfy ===
/** The two report pages: the public page, which asks for an email and a
    text, and the page for logged-in users, which takes the email from the
    stored token and asks only for the text. Decoding a token on the client
    reads its claims without checking the signature or the expiry: it is a
    parameter `decode`, None when the library throws. */
module ReportForms {
  import opened Base
  import opened Text
  import opened Models
  import opened Email
  import Auth
  import Store
  import ReportRoutes

  const DescribeMsg: string := "Please describe your issue"
  const PublicShortMsg: string := "Report must be at least 50 characters long"
  const MemberShortMsg: string := "Report must be at least 50 characters"
  const OutdatedEmail: string := "N/A - Your login session is outdated."
  const OutdatedMsg: string :=
    "Your login session is outdated. Please log out and log in again to submit a report."

  /** The shortest text either page lets through, as the member route's rule. */
  const MinReportLength: nat := ReportRoutes.MinMemberReportLength

  // ---------------------------------------------------------- public page

  datatype PublicErrors = PublicErrors(email: Check, text: Check)

  /** The text rule of the public page: present, and at least 50 characters
      counting surrounding whitespace. */
  function PublicTextCheck(text: string): (r: Check)
    ensures r.Pass? <==> |text| >= MinReportLength
    ensures text == "" ==> r == Error(DescribeMsg)
    ensures 0 < |text| < MinReportLength ==> r == Error(PublicShortMsg)
  {
    if text == "" then Error(DescribeMsg)
    else if |text| < MinReportLength then Error(PublicShortMsg) else Pass
  }

  /** The public page's `validate`. */
  function PublicReportErrors(email: string, text: string): (e: PublicErrors)
    ensures e.email.Pass? <==> AnchoredMatch(email)
    ensures e.text.Pass? <==> |text| >= MinReportLength
  {
    PublicErrors(EmailCheck(email), PublicTextCheck(text))
  }

  datatype PublicOutcome =
    | PublicRefused(errors: PublicErrors)
    | PublicSent(email: string, text: string)   // the form data, posted to `/public`

  /** The public page's `onSubmit`: the form data goes out exactly when both
      fields pass, unchanged. */
  function PublicSubmit(email: string, text: string): (r: PublicOutcome)
    ensures r.PublicSent? <==> AnchoredMatch(email) && |text| >= MinReportLength
    ensures r.PublicSent? ==> r == PublicSent(email, text)
    ensures r.PublicRefused? ==> r.errors == PublicReportErrors(email, text)
  {
    var e := PublicReportErrors(email, text);
    if e.email.Pass? && e.text.Pass? then PublicSent(email, text) else PublicRefused(e)
  }

  /** What the public page sends, the server stores: a report of exactly the
      typed email and text. The server's own rule (both present, no length)
      is weaker, so a short text the page refuses would be accepted. */
  lemma PublicClientSufficient(db: Store.Db, newId: Id, email: string, text: string, now: Timestamp)
    requires newId !in db.reports
    ensures PublicSubmit(email, text).PublicSent? ==>
      var s := ReportRoutes.PublicReport(db, newId, email, text, now);
      && s.reply == Ok(201, ReportRoutes.SubmittedMsg)
      && s.db == db.(reports := db.reports[newId := Report(email, text, now)])
    ensures AnchoredMatch(email) && 0 < |text| < MinReportLength ==>
      && PublicSubmit(email, text).PublicRefused?
      && ReportRoutes.PublicReport(db, newId, email, text, now).reply.Ok?
  {
    if AnchoredMatch(email) {
      var at, dot :| 0 <= at < |email| && 0 <= dot < |email| && AnchoredAt(email, at, dot);
      assert email != "";
    }
  }

  // ---------------------------------------------------------- member page

  /** What the page learnt from the stored token when it loaded: the email
      shown and sent, and whether the session is marked outdated. */
  datatype Session = Session(email: string, outdated: bool)

  /** The page's load effect. No token (or an empty one) leaves the email
      empty and the session usable; a token that does not decode marks the
      session outdated with the email still empty; a decoded token without a
      user or with an empty email marks it outdated and shows a notice in
      place of the email; otherwise the token's email is used. */
  function LoadSession(token: Option<string>, decode: string -> Option<Auth.Payload>): (r: Session)
    ensures token.None? || token.value == "" ==> r == Session("", false)
    ensures !r.outdated && r.email != "" ==>
      && token.Some? && decode(token.value).Some? && decode(token.value).value.user.Some?
      && r.email == decode(token.value).value.user.value.email
    ensures token.Some? && token.value != "" ==>
      (r.outdated <==> decode(token.value).None? || decode(token.value).value.user.None?
                       || decode(token.value).value.user.value.email == "")
  {
    if token.None? || token.value == "" then Session("", false)
    else match decode(token.value)
      case None => Session("", true)
      case Some(p) =>
        if p.user.Some? && p.user.value.email != "" then Session(p.user.value.email, false)
        else Session(OutdatedEmail, true)
  }

  /** The member page's `validate`: the text is judged after trimming. */
  function MemberTextCheck(text: string): (r: Check)
    ensures r.Pass? <==> |Trim(text)| >= MinReportLength
    ensures AllSpace(text) ==> r == Error(DescribeMsg)
    ensures !AllSpace(text) && |Trim(text)| < MinReportLength ==> r == Error(MemberShortMsg)
  {
    if text == "" || Trim(text) == "" then Error(DescribeMsg)
    else if |Trim(text)| < MinReportLength then Error(MemberShortMsg) else Pass
  }

  datatype MemberOutcome =
    | Outdated                               // alerted; validation does not run
    | MemberRefused(error: Check)
    | MemberSent(email: string, text: string) // posted to `/` with the stored token

  /** The member page's `onSubmit`: an outdated session is refused before the
      text is looked at; otherwise a text that passes goes out, untrimmed,
      with the session's email. */
  function MemberSubmit(session: Session, text: string): (r: MemberOutcome)
    ensures r.Outdated? <==> session.outdated
    ensures r.MemberSent? <==> !session.outdated && |Trim(text)| >= MinReportLength
    ensures r.MemberSent? ==> r == MemberSent(session.email, text)
    ensures r.MemberRefused? ==> r.error == MemberTextCheck(text)
  {
    if session.outdated then Outdated
    else
      var err := MemberTextCheck(text);
      if err.Pass? then MemberSent(session.email, text) else MemberRefused(err)
  }

  /** With a genuine token, one the server verifies to the same payload the
      page decoded, whatever the page sends the server stores, as a report of
      the token's email and the text as typed. */
  lemma MemberClientSufficient(db: Store.Db, newId: Id, t: string, decode: string -> Option<Auth.Payload>,
                               verify: string -> Option<Auth.Payload>, text: string, now: Timestamp)
    requires newId !in db.reports
    requires t != "" && verify(t).Some? && decode(t) == verify(t)
    ensures var r := MemberSubmit(LoadSession(Some(t), decode), text);
      r.MemberSent? ==>
        && verify(t).value.user.Some?
        && r.email == verify(t).value.user.value.email
        && var s := ReportRoutes.MemberReport(db, newId, Some(t), verify, r.email, text, now);
           && s.reply == Ok(201, ReportRoutes.SubmittedMsg)
           && s.db == db.(reports := db.reports[newId := Report(r.email, text, now)])
  {
  }

  /** Without a token the page still sends a text that passes, with an empty
      email, and the server turns it away for want of a token. */
  lemma TokenlessMemberIsTurnedAway(db: Store.Db, newId: Id, decode: string -> Option<Auth.Payload>,
                                    verify: string -> Option<Auth.Payload>, text: string, now: Timestamp)
    requires newId !in db.reports
    requires |Trim(text)| >= MinReportLength
    ensures MemberSubmit(LoadSession(None, decode), text) == MemberSent("", text)
    ensures ReportRoutes.MemberReport(db, newId, None, verify, "", text, now)
      == Store.Step(db, Fail(401, Auth.NoTokenMsg))
  {
    var session := LoadSession(None, decode);
    assert session == Session("", false);
    assert MemberTextCheck(text) == Pass;
    assert Auth.UserAuth(None, verify) == Fail(401, Auth.NoTokenMsg);
  }

  /** The member page's text rule is the stricter one: what it accepts the
      public page accepts; a text of 50 or more whitespace characters passes
      the public rule and fails the member rule. */
  lemma MemberTextRuleIsStricter(text: string)
    ensures MemberTextCheck(text).Pass? ==> PublicTextCheck(text).Pass?
    ensures AllSpace(text) && |text| >= MinReportLength ==>
      PublicTextCheck(text).Pass? && MemberTextCheck(text) == Error(DescribeMsg)
  {
  }
}

=== FILE: report_routes.dfy ===
/** The report router: the public intake, the intake for logged-in users,
    the listing, and deletion ("mark as read"). A body field that is absent
    is the empty string here: the source tests both the same way. */
module ReportRoutes {
  import opened Base
  import opened Models
  import opened Store
  import opened Auth
  import opened Listing

  const MissingFieldsMsg: string := "Please enter all fields"
  const BadFieldsMsg: string := "Please fill out all fields correctly."
  const SubmittedMsg: string := "Report submitted successfully."
  const MarkedReadMsg: string := "Report marked as read."

  /** The shortest report text a logged-in user may send. */
  const MinMemberReportLength: nat := 50

  /** `POST /public`: no token; 400 unless both email and text are present,
      with no length rule; the report holds exactly the email, the text and
      the submission time. */
  function PublicReport(db: Db, newId: Id, email: string, text: string, now: Timestamp): (s: Step<string>)
    requires newId !in db.reports
    ensures s.reply.Ok? <==> email != "" && text != ""
    ensures s.reply.Fail? ==> s == Step(db, Fail(400, MissingFieldsMsg))
    ensures s.reply.Ok? ==>
      && s.reply == Ok(201, SubmittedMsg)
      && s.db == db.(reports := db.reports[newId := Report(email, text, now)])
  {
    if email == "" || text == "" then Step(db, Fail(400, MissingFieldsMsg))
    else match NewReport(email, text, now)
      case Some(r) => Step(db.(reports := db.reports[newId := r]), Ok(201, SubmittedMsg))
      case None => Step(db, Fail(500, ServerError))
  }

  /** `POST /`: the token must be present and verify (401 otherwise), but
      its claims are not used: the email comes from the body. 400 unless
      both fields are present and the text has at least 50 characters. */
  function MemberReport(db: Db, newId: Id, token: Option<string>, verify: string -> Option<Payload>,
                        email: string, text: string, now: Timestamp): (s: Step<string>)
    requires newId !in db.reports
    ensures UserAuth(token, verify).Fail? ==>
      s == Step(db, Fail(401, UserAuth(token, verify).msg))
    ensures s.reply.Ok? <==>
      UserAuth(token, verify).Ok? && email != "" && text != "" && |text| >= MinMemberReportLength
    ensures UserAuth(token, verify).Ok? && s.reply.Fail? ==> s == Step(db, Fail(400, BadFieldsMsg))
    ensures s.reply.Ok? ==>
      && s.reply == Ok(201, SubmittedMsg)
      && s.db == db.(reports := db.reports[newId := Report(email, text, now)])
  {
    var auth := UserAuth(token, verify);
    if auth.Fail? then Step(db, Fail(auth.code, auth.msg))
    else if email == "" || text == "" || |text| < MinMemberReportLength then Step(db, Fail(400, BadFieldsMsg))
    else match NewReport(email, text, now)
      case Some(r) => Step(db.(reports := db.reports[newId := r]), Ok(201, SubmittedMsg))
      case None => Step(db, Fail(500, ServerError))
  }

  /** `GET /`: every report, newest first. */
  method ListReports(reports: map<Id, Report>) returns (r: Reply<seq<Id>>)
    ensures r.Ok? && r.code == 200 && Distinct(r.value) && InDomain(reports, r.value)
    ensures forall id :: id in r.value <==> id in reports
    ensures Ordered(reports, NewestReportFirst, r.value)
  {
    SortOrdersArePreorders();
    var ids := Select(reports, (x: Report) => true, NewestReportFirst);
    return Ok(200, ids);
  }

  /** `DELETE /:id`: removes the report if there is one; 200 either way. */
  function DeleteReport(db: Db, id: Id): (s: Step<string>)
    ensures s.reply == Ok(200, MarkedReadMsg)
    ensures s.db.reports.Keys == db.reports.Keys - {id}
    ensures forall k | k in s.db.reports :: s.db.reports[k] == db.reports[k]
    ensures s.db.users == db.users && s.db.cases == db.cases && s.db.updates == db.updates
  {
    Step(db.(reports := db.reports - {id}), Ok(200, MarkedReadMsg))
  }

  // ------------------------------------------------------------- lemmas

  /** Whatever a logged-in user may send, the public intake accepts too,
      storing the same report; the converse fails for short texts. */
  lemma MemberRuleIsStricter(db: Db, newId: Id, token: Option<string>, verify: string -> Option<Payload>,
                             email: string, text: string, now: Timestamp)
    requires newId !in db.reports
    ensures MemberReport(db, newId, token, verify, email, text, now).reply.Ok? ==>
      PublicReport(db, newId, email, text, now) == MemberReport(db, newId, token, verify, email, text, now)
    ensures email != "" && text != "" && |text| < MinMemberReportLength ==>
      && PublicReport(db, newId, email, text, now).reply.Ok?
      && MemberReport(db, newId, token, verify, email, text, now).reply.Fail?
  {
  }

  /** Deleting a report twice is deleting it once. */
  lemma DeleteReportIdempotent(db: Db, id: Id)
    ensures DeleteReport(DeleteReport(db, id).db, id) == DeleteReport(db, id)
  {
    assert db.reports - {id} - {id} == db.reports - {id};
  }
}

=== FILE: search.dfy ===
/** The search-filter builder, written twice in the source: once for the
    public case list and once for the admin search. It turns a scope and a
    (field, query) pair into a MongoDB filter object, which the database
    then casts against the Case schema and evaluates on each case.

    A `$regex` query is read as a case-insensitive literal substring match. */
module Search {
  import opened Base
  import opened Text
  import opened Models
  import opened Listing

  /** Who is searching: the public list or an administrator. */
  datatype Scope = Public | Admin

  /** The schema types of the Case paths. */
  datatype PathType = StringPath | DatePath | BooleanPath | ObjectIdPath | NumberPath

  /** The path types of the Case schema, `_id` and `__v` included; None for
      a name the schema does not know. */
  function SchemaPath(name: string): Option<PathType> {
    if name in {"case_title", "case_type", "case_description", "suspects", "victim",
                "guilty_name", "case_handler", "status"} then Some(StringPath)
    else if name == "case_date" then Some(DatePath)
    else if name == "isApproved" || name == "is_removed" then Some(BooleanPath)
    else if name == "_id" then Some(ObjectIdPath)
    else if name == "__v" then Some(NumberPath)
    else None
  }

  /** A stored value a condition can compare against. */
  datatype Value = Str(s: string) | Flag(b: bool) | Date(t: Timestamp)

  /** The value of a named path of a case; None for `_id`, `__v` and names
      outside the schema, which no condition here can match. */
  function PathValue(c: Case, name: string): Option<Value> {
    var f := c.fields;
    if name == "case_title" then Some(Str(f.title))
    else if name == "case_type" then Some(Str(f.caseType))
    else if name == "case_description" then Some(Str(f.description))
    else if name == "suspects" then Some(Str(f.suspects))
    else if name == "victim" then Some(Str(f.victim))
    else if name == "guilty_name" then Some(Str(f.guiltyName))
    else if name == "case_handler" then Some(Str(f.handler))
    else if name == "status" then Some(Str(f.status))
    else if name == "case_date" then Some(Date(f.date))
    else if name == "isApproved" then Some(Flag(c.isApproved))
    else if name == "is_removed" then Some(Flag(c.isRemoved))
    else None
  }

  /** The value a filter key holds. */
  datatype Cond =
    | IsFlag(b: bool)                            // `{ path: b }`
    | NotTrue                                    // `{ path: { $ne: true } }`
    | IsString(s: string)                        // `{ path: s }`
    | SameDay(window: Option<(Timestamp, Timestamp)>) // `{ $gte: d, $lt: nextDay }`; None for an Invalid Date
    | Pattern(p: string)                         // `{ $regex: p, $options: 'i' }`
    | AnyPattern(paths: seq<string>, p: string)  // `$or` of one pattern over several paths

  /** A filter object: path name (or `$or`) to condition. */
  type Filter = map<string, Cond>

  const OrKey: string := "$or"

  /** The seven text paths the "for-all" search ORs over. */
  const ForAllPaths: seq<string> :=
    ["case_title", "case_type", "case_description", "suspects", "victim", "guilty_name", "case_handler"]

  /** The forced part of each scope's filter. */
  function ScopeFilter(scope: Scope): Filter {
    match scope
    case Public => map["isApproved" := IsFlag(true), "is_removed" := NotTrue]
    case Admin => map["is_removed" := NotTrue]
  }

  /** The key JavaScript treats as the object's prototype: assigning to it
      on a plain object adds no key of its own. */
  const ProtoKey: string := "__proto__"

  /** The day window of "case_date": from the parsed query up to `nextDay`
      of it, which is `setDate(getDate() + 1)`, the same wall-clock time on
      the next local calendar day (24 hours in UTC, 23 or 25 across a
      daylight-saving change). None when the query does not parse. */
  function DayWindow(start: Option<Timestamp>, nextDay: Timestamp -> Timestamp): Option<(Timestamp, Timestamp)> {
    if start.Some? then Some((start.value, nextDay(start.value))) else None
  }

  /** The filter both routes build. Nothing is added unless both `field` and
      `query` are non-empty. "for-all" adds an `$or`; "isApproved" (admin
      only) compares with `query == "1"`; "status" compares with the
      upper-cased query; "case_date" takes the day window of the parsed
      query (`dateOf`, JavaScript's `new Date(query)`); `__proto__` replaces
      the filter's prototype and so adds nothing the database sees; any
      other field writes a pattern under the key `field` names, replacing a
      scope entry of the same name. */
  function BuildFilter(scope: Scope, field: string, query: string, dateOf: string -> Option<Timestamp>, nextDay: Timestamp -> Timestamp): (f: Filter)
    ensures field == "" || query == "" || field == ProtoKey ==> f == ScopeFilter(scope)
    ensures forall k | k in ScopeFilter(scope) && k != field :: k in f && f[k] == ScopeFilter(scope)[k]
  {
    var base := ScopeFilter(scope);
    if query == "" || field == "" then base
    else if field == "for-all" then base[OrKey := AnyPattern(ForAllPaths, query)]
    else if scope == Admin && field == "isApproved" then base["isApproved" := IsFlag(query == "1")]
    else if field == "status" then base["status" := IsString(Upper(query))]
    else if field == "case_date" then base["case_date" := SameDay(DayWindow(dateOf(query), nextDay))]
    else if field == ProtoKey then base
    else base[field := Pattern(query)]
  }

  /** Whether the database accepts a condition under a key: a pattern needs
      a String path or a path outside the schema (a `$regex` on a Boolean,
      Date, ObjectId or Number path is a cast error), a day window needs a
      valid date, and a `$`-prefixed key takes only the `$or` list. */
  predicate CondCasts(key: string, cond: Cond) {
    if StartsWith(key, '$') then cond.AnyPattern?
    else match cond
      case Pattern(_) => SchemaPath(key) == Some(StringPath) || SchemaPath(key).None?
      case SameDay(window) => window.Some?
      case AnyPattern(paths, _) => forall i | 0 <= i < |paths| :: SchemaPath(paths[i]) == Some(StringPath)
      case _ => true
  }

  /** The database accepts the whole filter; otherwise the route answers 500. */
  predicate Casts(f: Filter) {
    forall k | k in f :: CondCasts(k, f[k])
  }

  /** A case-insensitive literal match of `p` in a text path of `c`. */
  predicate PatternHolds(c: Case, path: string, p: string) {
    match PathValue(c, path)
    case Some(Str(s)) => ContainsFolded(s, p)
    case _ => false
  }

  /** A case satisfies one condition. */
  predicate Holds(c: Case, key: string, cond: Cond) {
    match cond
    case IsFlag(b) => PathValue(c, key) == Some(Flag(b))
    case NotTrue => PathValue(c, key) != Some(Flag(true))
    case IsString(s) => PathValue(c, key) == Some(Str(s))
    case SameDay(window) =>
      (match PathValue(c, key)
       case Some(Date(t)) => window.Some? && window.value.0 <= t < window.value.1
       case _ => false)
    case Pattern(p) => PatternHolds(c, key, p)
    case AnyPattern(paths, p) => exists i | 0 <= i < |paths| :: PatternHolds(c, paths[i], p)
  }

  /** A case satisfies every condition of the filter. */
  predicate Matches(f: Filter, c: Case) {
    forall k | k in f :: Holds(c, k, f[k])
  }

  // --------------------------------------------------------- semantics

  /** Adding a key to a filter adds its condition to the match. */
  lemma Extend(f: Filter, k: string, cond: Cond, c: Case)
    requires k !in f
    ensures Matches(f[k := cond], c) <==> Matches(f, c) && Holds(c, k, cond)
  {
    var g := f[k := cond];
    if Matches(f, c) && Holds(c, k, cond) {
      forall j | j in g
        ensures Holds(c, j, g[j])
      {
        if j != k {
          assert g[j] == f[j];
        }
      }
    }
    if Matches(g, c) {
      assert Holds(c, k, g[k]);
      forall j | j in f
        ensures Holds(c, j, f[j])
      {
        assert g[j] == f[j] && Holds(c, j, g[j]);
      }
    }
  }

  /** The scope filters alone: the public scope is approved and not
      removed, the admin scope is not removed. */
  lemma ScopeSemantics(c: Case)
    ensures Matches(ScopeFilter(Public), c) <==> c.isApproved && !c.isRemoved
    ensures Matches(ScopeFilter(Admin), c) <==> !c.isRemoved
  {
    var empty: Filter := map[];
    Extend(empty, "is_removed", NotTrue, c);
    assert ScopeFilter(Admin) == empty["is_removed" := NotTrue];
    Extend(ScopeFilter(Admin), "isApproved", IsFlag(true), c);
    assert ScopeFilter(Public) == ScopeFilter(Admin)["isApproved" := IsFlag(true)];
  }

  /** Whatever the field and query, a filter the database accepts never
      lets a removed case through, and in the public scope never an
      unapproved one: the generic branch can overwrite a scope key only with
      a pattern on a Boolean path, which does not cast. */
  lemma ResultsStayInScope(scope: Scope, field: string, query: string,
                           dateOf: string -> Option<Timestamp>, nextDay: Timestamp -> Timestamp, c: Case)
    requires Casts(BuildFilter(scope, field, query, dateOf, nextDay))
    requires Matches(BuildFilter(scope, field, query, dateOf, nextDay), c)
    ensures !c.isRemoved
    ensures scope == Public ==> c.isApproved
  {
    FlagKeyHolds(BuildFilter(scope, field, query, dateOf, nextDay), scope, field, query, "is_removed", c);
    if scope == Public {
      FlagKeyHolds(BuildFilter(scope, field, query, dateOf, nextDay), scope, field, query, "isApproved", c);
    }
  }

  /** A flag key the scope forces is either kept, and then holds, or
      replaced by a pattern, which does not cast. */
  lemma FlagKeyHolds(f: Filter, scope: Scope, field: string, query: string, k: string, c: Case)
    requires k in ScopeFilter(scope) && k in f && Casts(f) && Matches(f, c)
    requires f[k] == ScopeFilter(scope)[k] || (field == k && query != "" && f[k].Pattern?)
    ensures f[k] == ScopeFilter(scope)[k]
    ensures Holds(c, k, f[k])
  {
    assert CondCasts(k, f[k]);
  }

  /** In the public scope the generic branch handles "isApproved": the
      forced `isApproved: true` entry is replaced by a pattern, which the
      database then refuses to cast, so the request fails with 500. */
  lemma PublicApprovalKeyReplaced(query: string, dateOf: string -> Option<Timestamp>, nextDay: Timestamp -> Timestamp)
    requires query != ""
    ensures BuildFilter(Public, "isApproved", query, dateOf, nextDay)["isApproved"] == Pattern(query)
    ensures !Casts(BuildFilter(Public, "isApproved", query, dateOf, nextDay))
  {
    var f := BuildFilter(Public, "isApproved", query, dateOf, nextDay);
    assert !CondCasts("isApproved", f["isApproved"]);
  }

  /** The same happens in both scopes for "is_removed". */
  lemma RemovedKeyReplaced(scope: Scope, query: string, dateOf: string -> Option<Timestamp>, nextDay: Timestamp -> Timestamp)
    requires query != ""
    ensures BuildFilter(scope, "is_removed", query, dateOf, nextDay)["is_removed"] == Pattern(query)
    ensures !Casts(BuildFilter(scope, "is_removed", query, dateOf, nextDay))
  {
    var f := BuildFilter(scope, "is_removed", query, dateOf, nextDay);
    assert !CondCasts("is_removed", f["is_removed"]);
  }

  /** The two copies of the builder agree except for "isApproved": the
      public one is the admin one plus the forced `isApproved: true`. */
  lemma BuildersAgree(field: string, query: string, dateOf: string -> Option<Timestamp>, nextDay: Timestamp -> Timestamp)
    requires field != "isApproved"
    ensures BuildFilter(Public, field, query, dateOf, nextDay)
         == BuildFilter(Admin, field, query, dateOf, nextDay)["isApproved" := IsFlag(true)]
  {
  }

  /** A case-insensitive match in at least one of the seven text paths. */
  predicate AnyTextMatches(c: Case, query: string) {
    || ContainsFolded(c.fields.title, query) || ContainsFolded(c.fields.caseType, query)
    || ContainsFolded(c.fields.description, query) || ContainsFolded(c.fields.suspects, query)
    || ContainsFolded(c.fields.victim, query) || ContainsFolded(c.fields.guiltyName, query)
    || ContainsFolded(c.fields.handler, query)
  }

  lemma ForAllPathsText(c: Case, query: string)
    ensures Holds(c, OrKey, AnyPattern(ForAllPaths, query)) <==> AnyTextMatches(c, query)
  {
    var f := c.fields;
    assert PatternHolds(c, ForAllPaths[0], query) <==> ContainsFolded(f.title, query);
    assert PatternHolds(c, ForAllPaths[1], query) <==> ContainsFolded(f.caseType, query);
    assert PatternHolds(c, ForAllPaths[2], query) <==> ContainsFolded(f.description, query);
    assert PatternHolds(c, ForAllPaths[3], query) <==> ContainsFolded(f.suspects, query);
    assert PatternHolds(c, ForAllPaths[4], query) <==> ContainsFolded(f.victim, query);
    assert PatternHolds(c, ForAllPaths[5], query) <==> ContainsFolded(f.guiltyName, query);
    assert PatternHolds(c, ForAllPaths[6], query) <==> ContainsFolded(f.handler, query);
    if Holds(c, OrKey, AnyPattern(ForAllPaths, query)) {
      var i :| 0 <= i < |ForAllPaths| && PatternHolds(c, ForAllPaths[i], query);
      assert i in {0, 1, 2, 3, 4, 5, 6};
    }
  }

  /** "for-all": the scope, and a case-insensitive match in at least one of
      the seven text paths. */
  lemma ForAllSemantics(scope: Scope, query: string, dateOf: string -> Option<Timestamp>, nextDay: Timestamp -> Timestamp, c: Case)
    requires query != ""
    ensures Casts(BuildFilter(scope, "for-all", query, dateOf, nextDay))
    ensures Matches(BuildFilter(scope, "for-all", query, dateOf, nextDay), c) <==>
      Matches(ScopeFilter(scope), c) && AnyTextMatches(c, query)
  {
    var f := BuildFilter(scope, "for-all", query, dateOf, nextDay);
    assert f == ScopeFilter(scope)[OrKey := AnyPattern(ForAllPaths, query)];
    Extend(ScopeFilter(scope), OrKey, AnyPattern(ForAllPaths, query), c);
    ForAllPathsText(c, query);
    forall k | k in f
      ensures CondCasts(k, f[k])
    {
      if k == OrKey {
        forall i | 0 <= i < |ForAllPaths|
          ensures SchemaPath(ForAllPaths[i]) == Some(StringPath)
        {
          assert i in {0, 1, 2, 3, 4, 5, 6};
        }
      }
    }
  }

  /** "status": the scope, and the stored status equals the upper-cased query. */
  lemma StatusSemantics(scope: Scope, query: string, dateOf: string -> Option<Timestamp>, nextDay: Timestamp -> Timestamp, c: Case)
    requires query != ""
    ensures Casts(BuildFilter(scope, "status", query, dateOf, nextDay))
    ensures Matches(BuildFilter(scope, "status", query, dateOf, nextDay), c) <==>
      Matches(ScopeFilter(scope), c) && c.fields.status == Upper(query)
  {
    var f := BuildFilter(scope, "status", query, dateOf, nextDay);
    assert f == ScopeFilter(scope)["status" := IsString(Upper(query))];
    Extend(ScopeFilter(scope), "status", IsString(Upper(query)), c);
  }

  /** "case_date": the scope, and a filing time from the parsed query up to
      the same time on the next local day; a query that does not parse fails
      the cast. */
  lemma DateSemantics(scope: Scope, query: string, dateOf: string -> Option<Timestamp>, nextDay: Timestamp -> Timestamp, c: Case)
    requires query != ""
    ensures Casts(BuildFilter(scope, "case_date", query, dateOf, nextDay)) <==> dateOf(query).Some?
    ensures dateOf(query).Some? ==>
      (Matches(BuildFilter(scope, "case_date", query, dateOf, nextDay), c) <==>
        && Matches(ScopeFilter(scope), c)
        && dateOf(query).value <= c.fields.date < nextDay(dateOf(query).value))
  {
    var f := BuildFilter(scope, "case_date", query, dateOf, nextDay);
    var w := SameDay(DayWindow(dateOf(query), nextDay));
    assert f == ScopeFilter(scope)["case_date" := w];
    Extend(ScopeFilter(scope), "case_date", w, c);
    assert Casts(f) <==> CondCasts("case_date", f["case_date"]);
  }

  /** Admin "isApproved": not removed, and approved exactly when the query
      is "1". */
  lemma AdminApprovalSemantics(query: string, dateOf: string -> Option<Timestamp>, nextDay: Timestamp -> Timestamp, c: Case)
    requires query != ""
    ensures Casts(BuildFilter(Admin, "isApproved", query, dateOf, nextDay))
    ensures Matches(BuildFilter(Admin, "isApproved", query, dateOf, nextDay), c) <==>
      !c.isRemoved && c.isApproved == (query == "1")
  {
    var f := BuildFilter(Admin, "isApproved", query, dateOf, nextDay);
    assert f.Keys == {"is_removed", "isApproved"};
    assert Holds(c, "is_removed", NotTrue) <==> !c.isRemoved;
  }

  /** Any other text path: the scope, and a case-insensitive match in that path. */
  lemma TextPathSemantics(scope: Scope, field: string, query: string,
                          dateOf: string -> Option<Timestamp>, nextDay: Timestamp -> Timestamp, c: Case)
    requires query != "" && SchemaPath(field) == Some(StringPath)
    requires field != "status"
    ensures Casts(BuildFilter(scope, field, query, dateOf, nextDay))
    ensures Matches(BuildFilter(scope, field, query, dateOf, nextDay), c) <==>
      && Matches(ScopeFilter(scope), c)
      && PathValue(c, field).Some? && ContainsFolded(PathValue(c, field).value.s, query)
  {
    var f := BuildFilter(scope, field, query, dateOf, nextDay);
    assert field !in ScopeFilter(scope);
    assert f == ScopeFilter(scope)[field := Pattern(query)];
    Extend(ScopeFilter(scope), field, Pattern(query), c);
    assert PathValue(c, field).Some? && PathValue(c, field).value.Str?;
  }

  /** A field name outside the schema is accepted by the database and matches
      no case at all. This is Mongoose's behaviour with `strictQuery` off,
      its default from version 7 on; with it on (the version 6 default) the
      path would be dropped and the search would return the whole scope. */
  lemma UnknownFieldMatchesNothing(scope: Scope, field: string, query: string,
                                   dateOf: string -> Option<Timestamp>, nextDay: Timestamp -> Timestamp, c: Case)
    requires query != "" && field != "" && SchemaPath(field).None?
    requires field != "for-all" && field != ProtoKey && !StartsWith(field, '$')
    ensures Casts(BuildFilter(scope, field, query, dateOf, nextDay))
    ensures !Matches(BuildFilter(scope, field, query, dateOf, nextDay), c)
  {
    var f := BuildFilter(scope, field, query, dateOf, nextDay);
    assert !Holds(c, field, f[field]);
  }

  /** `field=__proto__` only replaces the filter object's prototype, so the
      database sees the bare scope: the public search returns every
      approved, non-removed case, and the admin search every non-removed one. */
  lemma ProtoFieldSearchesScope(scope: Scope, query: string, dateOf: string -> Option<Timestamp>,
                                nextDay: Timestamp -> Timestamp, c: Case)
    ensures Casts(BuildFilter(scope, ProtoKey, query, dateOf, nextDay))
    ensures Matches(BuildFilter(scope, ProtoKey, query, dateOf, nextDay), c) <==>
      !c.isRemoved && (scope == Public ==> c.isApproved)
  {
    ScopeSemantics(c);
    assert BuildFilter(scope, ProtoKey, query, dateOf, nextDay) == ScopeFilter(scope);
  }

  // ----------------------------------------------------------- listing

  /** Runs a search: 500 when the filter does not cast; otherwise exactly the
      matching cases, each once, newest first. */
  method Run(cases: map<Id, Case>, scope: Scope, field: string, query: string,
             dateOf: string -> Option<Timestamp>, nextDay: Timestamp -> Timestamp) returns (r: Reply<seq<Id>>)
    ensures r.Fail? <==> !Casts(BuildFilter(scope, field, query, dateOf, nextDay))
    ensures r.Fail? ==> r == Fail(500, ServerError)
    ensures r.Ok? ==>
      && r.code == 200 && Distinct(r.value) && InDomain(cases, r.value)
      && (forall id :: id in r.value <==> id in cases && Matches(BuildFilter(scope, field, query, dateOf, nextDay), cases[id]))
      && Ordered(cases, NewestCaseFirst, r.value)
  {
    var f := BuildFilter(scope, field, query, dateOf, nextDay);
    if !Casts(f) {
      return Fail(500, ServerError);
    }
    SortOrdersArePreorders();
    var ids := Select(cases, c => Matches(f, c), NewestCaseFirst);
    return Ok(200, ids);
  }
}

=== FILE: seeder.dfy ===
/** The seeder's reader for a MySQL dump: the values of one row of an
    `INSERT ... VALUES` statement are found by splitting the row at every
    comma, re-joining the pieces of quoted values that contained commas,
    trimming, removing the outer quotes and undoing the dump's escapes; the
    rows of the user and case tables then become records.

    Finding the statement and its rows (two regular expressions over the
    file) is not modelled: the row strings, when there are any, are the
    input. */
module Seeder {
  import opened Base
  import opened Text
  import opened Models

  const Quote: char := '\''
  const Backslash: char := '\\'
  const Comma: char := ','

  // ------------------------------------------------------------- splitting

  /** `row.slice(1, -1)`: the row without its parentheses. */
  function Inner(row: string): (r: string)
    ensures |row| >= 2 ==> row == [row[0]] + r + [row[|row| - 1]]
    ensures |row| < 2 ==> r == []
  {
    if |row| >= 2 then row[1..|row| - 1] else []
  }

  /** Which test the re-joining loop uses to see where a quoted value
      starts and ends: the one the seeder is written with, which looks at
      the first and last character only, or one that counts the backslashes
      before a closing quote and never takes the opening quote for the
      closing one. */
  datatype Rule = AsWritten | Escaped

  /** `s` ends with an odd number of backslashes, so that a quote after it
      is escaped. */
  predicate OddRun(s: string)
    decreases |s|
  {
    s != [] && s[|s| - 1] == Backslash && !OddRun(s[..|s| - 1])
  }

  /** `part` ends a quoted value: it ends with a quote (for `Escaped`, one
      not escaped by an odd run of backslashes). */
  predicate Closes(rule: Rule, part: string) {
    match rule
    case AsWritten => EndsWith(part, Quote)
    case Escaped => EndsWith(part, Quote) && !OddRun(part[..|part| - 1])
  }

  /** `part` starts a quoted value that continues past the next comma. */
  predicate Opens(rule: Rule, part: string) {
    match rule
    case AsWritten => StartsWith(part, Quote) && !EndsWith(part, Quote)
    case Escaped => StartsWith(part, Quote) && !Closes(Escaped, part[1..])
  }

  /** The loop's result: the values pushed, and the quoted value still open
      when the pieces ran out. */
  datatype Scanned = Scanned(values: seq<string>, open: Option<string>)

  /** The re-joining loop from state `open` (None: outside a string; Some(t):
      inside one, `t` being re-joined so far). */
  function Scan(rule: Rule, parts: seq<string>, open: Option<string>): (r: Scanned)
    ensures |parts| >= 1 ==> |r.values| >= 1 || r.open.Some?
    ensures |r.values| <= |parts|
    decreases |parts|
  {
    if parts == [] then Scanned([], open)
    else
      var p := parts[0];
      match open
      case None =>
        if Opens(rule, p) then Scan(rule, parts[1..], Some(p))
        else var rest := Scan(rule, parts[1..], None); Scanned([p] + rest.values, rest.open)
      case Some(t) =>
        var joined := t + [Comma] + p;
        if Closes(rule, p) then
          var rest := Scan(rule, parts[1..], None); Scanned([joined] + rest.values, rest.open)
        else Scan(rule, parts[1..], Some(joined))
  }

  /** The values of a row as the loop leaves them: a string still open at
      the end of the row is dropped. */
  function Values(rule: Rule, row: string): (vs: seq<string>)
    ensures |vs| <= |Split(Inner(row), Comma)|
  {
    Scan(rule, Split(Inner(row), Comma), None).values
  }

  function OptSeq(o: Option<string>): seq<string> {
    if o.Some? then [o.value] else []
  }

  function OpenPrefix(o: Option<string>): string {
    if o.Some? then o.value + [Comma] else []
  }

  /** Joining two non-empty lists is joining their joins. */
  lemma {:induction false} JoinAppend(xs: seq<string>, ys: seq<string>, sep: char)
    requires |xs| >= 1 && |ys| >= 1
    ensures Join(xs + ys, sep) == Join(xs, sep) + [sep] + Join(ys, sep)
    decreases |xs|
  {
    if |xs| == 1 {
      assert (xs + ys)[1..] == ys;
    } else {
      JoinAppend(xs[1..], ys, sep);
      assert (xs + ys)[1..] == xs[1..] + ys;
    }
  }

  /** Joining a value in front of a non-empty list. */
  lemma JoinCons(x: string, ys: seq<string>, sep: char)
    requires |ys| >= 1
    ensures Join([x] + ys, sep) == x + [sep] + Join(ys, sep)
  {
    assert ([x] + ys)[1..] == ys;
  }

  /** The loop loses nothing: the values pushed, followed by the value still
      open, joined with commas, are the pieces joined with commas (after the
      text already open). */
  lemma {:induction false} ScanLossless(rule: Rule, parts: seq<string>, open: Option<string>)
    requires |parts| >= 1
    ensures var r := Scan(rule, parts, open);
      Join(r.values + OptSeq(r.open), Comma) == OpenPrefix(open) + Join(parts, Comma)
    decreases |parts|, 2
  {
    if open.None? {
      OutsideLossless(rule, parts);
    } else {
      InsideLossless(rule, parts, open.value);
    }
  }

  /** The first piece, outside a string: it opens one or is pushed. */
  lemma {:induction false} OutsideLossless(rule: Rule, parts: seq<string>)
    requires |parts| >= 1
    ensures var r := Scan(rule, parts, None);
      Join(r.values + OptSeq(r.open), Comma) == Join(parts, Comma)
    decreases |parts|, 1
  {
    var p := parts[0];
    var rest := parts[1..];
    if |parts| > 1 {
      JoinCons(p, rest, Comma);
      assert parts == [p] + rest;
      if Opens(rule, p) {
        ScanLossless(rule, rest, Some(p));
      } else {
        PushLossless(rule, p, rest);
      }
    }
  }

  /** The first piece, inside a string: it closes it or is appended. */
  lemma {:induction false} InsideLossless(rule: Rule, parts: seq<string>, t: string)
    requires |parts| >= 1
    ensures var r := Scan(rule, parts, Some(t));
      Join(r.values + OptSeq(r.open), Comma) == t + [Comma] + Join(parts, Comma)
    decreases |parts|, 1
  {
    var p := parts[0];
    var rest := parts[1..];
    if |parts| > 1 {
      JoinCons(p, rest, Comma);
      assert parts == [p] + rest;
      if Closes(rule, p) {
        PushLossless(rule, t + [Comma] + p, rest);
      } else {
        ScanLossless(rule, rest, Some(t + [Comma] + p));
        CommaAssoc(t, p, Join(rest, Comma));
      }
    }
  }


  lemma CommaAssoc(t: string, p: string, u: string)
    ensures t + [Comma] + p + [Comma] + u == t + [Comma] + (p + [Comma] + u)
  {
  }

  /** The step that pushes a value `v` and goes on outside a string. */
  lemma {:induction false} PushLossless(rule: Rule, v: string, rest: seq<string>)
    requires |rest| >= 1
    ensures var s := Scan(rule, rest, None);
      Join([v] + s.values + OptSeq(s.open), Comma) == v + [Comma] + Join(rest, Comma)
    decreases |rest|, 3
  {
    var s := Scan(rule, rest, None);
    var tail := s.values + OptSeq(s.open);
    assert |tail| >= 1;
    OutsideLossless(rule, rest);
    assert [v] + s.values + OptSeq(s.open) == [v] + tail;
    JoinCons(v, tail, Comma);
  }

  /** A row none of whose strings is left open: its values, joined with
      commas, give back the row between its parentheses. */
  lemma RowLossless(rule: Rule, row: string)
    requires Scan(rule, Split(Inner(row), Comma), None).open.None?
    ensures Join(Values(rule, row), Comma) == Inner(row)
  {
    ScanLossless(rule, Split(Inner(row), Comma), None);
    assert Values(rule, row) + OptSeq(None) == Values(rule, row);
    JoinSplit(Inner(row), Comma);
  }

  // ------------------------------------------------------------ unquoting

  /** `s.replace(/ab/g, c)`: every occurrence, leftmost first and without
      overlap, of `a` followed by `b` becomes `c`. */
  function ReplacePair(s: string, a: char, b: char, c: char): (r: string)
    ensures |r| <= |s|
    decreases |s|
  {
    if |s| >= 2 && s[0] == a && s[1] == b then [c] + ReplacePair(s[2..], a, b, c)
    else if s == [] then []
    else [s[0]] + ReplacePair(s[1..], a, b, c)
  }

  /** A string without the pair is left as it is. */
  lemma {:induction false} ReplaceAbsent(s: string, a: char, b: char, c: char)
    ensures !Contains(s, [a, b]) ==> ReplacePair(s, a, b, c) == s
    decreases |s|
  {
    if |s| >= 2 && s[0] == a && s[1] == b {
      assert OccursAt(s, [a, b], 0);
    } else if s != [] {
      assert Contains(s[1..], [a, b]) ==> Contains(s, [a, b]) by {
        if Contains(s[1..], [a, b]) {
          var i :| 0 <= i <= |s[1..]| - 2 && OccursAt(s[1..], [a, b], i);
          assert s[i + 1..i + 3] == s[1..][i..i + 2];
          assert OccursAt(s, [a, b], i + 1);
        }
      }
      ReplaceAbsent(s[1..], a, b, c);
      assert s == [s[0]] + s[1..];
    }
  }

  /** The global replace works leftmost first: the first occurrence of the
      pair becomes `c`, and the search resumes after it, so occurrences
      never overlap. With `ReplaceAbsent` this determines the result. */
  lemma {:induction false} ReplaceLeftmost(s: string, a: char, b: char, c: char, i: nat)
    requires OccursAt(s, [a, b], i)
    requires forall k | 0 <= k < i :: !OccursAt(s, [a, b], k)
    ensures ReplacePair(s, a, b, c) == s[..i] + [c] + ReplacePair(s[i + 2..], a, b, c)
    decreases i
  {
    assert s[i..i + 2] == [a, b];
    if i == 0 {
      assert s[0] == a && s[1] == b;
    } else {
      assert s[0..2] == [s[0], s[1]];
      assert !OccursAt(s, [a, b], 0);
      var x := s[1..];
      assert ReplacePair(s, a, b, c) == [s[0]] + ReplacePair(x, a, b, c);
      forall k | 0 <= k < i
        ensures OccursAt(x, [a, b], k) <==> OccursAt(s, [a, b], k + 1)
      {
        OccursShift(s, [a, b], k);
      }
      ReplaceLeftmost(x, a, b, c, i - 1);
      assert x[i + 1..] == s[i + 2..];
      assert s[..i] == [s[0]] + x[..i - 1];
    }
  }

  /** An occurrence in the tail is an occurrence one place further on. */
  lemma OccursShift(s: string, needle: string, k: nat)
    requires s != []
    ensures OccursAt(s[1..], needle, k) <==> OccursAt(s, needle, k + 1)
  {
    if k + 1 <= |s| - |needle| {
      assert s[1..][k..k + |needle|] == s[k + 1..k + 1 + |needle|];
    }
  }

  /** The two replacements of the seeder: `\'` to `'`, then `\\` to `\`. */
  function Unescape(s: string): string {
    ReplacePair(ReplacePair(s, Backslash, Quote, Quote), Backslash, Backslash, Backslash)
  }

  /** `val.substring(1, val.length - 1)`; for a one-character value the
      arguments swap and the value comes back whole. */
  function StripQuotes(val: string): (r: string)
    ensures |val| >= 2 ==> val == [val[0]] + r + [val[|val| - 1]]
    ensures |val| < 2 ==> r == val
  {
    if |val| >= 2 then val[1..|val| - 1] else val
  }

  /** One value: trimmed, and when it both starts and ends with a quote,
      unquoted and unescaped. */
  function Unquote(v: string): (r: string)
    ensures var val := Trim(v);
      !(StartsWith(val, Quote) && EndsWith(val, Quote)) ==> r == val
  {
    var val := Trim(v);
    if StartsWith(val, Quote) && EndsWith(val, Quote) then Unescape(StripQuotes(val)) else val
  }

  /** `parseSqlInsert`: no rows (no statement for the table, or no row in
      it) is the empty list; otherwise one list of values per row. */
  function ParseInsert(rule: Rule, rows: Option<seq<string>>): (r: seq<seq<string>>)
    ensures rows.None? ==> r == []
    ensures rows.Some? ==> |r| == |rows.value|
    ensures rows.Some? ==> forall i | 0 <= i < |r| :: |r[i]| == |Values(rule, rows.value[i])|
  {
    match rows
    case None => []
    case Some(rs) => seq(|rs|, i requires 0 <= i < |rs| => ParseRow(rule, rs[i]))
  }

  /** The values of one row, each unquoted. */
  function ParseRow(rule: Rule, row: string): (r: seq<string>)
    ensures |r| == |Values(rule, row)|
    ensures forall j | 0 <= j < |r| :: r[j] == Unquote(Values(rule, row)[j])
  {
    var vs := Values(rule, row);
    seq(|vs|, j requires 0 <= j < |vs| => Unquote(vs[j]))
  }

  // ------------------------------------------------- the dump's encoding

  /** How the dump escapes a string: a backslash before every backslash
      and every quote. */
  function Escape(s: string): (r: string)
    ensures |r| >= |s|
  {
    if s == [] then [] else EscChar(s[0]) + Escape(s[1..])
  }

  /** One character as the dump writes it. */
  function EscChar(c: char): (r: string)
    ensures |r| >= 1 && r[|r| - 1] == c
    ensures |r| == 1 <==> c != Backslash && c != Quote
    ensures |r| == 2 ==> r[0] == Backslash
    ensures Comma in r <==> c == Comma
  {
    if c == Backslash then [Backslash, Backslash]
    else if c == Quote then [Backslash, Quote]
    else [c]
  }

  /** `s` with every backslash doubled: the text between the seeder's two
      replacements. */
  function DoubleBackslashes(s: string): string {
    if s == [] then []
    else (if s[0] == Backslash then [Backslash, Backslash] else [s[0]]) + DoubleBackslashes(s[1..])
  }

  lemma {:induction false} EscapeHead(s: string)
    ensures Escape(s) == [] || Escape(s)[0] != Quote
  {
  }

  lemma {:induction false} FirstReplacement(s: string)
    ensures ReplacePair(Escape(s), Backslash, Quote, Quote) == DoubleBackslashes(s)
    decreases |s|
  {
    if s != [] {
      var c, x := s[0], s[1..];
      assert s == [c] + x;
      FirstReplacement(x);
      EscapeCons(c, x);
      EscapeHead(x);
      if c == Backslash {
        FirstOnBackslash(Escape(x));
      } else if c == Quote {
        PairReplaced(Escape(x), Backslash, Quote, Quote);
      } else {
        PairKept(c, Escape(x), Backslash, Quote, Quote);
      }
    }
  }

  /** `ab` at the front is replaced. */
  lemma PairReplaced(r: string, a: char, b: char, c: char)
    ensures ReplacePair([a, b] + r, a, b, c) == [c] + ReplacePair(r, a, b, c)
  {
    assert ([a, b] + r)[2..] == r;
  }

  /** A first character that does not start `ab` is kept. */
  lemma PairKept(x: char, r: string, a: char, b: char, c: char)
    requires !(x == a && r != [] && r[0] == b)
    ensures ReplacePair([x] + r, a, b, c) == [x] + ReplacePair(r, a, b, c)
  {
    assert ([x] + r)[1..] == r;
  }

  lemma FirstOnBackslash(rest: string)
    requires rest == [] || rest[0] != Quote
    ensures ReplacePair([Backslash, Backslash] + rest, Backslash, Quote, Quote)
      == [Backslash, Backslash] + ReplacePair(rest, Backslash, Quote, Quote)
  {
    assert [Backslash, Backslash] + rest == [Backslash] + ([Backslash] + rest);
    PairKept(Backslash, [Backslash] + rest, Backslash, Quote, Quote);
    PairKept(Backslash, rest, Backslash, Quote, Quote);
  }


  lemma {:induction false} SecondReplacement(s: string)
    ensures ReplacePair(DoubleBackslashes(s), Backslash, Backslash, Backslash) == s
    decreases |s|
  {
    if s != [] {
      var rest := DoubleBackslashes(s[1..]);
      SecondReplacement(s[1..]);
      if s[0] == Backslash {
        assert DoubleBackslashes(s) == [Backslash, Backslash] + rest;
        assert ([Backslash, Backslash] + rest)[2..] == rest;
      } else {
        assert DoubleBackslashes(s) == [s[0]] + rest;
        assert ([s[0]] + rest)[1..] == rest;
      }
      assert s == [s[0]] + s[1..];
    }
  }

  /** The seeder's two replacements undo the dump's escaping. */
  lemma UnescapeEscape(s: string)
    ensures Unescape(Escape(s)) == s
  {
    FirstReplacement(s);
    SecondReplacement(s);
  }

  /** A string as the dump writes it: escaped and between quotes. */
  function Quoted(s: string): (r: string)
    ensures |r| >= 2 && r[0] == Quote && r[|r| - 1] == Quote
  {
    [Quote] + Escape(s) + [Quote]
  }

  /** Unquoting a quoted string gives the string back. */
  lemma UnquoteQuoted(s: string)
    ensures Unquote(Quoted(s)) == s
  {
    var q := Quoted(s);
    var e := Escape(s);
    assert q == [Quote] + e + [Quote];
    assert !IsSpace(q[0]) && !IsSpace(q[|q| - 1]);
    TrimKeepsTrimmed(q);
    assert Trim(q) == q && StartsWith(q, Quote) && EndsWith(q, Quote);
    assert StripQuotes(q) == e by {
      assert q[1..|q| - 1] == e;
    }
    assert Unquote(q) == Unescape(e);
    UnescapeEscape(s);
  }

  /** Escaping one more character appends its escape. */
  lemma {:induction false} EscapeSnoc(x: string, c: char)
    ensures Escape(x + [c]) == Escape(x) + EscChar(c)
    decreases |x|
  {
    if x == [] {
      assert x + [c] == [c];
      assert [c][1..] == [];
    } else {
      EscapeSnoc(x[1..], c);
      assert (x + [c])[0] == x[0] && (x + [c])[1..] == x[1..] + [c];
    }
  }

  lemma OddRunSnoc(y: string, c: char)
    ensures OddRun(y + [c]) <==> c == Backslash && !OddRun(y)
  {
    assert (y + [c])[..|y|] == y;
  }

  /** How an escaped string ends: never inside an odd run of backslashes,
      and with a quote exactly when the string itself ends with one, that
      quote then escaped. */
  lemma {:induction false} EscapeEnd(x: string)
    ensures !OddRun(Escape(x))
    ensures EndsWith(Escape(x), Quote) <==> EndsWith(x, Quote)
    ensures var e := Escape(x);
      EndsWith(e, Quote) ==> OddRun(e[..|e| - 1])
    decreases |x|
  {
    if x != [] {
      EscapeEnd(x[..|x| - 1]);
      EscapeLast(x);
      EscCharEnd(Escape(x[..|x| - 1]), x[|x| - 1]);
    }
  }

  lemma EscapeLast(x: string)
    requires x != []
    ensures Escape(x) == Escape(x[..|x| - 1]) + EscChar(x[|x| - 1])
    ensures EndsWith(x, Quote) <==> x[|x| - 1] == Quote
  {
    assert x == x[..|x| - 1] + [x[|x| - 1]];
    EscapeSnoc(x[..|x| - 1], x[|x| - 1]);
  }

  /** The step of `EscapeEnd`: one escaped character after an even run. */
  lemma EscCharEnd(ey: string, c: char)
    requires !OddRun(ey)
    ensures var e := ey + EscChar(c);
      && !OddRun(e)
      && (EndsWith(e, Quote) <==> c == Quote)
      && (EndsWith(e, Quote) ==> OddRun(e[..|e| - 1]))
  {
    if c == Backslash {
      OddRunSnoc(ey, Backslash);
      OddRunSnoc(ey + [Backslash], Backslash);
      assert ey + EscChar(c) == (ey + [Backslash]) + [Backslash];
    } else if c == Quote {
      var e := ey + [Backslash, Quote];
      assert e == (ey + [Backslash]) + [Quote];
      OddRunSnoc(ey + [Backslash], Quote);
      assert e[..|e| - 1] == ey + [Backslash];
      OddRunSnoc(ey, Backslash);
    } else {
      OddRunSnoc(ey, c);
      assert ey + EscChar(c) == ey + [c];
    }
  }

  /** Each string of a list, escaped. */
  function EscapeAll(xs: seq<string>): seq<string> {
    seq(|xs|, i requires 0 <= i < |xs| => Escape(xs[i]))
  }

  /** Escaping leaves commas alone: the pieces of an escaped string are the
      escaped pieces. */
  lemma {:induction false} SplitEscape(s: string)
    ensures Split(Escape(s), Comma) == EscapeAll(Split(s, Comma))
    decreases |s|
  {
    if s == [] {
      assert Split(s, Comma) == [[]];
    } else {
      var c, x := s[0], s[1..];
      assert s == [c] + x;
      SplitEscape(x);
      EscapeCons(c, x);
      SplitCons(c, x, Comma);
      if c == Comma {
        SplitEscapeComma(x);
      } else {
        SplitEscapeOther(c, x);
      }
    }
  }

  lemma EscapeCons(c: char, x: string)
    ensures Escape([c] + x) == EscChar(c) + Escape(x)
  {
    assert ([c] + x)[1..] == x;
  }

  lemma EscapeAllCons(x: string, xs: seq<string>)
    ensures EscapeAll([x] + xs) == [Escape(x)] + EscapeAll(xs)
  {
  }

  lemma EscapeAllTail(xs: seq<string>)
    requires |xs| >= 1
    ensures EscapeAll(xs)[0] == Escape(xs[0]) && EscapeAll(xs)[1..] == EscapeAll(xs[1..])
  {
  }

  lemma SplitEscapeComma(x: string)
    requires Split(Escape(x), Comma) == EscapeAll(Split(x, Comma))
    ensures Split([Comma] + Escape(x), Comma) == EscapeAll([[]] + Split(x, Comma))
  {
    SplitCons(Comma, Escape(x), Comma);
    EscapeAllCons([], Split(x, Comma));
  }

  lemma SplitEscapeOther(c: char, x: string)
    requires c != Comma
    requires Split(Escape(x), Comma) == EscapeAll(Split(x, Comma))
    ensures var t := Split(x, Comma);
      Split(EscChar(c) + Escape(x), Comma) == EscapeAll([[c] + t[0]] + t[1..])
  {
    var t := Split(x, Comma);
    SplitPrefix(EscChar(c), Escape(x), Comma);
    EscapeCons(c, t[0]);
    EscapeAllTail(t);
    EscapeAllCons([c] + t[0], t[1..]);
  }


  /** The pieces of a quoted string: those of the escaped string, the
      first after the opening quote and the last before the closing one. */
  lemma QuotedPieces(s: string)
    ensures Wrapped(Split(Escape(s), Comma), Split(Quoted(s), Comma))
  {
    var e := Escape(s);
    SplitSnoc(e, Quote, Comma);
    SplitPrefix([Quote], e + [Quote], Comma);
    assert Quoted(s) == [Quote] + (e + [Quote]);
    WrapPieces(Split(e, Comma), Split(e + [Quote], Comma), Split(Quoted(s), Comma));
  }

  /** `g` is `p` with a quote before the first piece and after the last. */
  predicate Wrapped(p: seq<string>, g: seq<string>) {
    && |g| == |p| >= 1
    && (|p| == 1 ==> g[0] == [Quote] + p[0] + [Quote])
    && (|p| >= 2 ==> g[0] == [Quote] + p[0] && g[|p| - 1] == p[|p| - 1] + [Quote])
    && (forall i | 1 <= i < |p| - 1 :: g[i] == p[i])
  }

  /** The list shape behind `QuotedPieces`. */
  lemma WrapPieces(p: seq<string>, y: seq<string>, g: seq<string>)
    requires |p| >= 1
    requires y == p[..|p| - 1] + [p[|p| - 1] + [Quote]]
    requires g == [[Quote] + y[0]] + y[1..]
    ensures Wrapped(p, g)
  {
    if |p| == 1 {
      assert y == [p[0] + [Quote]];
      assert [Quote] + (p[0] + [Quote]) == [Quote] + p[0] + [Quote];
    } else {
      assert y[0] == p[0];
      assert forall i | 1 <= i < |p| :: g[i] == y[i];
    }
  }

  // ------------------------------------------------------------ round trip

  /** One value of a row as the dump writes it: a string, quoted and
      escaped, or a bare literal (a number, `NULL`, a bit value `b'1'`). */
  datatype Cell = Str(s: string) | Bare(s: string)

  /** A bare literal needs no quoting: no comma, no opening quote, no
      surrounding blanks. */
  predicate BareOk(s: string) {
    Comma !in s && !StartsWith(s, Quote) && Trim(s) == s
  }

  /** The strings the seeder's loop reads back as written: at most one piece
      between commas, or a non-empty first piece and no piece before a comma
      ending with a quote. */
  predicate CommaSafe(s: string) {
    var ps := Split(s, Comma);
    |ps| == 1 || (ps[0] != [] && forall i | 0 <= i < |ps| - 1 :: !EndsWith(ps[i], Quote))
  }

  /** The cells a rule reads back: every bare literal that needs no quoting,
      every string for `Escaped`, the comma-safe strings for `AsWritten`. */
  predicate Encodable(rule: Rule, c: Cell) {
    match c
    case Bare(s) => BareOk(s)
    case Str(s) => rule == Escaped || CommaSafe(s)
  }

  function Encode(c: Cell): string {
    match c
    case Str(s) => Quoted(s)
    case Bare(s) => s
  }

  function EncodeAll(cells: seq<Cell>): (r: seq<string>)
    ensures |r| == |cells|
    ensures forall i | 0 <= i < |cells| :: r[i] == Encode(cells[i])
  {
    if cells == [] then [] else [Encode(cells[0])] + EncodeAll(cells[1..])
  }

  /** A row of the dump: the cells, comma-separated, in parentheses. */
  function EncodeRow(cells: seq<Cell>): (r: string)
    ensures Inner(r) == Join(EncodeAll(cells), Comma)
  {
    var j := Join(EncodeAll(cells), Comma);
    assert ("(" + j + ")")[1..|j| + 1] == j;
    "(" + j + ")"
  }

  /** The pieces of one encoded value form one group of the loop: a single
      piece that does not open a string, or an opening piece, pieces that do
      not close it, and a closing piece. */
  predicate GroupOk(rule: Rule, g: seq<string>) {
    && |g| >= 1
    && if |g| == 1 then !Opens(rule, g[0])
       else
         && Opens(rule, g[0])
         && (forall i | 1 <= i < |g| - 1 :: !Closes(rule, g[i]))
         && Closes(rule, g[|g| - 1])
  }

  /** Inside a string, a group's remaining pieces re-join onto it. */
  lemma {:induction false} InsideGroup(rule: Rule, h: seq<string>, t: string, more: seq<string>)
    requires |h| >= 1
    requires forall i | 0 <= i < |h| - 1 :: !Closes(rule, h[i])
    requires Closes(rule, h[|h| - 1])
    ensures var rest := Scan(rule, more, None);
      Scan(rule, h + more, Some(t)) == Scanned([t + [Comma] + Join(h, Comma)] + rest.values, rest.open)
    decreases |h|
  {
    assert (h + more)[0] == h[0] && (h + more)[1..] == h[1..] + more;
    if |h| > 1 {
      InsideGroup(rule, h[1..], t + [Comma] + h[0], more);
      JoinCons(h[0], h[1..], Comma);
      assert h == [h[0]] + h[1..];
      assert t + [Comma] + h[0] + [Comma] + Join(h[1..], Comma) == t + [Comma] + (h[0] + [Comma] + Join(h[1..], Comma));
    } else {
      assert h[1..] + more == more;
    }
  }

  /** Outside a string, a group re-joins into one value. */
  lemma ScanGroup(rule: Rule, g: seq<string>, more: seq<string>)
    requires GroupOk(rule, g)
    ensures var rest := Scan(rule, more, None);
      Scan(rule, g + more, None) == Scanned([Join(g, Comma)] + rest.values, rest.open)
  {
    assert (g + more)[0] == g[0] && (g + more)[1..] == g[1..] + more;
    if |g| > 1 {
      InsideGroup(rule, g[1..], g[0], more);
      JoinCons(g[0], g[1..], Comma);
      assert g == [g[0]] + g[1..];
    } else {
      assert g[1..] + more == more;
    }
  }

  /** Strings each of whose pieces form a group are read back one value
      each. */
  lemma {:induction false} ScanPieces(rule: Rule, xs: seq<string>)
    requires forall i | 0 <= i < |xs| :: GroupOk(rule, Split(xs[i], Comma))
    ensures Scan(rule, Pieces(xs, Comma), None) == Scanned(xs, None)
    decreases |xs|
  {
    if xs != [] {
      ScanPieces(rule, xs[1..]);
      ScanGroup(rule, Split(xs[0], Comma), Pieces(xs[1..], Comma));
      JoinSplit(xs[0], Comma);
      assert xs == [xs[0]] + xs[1..];
    }
  }

  /** The escaped pieces of a string never close it early. */
  lemma EscapedNeverCloses(x: string)
    ensures !Closes(Escaped, Escape(x))
    ensures Closes(Escaped, Escape(x) + [Quote])
  {
    EscapeEnd(x);
    var e := Escape(x);
    assert (e + [Quote])[..|e|] == e;
  }

  /** An encoded cell's pieces form one group. */
  lemma CellGroup(rule: Rule, c: Cell)
    requires Encodable(rule, c)
    ensures GroupOk(rule, Split(Encode(c), Comma))
  {
    match c
    case Bare(s) => SplitFree(s, Comma);
    case Str(s) => StrGroup(rule, s);
  }

  lemma StrGroup(rule: Rule, s: string)
    requires rule == Escaped || CommaSafe(s)
    ensures GroupOk(rule, Split(Quoted(s), Comma))
  {
    QuotedPieces(s);
    SplitEscape(s);
    if rule == Escaped {
      StrGroupEscaped(Split(s, Comma), Split(Quoted(s), Comma));
    } else {
      StrGroupAsWritten(Split(s, Comma), Split(Quoted(s), Comma));
    }
  }

  lemma StrGroupEscaped(ps: seq<string>, g: seq<string>)
    requires Wrapped(EscapeAll(ps), g)
    ensures GroupOk(Escaped, g)
  {
    var p := EscapeAll(ps);
    if |p| == 1 {
      EscapedNeverCloses(ps[0]);
      assert g[0][1..] == p[0] + [Quote];
    } else {
      EscapedNeverCloses(ps[0]);
      assert g[0][1..] == p[0];
      EscapedNeverCloses(ps[|ps| - 1]);
      forall i | 1 <= i < |g| - 1 ensures !Closes(Escaped, g[i]) {
        EscapedNeverCloses(ps[i]);
      }
    }
  }


  lemma StrGroupAsWritten(ps: seq<string>, g: seq<string>)
    requires Wrapped(EscapeAll(ps), g)
    requires |ps| == 1 || (ps[0] != [] && forall i | 0 <= i < |ps| - 1 :: !EndsWith(ps[i], Quote))
    ensures GroupOk(AsWritten, g)
  {
    var p := EscapeAll(ps);
    if |p| >= 2 {
      EscapeEnd(ps[0]);
      forall i | 1 <= i < |g| - 1 ensures !Closes(AsWritten, g[i]) {
        EscapeEnd(ps[i]);
      }
    }
  }

  /** A bare literal reads back as itself. */
  lemma UnquoteBare(s: string)
    requires BareOk(s)
    ensures Unquote(s) == s
  {
  }

  /** Reading a row back: every cell the rule can read comes back as its
      text, in order, and no value is split or merged. */
  lemma RowRoundTrip(rule: Rule, cells: seq<Cell>)
    requires |cells| >= 1
    requires forall i | 0 <= i < |cells| :: Encodable(rule, cells[i])
    ensures var vs := ParseRow(rule, EncodeRow(cells));
      |vs| == |cells| && forall i | 0 <= i < |cells| :: vs[i] == cells[i].s
  {
    var xs := EncodeAll(cells);
    SplitJoinPieces(xs, Comma);
    forall i | 0 <= i < |xs| ensures GroupOk(rule, Split(xs[i], Comma)) {
      CellGroup(rule, cells[i]);
    }
    ScanPieces(rule, xs);
    assert Values(rule, EncodeRow(cells)) == xs;
    forall i | 0 <= i < |cells| ensures Unquote(xs[i]) == cells[i].s {
      match cells[i]
      case Str(s) => UnquoteQuoted(s);
      case Bare(s) => UnquoteBare(s);
    }
  }

  /** A text with a quote followed by a comma (`a',b`, as in "the
      officers', ...") is split by the loop as written into two values, the
      first ending in a stray backslash, which shifts every later column of
      the row; counting backslashes reads it back whole. */
  lemma QuoteCommaSplitsValue()
    ensures ParseRow(AsWritten, EncodeRow([Str("a',b")])) == ["a\\", "b'"]
    ensures ParseRow(Escaped, EncodeRow([Str("a',b")])) == ["a',b"]
  {
    ExampleRow();
    ExampleAsWritten(EncodeRow([Str("a',b")]));
    RowRoundTrip(Escaped, [Str("a',b")]);
  }

  /** A text that starts with a comma (`,a`) is split too: its first piece
      is the lone opening quote, which both starts and ends with a quote, so
      the loop as written never opens the value. The corrected opening test
      looks for the closing quote after the opening one. */
  lemma LeadingCommaSplitsValue()
    ensures ParseRow(AsWritten, EncodeRow([Str(",a")])) == ["'", "a'"]
    ensures ParseRow(Escaped, EncodeRow([Str(",a")])) == [",a"]
  {
    LeadingCommaRow();
    LeadingCommaAsWritten(EncodeRow([Str(",a")]));
    RowRoundTrip(Escaped, [Str(",a")]);
  }

  lemma LeadingCommaRow()
    ensures EncodeRow([Str(",a")]) == "(',a')"
  {
    assert Escape(",a") == "," + Escape("a");
    assert Escape("a") == "a";
    assert EncodeAll([Str(",a")]) == [Quoted(",a")];
  }

  lemma LeadingCommaAsWritten(row: string)
    requires row == "(',a')"
    ensures ParseRow(AsWritten, row) == ["'", "a'"]
  {
    LeadingCommaValues();
    LeadingCommaUnquote();
    UnquotePair(AsWritten, row, "'", "a'", "'", "a'");
  }

  lemma LeadingCommaValues()
    ensures Values(AsWritten, "(',a')") == ["'", "a'"]
  {
    var row := "(',a')";
    assert Inner(row) == "'" + [Comma] + "a'";
    SplitAround("'", Comma, "a'");
    SplitFree("a'", Comma);
    var parts := Split(Inner(row), Comma);
    assert parts == ["'", "a'"];
    assert !Opens(AsWritten, "'") && !Opens(AsWritten, "a'");
    assert parts[1..] == ["a'"] && ["a'"][1..] == [];
    assert Scan(AsWritten, ["a'"], None) == Scanned(["a'"], None);
  }

  /** The lone quote is kept: `substring(1, 0)` swaps to `substring(0, 1)`. */
  lemma LeadingCommaUnquote()
    ensures Unquote("'") == "'"
    ensures Unquote("a'") == "a'"
  {
    LoneQuoteUnquote();
    TrimKeepsTrimmed("a'");
  }

  lemma LoneQuoteUnquote()
    ensures Unquote("'") == "'"
  {
    var q := "'";
    TrimKeepsTrimmed(q);
    assert Trim(q) == q && StartsWith(q, Quote) && EndsWith(q, Quote);
    assert StripQuotes(q) == q;
    assert ReplacePair(q, Backslash, Quote, Quote) == q;
    assert ReplacePair(q, Backslash, Backslash, Backslash) == q;
    assert Unescape(q) == q;
  }

  lemma ExampleAsWritten(row: string)
    requires row == "('a\\',b')"
    ensures ParseRow(AsWritten, row) == ["a\\", "b'"]
  {
    ExampleValues();
    ExampleUnquoteFirst();
    ExampleUnquoteSecond();
    UnquotePair(AsWritten, row, "'a\\'", "b'", "a\\", "b'");
  }

  lemma UnquotePair(rule: Rule, row: string, v0: string, v1: string, u0: string, u1: string)
    requires Values(rule, row) == [v0, v1]
    requires Unquote(v0) == u0 && Unquote(v1) == u1
    ensures ParseRow(rule, row) == [u0, u1]
  {
  }

  lemma ExampleUnquoteFirst()
    ensures Unquote("'a\\'") == "a\\"
  {
    TrimKeepsTrimmed("'a\\'");
    assert StripQuotes("'a\\'") == "a\\";
    assert ReplacePair("a\\", Backslash, Quote, Quote) == "a\\";
    assert ReplacePair("a\\", Backslash, Backslash, Backslash) == "a\\";
  }

  lemma ExampleUnquoteSecond()
    ensures Unquote("b'") == "b'"
  {
    TrimKeepsTrimmed("b'");
  }

  lemma ExampleRow()
    ensures EncodeRow([Str("a',b")]) == "('a\\',b')"
  {
    assert Escape("a',b") == "a\\'," + "b" by {
      assert Escape("b") == "b";
      assert Escape(",b") == "," + Escape("b");
      assert Escape("',b") == "\\'" + Escape(",b");
    }
    assert EncodeAll([Str("a',b")]) == [Quoted("a',b")];
  }

  lemma ExampleValues()
    ensures Values(AsWritten, "('a\\',b')") == ["'a\\'", "b'"]
  {
    var row := "('a\\',b')";
    assert Inner(row) == "'a\\'" + [Comma] + "b'";
    SplitAround("'a\\'", Comma, "b'");
    SplitFree("b'", Comma);
    var parts := Split(Inner(row), Comma);
    assert parts == ["'a\\'", "b'"];
    assert !Opens(AsWritten, "'a\\'") && !Opens(AsWritten, "b'");
    assert parts[1..] == ["b'"] && ["b'"][1..] == [];
    assert Scan(AsWritten, ["b'"], None) == Scanned(["b'"], None);
  }

  // ------------------------------------------------------ rows to records

  /** The dump's value of a set bit. */
  const BitOne: string := "b'1'"
  const BitZero: string := "b'0'"

  /** Value `k` of a row; a missing value is `undefined`, which every check
      below treats as the empty string does. */
  function At(row: seq<string>, k: nat): string {
    if k < |row| then row[k] else ""
  }

  /** A bit column: true exactly for the value `b'1'`. */
  predicate BitSet(row: seq<string>, k: nat) {
    k < |row| && row[k] == BitOne
  }

  /** A user row in column order (fullname, police id, contact, email, city,
      password, isAdmin, isApproved) as `insertMany` sees it: None when the
      schema's validators reject the document. */
  function UserOfRow(row: seq<string>): (r: Option<User>)
    ensures r.Some? <==> |row| >= 6 && ValidUser(User(row[0], row[1], row[2], row[3], row[4], row[5], false, false))
    ensures r.Some? ==>
      && r.value.fullname == row[0] && r.value.policeId == row[1] && r.value.contact == row[2]
      && r.value.email == row[3] && r.value.city == row[4] && r.value.password == row[5]
    ensures r.Some? ==> (r.value.isAdmin <==> |row| > 6 && row[6] == BitOne)
    ensures r.Some? ==> (r.value.isApproved <==> |row| > 7 && row[7] == BitOne)
  {
    var u := User(At(row, 0), At(row, 1), At(row, 2), At(row, 3), At(row, 4), At(row, 5),
                  BitSet(row, 6), BitSet(row, 7));
    if ValidUser(u) then Some(u) else None
  }

  /** What a case row becomes: a document, a document the validators reject,
      or a `TypeError` (a row with no status value), which ends the import
      before anything is deleted or inserted. */
  datatype Mapped = Doc(c: Case) | Rejected | Aborts

  /** A case row in column order (id, title, type, description, suspects,
      victim, guilty name, date, handler, status, isApproved): the id is
      dropped, the date is parsed by `dateOf` (None: an invalid date, which
      fails the cast), the status is upper-cased and the case is never
      removed. */
  function CaseOfRow(row: seq<string>, dateOf: string -> Option<Timestamp>): (r: Mapped)
    ensures r == Aborts <==> |row| < 10
    ensures r.Doc? <==>
      && |row| >= 10 && row[1] != "" && row[2] != "" && dateOf(row[7]).Some?
      && row[8] != "" && IsStatus(Text.Upper(row[9]))
    ensures r.Doc? ==>
      && r.c.fields == CaseFields(row[1], row[2], row[3], row[4], row[5], row[6],
                                  dateOf(row[7]).value, row[8], Text.Upper(row[9]))
      && (r.c.isApproved <==> |row| > 10 && row[10] == BitOne)
      && !r.c.isRemoved
  {
    if |row| < 10 then Aborts
    else
      var b := CaseBody(Some(row[1]), Some(row[2]), Some(row[3]), Some(row[4]), Some(row[5]),
                        Some(row[6]), dateOf(row[7]), Some(row[8]), Some(Text.Upper(row[9])),
                        Some(BitSet(row, 10)), None, None, None);
      match NewCase(b, BitSet(row, 10))
      case Some(c) => Doc(c)
      case None => Rejected
  }

  /** The status column is read case-insensitively: upper-casing it first
      changes nothing. */
  lemma CaseStatusCaseInsensitive(row: seq<string>, dateOf: string -> Option<Timestamp>)
    requires |row| >= 10
    ensures CaseOfRow(row[9 := Text.Upper(row[9])], dateOf) == CaseOfRow(row, dateOf)
  {
    Text.UpperIdempotent(row[9]);
  }

  function Bit(b: bool): string {
    if b then BitOne else BitZero
  }

  /** How the dump writes an account: six quoted strings, two bits. */
  function UserCells(u: User): seq<Cell> {
    [Str(u.fullname), Str(u.policeId), Str(u.contact), Str(u.email), Str(u.city), Str(u.password),
     Bare(Bit(u.isAdmin)), Bare(Bit(u.isApproved))]
  }

  lemma BitsAreBare(b: bool)
    ensures BareOk(Bit(b))
  {
    var s := Bit(b);
    BitShape(s);
  }

  lemma BitShape(s: string)
    requires |s| == 4 && s[0] == 'b' && s[1] == Quote && s[2] != Comma && s[3] == Quote
    ensures BareOk(s)
  {
    assert !IsSpace(s[0]) && !IsSpace(s[3]);
    TrimKeepsTrimmed(s);
    assert s == [s[0], s[1], s[2], s[3]];
    assert Comma !in s;
  }

  /** Every valid account the dump writes is read back as the same account,
      whatever its texts contain (with the corrected test for closing
      quotes). */
  lemma UserRoundTrip(u: User)
    requires ValidUser(u)
    ensures UserOfRow(ParseRow(Escaped, EncodeRow(UserCells(u)))) == Some(u)
  {
    UserCellsEncodable(u);
    RowRoundTrip(Escaped, UserCells(u));
    UserOfCells(ParseRow(Escaped, EncodeRow(UserCells(u))), u);
  }

  lemma UserCellsEncodable(u: User)
    ensures forall i | 0 <= i < |UserCells(u)| :: Encodable(Escaped, UserCells(u)[i])
  {
    var cells := UserCells(u);
    forall i | 0 <= i < |cells| ensures Encodable(Escaped, cells[i]) {
      if i == 6 {
        BitsAreBare(u.isAdmin);
      } else if i == 7 {
        BitsAreBare(u.isApproved);
      } else {
        assert cells[i].Str?;
      }
    }
  }

  lemma UserOfCells(vs: seq<string>, u: User)
    requires ValidUser(u)
    requires var cells := UserCells(u);
      |vs| == |cells| && forall i | 0 <= i < |cells| :: vs[i] == cells[i].s
    ensures UserOfRow(vs) == Some(u)
  {
    var cells := UserCells(u);
    assert vs[0] == u.fullname && vs[1] == u.policeId && vs[2] == u.contact;
    assert vs[3] == u.email && vs[4] == u.city && vs[5] == u.password;
    assert vs[6] == Bit(u.isAdmin) && vs[7] == Bit(u.isApproved);
  }
}

=== FILE: store.dfy ===
/** The database as four collections keyed by document id, the result of one
    request (the database after it and the reply), and the invariants the
    collections keep. */
module Store {
  import opened Base
  import opened Models

  datatype Db = Db(
    users: map<Id, User>,
    cases: map<Id, Case>,
    updates: map<Id, Proposal>,
    reports: map<Id, Report>)

  /** The database after a request, and the reply sent for it. */
  datatype Step<T> = Step(db: Db, reply: Reply<T>)

  /** No account shares its email, police id or contact with another: the
      three unique indexes of the User schema. */
  predicate UniqueAccounts(users: map<Id, User>) {
    forall a, b | a in users && b in users && a != b ::
      && users[a].email != users[b].email
      && users[a].policeId != users[b].policeId
      && users[a].contact != users[b].contact
  }

  predicate EmailTaken(users: map<Id, User>, email: string) {
    exists id | id in users :: users[id].email == email
  }

  predicate PoliceIdTaken(users: map<Id, User>, policeId: string) {
    exists id | id in users :: users[id].policeId == policeId
  }

  predicate ContactTaken(users: map<Id, User>, contact: string) {
    exists id | id in users :: users[id].contact == contact
  }

  /** Every stored document satisfies its schema and the account indexes hold. */
  predicate Consistent(db: Db) {
    && UniqueAccounts(db.users)
    && (forall id | id in db.users :: ValidUser(db.users[id]))
    && (forall id | id in db.cases :: ValidFields(db.cases[id].fields))
    && (forall id | id in db.updates :: ValidProposal(db.updates[id]))
  }
}

=== FILE: text.dfy ===
/** JavaScript string operations on `seq<char>`, as the client pages and the
    server routes use them: the `\s` class and `trim`, ASCII case mapping,
    substring search, `split`/`join` on one separator and the code-unit
    ordering of `<` and `>`. */
module Text {

  /** ECMAScript WhiteSpace and LineTerminator code points: the class a
      regular expression's `\s` matches and the set `trim` removes. */
  predicate IsSpace(c: char) {
    var n := c as int;
    n == 0x09 || n == 0x0A || n == 0x0B || n == 0x0C || n == 0x0D || n == 0x20
    || n == 0xA0 || n == 0x1680 || (0x2000 <= n <= 0x200A) || n == 0x2028
    || n == 0x2029 || n == 0x202F || n == 0x205F || n == 0x3000 || n == 0xFEFF
  }

  /** The class `[A-Za-z]`. */
  predicate IsLetter(c: char) {
    'A' <= c <= 'Z' || 'a' <= c <= 'z'
  }

  /** The class `\d`. */
  predicate IsDigit(c: char) {
    '0' <= c <= '9'
  }

  predicate AllSpace(s: string) {
    forall i | 0 <= i < |s| :: IsSpace(s[i])
  }

  /** `trimStart`: drops the leading whitespace and nothing else. */
  function TrimStart(s: string): (r: string)
    ensures |r| <= |s| && r == s[|s| - |r|..]
    ensures AllSpace(s[..|s| - |r|])
    ensures r == [] || !IsSpace(r[0])
  {
    if s == [] || !IsSpace(s[0]) then s else TrimStart(s[1..])
  }

  /** `trimEnd`: drops the trailing whitespace and nothing else. */
  function TrimEnd(s: string): (r: string)
    ensures |r| <= |s| && r == s[..|r|]
    ensures AllSpace(s[|r|..])
    ensures r == [] || !IsSpace(r[|r| - 1])
  {
    if s == [] || !IsSpace(s[|s| - 1]) then s else TrimEnd(s[..|s| - 1])
  }

  /** `trim`: a middle slice of `s` with no whitespace at either end, empty
      exactly when `s` is all whitespace (`TrimSlice` states the slice). */
  function Trim(s: string): (r: string)
    ensures |r| <= |s|
    ensures r == [] || (!IsSpace(r[0]) && !IsSpace(r[|r| - 1]))
    ensures r == [] <==> AllSpace(s)
  {
    var t := TrimStart(s);
    var r := TrimEnd(t);
    assert r == [] ==> AllSpace(s) by {
      if r == [] {
        assert s == s[..|s| - |t|] + t;
        assert t == t[..0] + t[0..];
      }
    }
    r
  }

  /** What `trim` removes is whitespace at the two ends and nothing else:
      its result is a slice of `s` with only whitespace before and after. */
  lemma TrimSlice(s: string)
    ensures exists i, j | 0 <= i <= j <= |s| :: Trim(s) == s[i..j] && AllSpace(s[..i]) && AllSpace(s[j..])
  {
    var t := TrimStart(s);
    var r := TrimEnd(t);
    assert Trim(s) == r;
    var i := |s| - |t|;
    var j := i + |r|;
    assert t == s[i..] && AllSpace(s[..i]);
    assert r == t[..|r|] && AllSpace(t[|r|..]);
    assert s[i..j] == r by {
      assert s[i..j] == t[..|r|];
    }
    assert s[j..] == t[|r|..];
    assert r == s[i..j] && AllSpace(s[..i]) && AllSpace(s[j..]);
  }

  /** A string with no whitespace at either end is its own trim. */
  lemma TrimKeepsTrimmed(s: string)
    requires s == [] || (!IsSpace(s[0]) && !IsSpace(s[|s| - 1]))
    ensures Trim(s) == s
  {
  }

  /** Trimming twice is trimming once. */
  lemma TrimIdempotent(s: string)
    ensures Trim(Trim(s)) == Trim(s)
  {
    TrimKeepsTrimmed(Trim(s));
  }

  /** `toUpperCase` on one character, for the ASCII letters. */
  function UpperChar(c: char): char {
    if 'a' <= c <= 'z' then (c as int - 32) as char else c
  }

  /** `toLowerCase` on one character, for the ASCII letters. */
  function LowerChar(c: char): char {
    if 'A' <= c <= 'Z' then (c as int + 32) as char else c
  }

  function Upper(s: string): (r: string)
    ensures |r| == |s|
    ensures forall i | 0 <= i < |s| :: r[i] == UpperChar(s[i])
  {
    seq(|s|, i requires 0 <= i < |s| => UpperChar(s[i]))
  }

  function Lower(s: string): (r: string)
    ensures |r| == |s|
    ensures forall i | 0 <= i < |s| :: r[i] == LowerChar(s[i])
  {
    seq(|s|, i requires 0 <= i < |s| => LowerChar(s[i]))
  }

  /** Lower-casing forgets whether a letter was upper-cased first. */
  lemma LowerUpper(s: string)
    ensures Lower(Upper(s)) == Lower(s)
  {
    assert forall i | 0 <= i < |s| :: LowerChar(UpperChar(s[i])) == LowerChar(s[i]);
  }

  /** Upper-casing a string that is already upper case changes nothing. */
  lemma UpperIdempotent(s: string)
    ensures Upper(Upper(s)) == Upper(s)
  {
  }

  predicate StartsWith(s: string, c: char) {
    |s| > 0 && s[0] == c
  }

  predicate EndsWith(s: string, c: char) {
    |s| > 0 && s[|s| - 1] == c
  }

  /** `needle` occurs in `hay` starting at index `i`. */
  predicate OccursAt(hay: string, needle: string, i: int) {
    0 <= i <= |hay| - |needle| && hay[i..i + |needle|] == needle
  }

  /** `hay.includes(needle)`. */
  predicate Contains(hay: string, needle: string) {
    exists i | 0 <= i <= |hay| - |needle| :: OccursAt(hay, needle, i)
  }

  /** A case-insensitive substring test, with ASCII case folding. */
  predicate ContainsFolded(hay: string, needle: string) {
    Contains(Lower(hay), Lower(needle))
  }

  /** JavaScript `a < b` on strings: the first differing code unit decides,
      and a proper prefix is smaller. */
  predicate Less(a: string, b: string) {
    if |a| == 0 then |b| > 0
    else if |b| == 0 then false
    else if a[0] != b[0] then a[0] < b[0]
    else Less(a[1..], b[1..])
  }

  lemma {:induction false} LessIrreflexive(a: string)
    ensures !Less(a, a)
  {
    if |a| > 0 {
      LessIrreflexive(a[1..]);
    }
  }

  lemma {:induction false} LessAsymmetric(a: string, b: string)
    ensures !(Less(a, b) && Less(b, a))
  {
    if |a| > 0 && |b| > 0 && a[0] == b[0] {
      LessAsymmetric(a[1..], b[1..]);
    }
  }

  lemma {:induction false} LessTransitive(a: string, b: string, c: string)
    requires Less(a, b) && Less(b, c)
    ensures Less(a, c)
  {
    if |a| > 0 && a[0] == b[0] && b[0] == c[0] {
      LessTransitive(a[1..], b[1..], c[1..]);
    }
  }

  /** Any two strings are equal or ordered one way. */
  lemma {:induction false} LessTrichotomy(a: string, b: string)
    ensures Less(a, b) || a == b || Less(b, a)
  {
    if |a| > 0 && |b| > 0 && a[0] == b[0] {
      LessTrichotomy(a[1..], b[1..]);
      if a[1..] == b[1..] {
        assert a == [a[0]] + a[1..] && b == [b[0]] + b[1..];
      }
    }
  }

  /** The textbook lexicographic order: `a` is a proper prefix of `b`, or
      the two agree up to a position where `a` has the smaller character. */
  predicate Lexicographic(a: string, b: string) {
    || (|a| < |b| && a == b[..|a|])
    || exists i | 0 <= i < |a| && i < |b| :: a[..i] == b[..i] && a[i] < b[i]
  }

  /** The character-by-character comparison is the lexicographic order. */
  lemma {:induction false} LessIsLexicographic(a: string, b: string)
    ensures Less(a, b) <==> Lexicographic(a, b)
  {
    if |a| == 0 || |b| == 0 {
    } else if a[0] != b[0] {
      assert forall i | 0 < i <= |a| && i <= |b| :: a[..i][0] == a[0] && b[..i][0] == b[0];
      if a[0] < b[0] {
        assert a[..0] == b[..0];
      }
    } else {
      LessIsLexicographic(a[1..], b[1..]);
      var a', b' := a[1..], b[1..];
      if Lexicographic(a', b') {
        if |a'| < |b'| && a' == b'[..|a'|] {
          assert a == [a[0]] + a' && b[..|a|] == [b[0]] + b'[..|a'|];
        } else {
          var i :| 0 <= i < |a'| && i < |b'| && a'[..i] == b'[..i] && a'[i] < b'[i];
          assert a[..i + 1] == [a[0]] + a'[..i] && b[..i + 1] == [b[0]] + b'[..i];
          assert a[i + 1] == a'[i] && b[i + 1] == b'[i];
        }
      }
      if Lexicographic(a, b) {
        if |a| < |b| && a == b[..|a|] {
          assert a' == b'[..|a'|];
        } else {
          var i :| 0 <= i < |a| && i < |b| && a[..i] == b[..i] && a[i] < b[i];
          assert i > 0;
          assert a'[..i - 1] == a[1..i] == b[1..i] == b'[..i - 1];
          assert a'[i - 1] < b'[i - 1];
        }
      }
    }
  }

  /** `a <= b` in the same order. */
  predicate AtMost(a: string, b: string) {
    !Less(b, a)
  }

  lemma AtMostTotal(a: string, b: string)
    ensures AtMost(a, b) || AtMost(b, a)
  {
    LessAsymmetric(a, b);
  }

  lemma AtMostTransitive(a: string, b: string, c: string)
    requires AtMost(a, b) && AtMost(b, c)
    ensures AtMost(a, c)
  {
    if Less(c, a) {
      LessTrichotomy(a, b);
      if Less(a, b) {
        LessTransitive(c, a, b);
      }
    }
  }

  /** `s.split(sep)` for a one-character separator: the pieces between
      separators, always at least one. */
  function Split(s: string, sep: char): (parts: seq<string>)
    ensures |parts| >= 1
    ensures forall i | 0 <= i < |parts| :: sep !in parts[i]
  {
    if s == [] then [[]]
    else
      var t := Split(s[1..], sep);
      if s[0] == sep then [[]] + t else [[s[0]] + t[0]] + t[1..]
  }

  /** `parts.join(sep)`. */
  function Join(parts: seq<string>, sep: char): string {
    if |parts| == 0 then []
    else if |parts| == 1 then parts[0]
    else parts[0] + [sep] + Join(parts[1..], sep)
  }

  /** Joining the pieces of a split gives back the original string. */
  lemma {:induction false} JoinSplit(s: string, sep: char)
    ensures Join(Split(s, sep), sep) == s
  {
    if s != [] {
      var t := Split(s[1..], sep);
      JoinSplit(s[1..], sep);
      if s[0] == sep {
        assert Split(s, sep) == [[]] + t;
      } else {
        var ps := Split(s, sep);
        assert ps == [[s[0]] + t[0]] + t[1..];
        if |t| == 1 {
          assert Join(ps, sep) == [s[0]] + t[0];
        } else {
          assert Join(t, sep) == t[0] + [sep] + Join(t[1..], sep);
          assert ps[1..] == t[1..];
        }
      }
    }
  }

  /** Splitting a join of separator-free pieces gives back the pieces. */
  lemma {:induction false} SplitJoin(parts: seq<string>, sep: char)
    requires |parts| >= 1
    requires forall i | 0 <= i < |parts| :: sep !in parts[i]
    ensures Split(Join(parts, sep), sep) == parts
  {
    if |parts| == 1 {
      SplitFree(parts[0], sep);
    } else {
      SplitJoin(parts[1..], sep);
      SplitAround(parts[0], sep, Join(parts[1..], sep));
      assert parts == [parts[0]] + parts[1..];
    }
  }

  /** A separator-free string splits into itself alone. */
  lemma {:induction false} SplitFree(s: string, sep: char)
    requires sep !in s
    ensures Split(s, sep) == [s]
  {
    if s != [] {
      SplitFree(s[1..], sep);
      assert s == [s[0]] + s[1..];
    }
  }

  /** Splitting `a + sep + b` for a separator-free `a`. */
  lemma {:induction false} SplitAround(a: string, sep: char, b: string)
    requires sep !in a
    ensures Split(a + [sep] + b, sep) == [a] + Split(b, sep)
  {
    if a == [] {
      assert a + [sep] + b == [sep] + b;
      assert ([sep] + b)[1..] == b;
    } else {
      SplitAround(a[1..], sep, b);
      var s := a + [sep] + b;
      assert s[0] == a[0] && s[1..] == a[1..] + [sep] + b;
      assert [a[0]] + a[1..] == a;
    }
  }

  /** Splitting `a + sep + b` is splitting `a` and `b` apart. */
  lemma {:induction false} SplitAppend(a: string, sep: char, b: string)
    ensures Split(a + [sep] + b, sep) == Split(a, sep) + Split(b, sep)
    decreases |a|
  {
    if a == [] {
      assert a + [sep] + b == [sep] + b;
      assert ([sep] + b)[1..] == b;
    } else {
      SplitAppend(a[1..], sep, b);
      SplitAppendStep(a, sep, b);
    }
  }

  lemma SplitAppendStep(a: string, sep: char, b: string)
    requires a != []
    requires Split(a[1..] + [sep] + b, sep) == Split(a[1..], sep) + Split(b, sep)
    ensures Split(a + [sep] + b, sep) == Split(a, sep) + Split(b, sep)
  {
    var c, rest := a[0], a[1..] + [sep] + b;
    var ta, tb := Split(a[1..], sep), Split(b, sep);
    Uncons(a, sep, b);
    if c == sep {
      calc {
        Split(a + [sep] + b, sep);
        { SplitCons(c, rest, sep); }
        [[]] + (ta + tb);
        ([[]] + ta) + tb;
        { SplitCons(c, a[1..], sep); }
        Split(a, sep) + tb;
      }
    } else {
      calc {
        Split(a + [sep] + b, sep);
        { SplitCons(c, rest, sep); }
        [[c] + (ta + tb)[0]] + (ta + tb)[1..];
        { HeadJoins(c, ta, tb); }
        ([[c] + ta[0]] + ta[1..]) + tb;
        { SplitCons(c, a[1..], sep); }
        Split(a, sep) + tb;
      }
    }
  }

  lemma Uncons(a: string, sep: char, b: string)
    requires a != []
    ensures a + [sep] + b == [a[0]] + (a[1..] + [sep] + b)
    ensures a == [a[0]] + a[1..]
  {
  }

  lemma HeadJoins(c: char, ta: seq<string>, tb: seq<string>)
    requires |ta| >= 1
    ensures [[c] + (ta + tb)[0]] + (ta + tb)[1..] == ([[c] + ta[0]] + ta[1..]) + tb
  {
    assert (ta + tb)[0] == ta[0] && (ta + tb)[1..] == ta[1..] + tb;
  }

  /** Splitting a string with a known first character. */
  lemma SplitCons(c: char, x: string, sep: char)
    ensures var t := Split(x, sep);
      Split([c] + x, sep) == if c == sep then [[]] + t else [[c] + t[0]] + t[1..]
  {
    assert ([c] + x)[0] == c && ([c] + x)[1..] == x;
  }

  /** A separator-free prefix joins the first piece. */
  lemma {:induction false} SplitPrefix(x: string, y: string, sep: char)
    requires sep !in x
    ensures Split(x + y, sep) == [x + Split(y, sep)[0]] + Split(y, sep)[1..]
    decreases |x|
  {
    var ys := Split(y, sep);
    if x == [] {
      assert x + y == y;
      assert x + ys[0] == ys[0];
      assert ys == [ys[0]] + ys[1..];
    } else {
      assert sep !in x[1..] by {
        assert forall i | 0 <= i < |x[1..]| :: x[1..][i] == x[i + 1];
      }
      SplitPrefix(x[1..], y, sep);
      var s := x + y;
      assert s[0] == x[0] && s[1..] == x[1..] + y;
      var t := Split(s[1..], sep);
      assert t == [x[1..] + ys[0]] + ys[1..];
      assert Split(s, sep) == [[x[0]] + t[0]] + t[1..];
      assert [x[0]] + (x[1..] + ys[0]) == x + ys[0];
    }
  }

  /** A character other than the separator joins the last piece. */
  lemma {:induction false} SplitSnoc(x: string, c: char, sep: char)
    requires c != sep
    ensures var t := Split(x, sep);
      Split(x + [c], sep) == t[..|t| - 1] + [t[|t| - 1] + [c]]
    decreases |x|
  {
    if x == [] {
      assert x + [c] == [c];
      assert [c][1..] == [];
      var e: string := [];
      assert Split(e, sep) == [[]];
      assert Split([c], sep) == [[c] + Split(e, sep)[0]] + Split(e, sep)[1..];
      assert [c] + Split(e, sep)[0] == [c] && Split(e, sep)[1..] == [];
      assert Split([c], sep) == [[c]];
      assert Split(x, sep)[..0] + [Split(x, sep)[0] + [c]] == [[c]];
    } else {
      SplitSnoc(x[1..], c, sep);
      var s := x + [c];
      assert s[0] == x[0] && s[1..] == x[1..] + [c];
      var t := Split(x[1..], sep);
      var u := Split(s[1..], sep);
      assert u == t[..|t| - 1] + [t[|t| - 1] + [c]];
      var last := t[|t| - 1] + [c];
      if x[0] == sep {
        assert Split(s, sep) == [[]] + u;
        assert Split(x, sep) == [[]] + t;
      } else if |t| == 1 {
        assert u == [last];
        assert Split(s, sep) == [[x[0]] + last];
        assert Split(x, sep) == [[x[0]] + t[0]];
        assert [x[0]] + last == ([x[0]] + t[0]) + [c];
        assert Split(x, sep)[..0] == [];
      } else {
        assert u[0] == t[0];
        assert t[..|t| - 1][1..] == t[1..|t| - 1];
        assert (t[..|t| - 1] + [last])[1..] == t[..|t| - 1][1..] + [last];
        assert u[1..] == t[1..|t| - 1] + [last];
        assert Split(s, sep) == [[x[0]] + t[0]] + (t[1..|t| - 1] + [last]);
        assert Split(x, sep) == [[x[0]] + t[0]] + t[1..];
      }
    }
  }

  /** The pieces of each string in turn. */
  function Pieces(xs: seq<string>, sep: char): seq<string> {
    if xs == [] then [] else Split(xs[0], sep) + Pieces(xs[1..], sep)
  }

  /** Splitting a join: every joined string contributes its own pieces. */
  lemma {:induction false} SplitJoinPieces(xs: seq<string>, sep: char)
    requires |xs| >= 1
    ensures Split(Join(xs, sep), sep) == Pieces(xs, sep)
    decreases |xs|
  {
    if |xs| == 1 {
      assert Pieces(xs, sep) == Split(xs[0], sep) + Pieces([], sep);
    } else {
      SplitJoinPieces(xs[1..], sep);
      SplitAppend(xs[0], sep, Join(xs[1..], sep));
    }
  }
}

=== FILE: user_routes.dfy ===
/** The user router's `/officers` listing, which needs no token. */
module UserRoutes {
  import opened Base
  import opened Models
  import opened Listing

  /** The projection `'fullname'`: the id and the fullname only. */
  datatype Officer = Officer(id: Id, fullname: string)

  /** `GET /officers`: every approved account, admins included, as id and
      fullname, by fullname ascending. */
  method Officers(users: map<Id, User>) returns (r: Reply<seq<Officer>>)
    ensures r.Ok? && r.code == 200
    ensures forall i | 0 <= i < |r.value| :: r.value[i].id in users && r.value[i].fullname == users[r.value[i].id].fullname
    ensures forall id :: (exists i | 0 <= i < |r.value| :: r.value[i].id == id) <==> id in users && users[id].isApproved
    ensures forall i, j | 0 <= i < j < |r.value| :: r.value[i].id != r.value[j].id
    ensures forall i, j | 0 <= i < j < |r.value| :: Text.AtMost(r.value[i].fullname, r.value[j].fullname)
  {
    SortOrdersArePreorders();
    var ids := Select(users, (u: User) => u.isApproved, ByFullname);
    var out: seq<Officer> := [];
    var n := 0;
    while n < |ids|
      invariant 0 <= n <= |ids| && |out| == n
      invariant forall i | 0 <= i < n :: out[i] == Officer(ids[i], users[ids[i]].fullname)
    {
      out := out + [Officer(ids[n], users[ids[n]].fullname)];
      n := n + 1;
    }
    forall id
      ensures (exists i | 0 <= i < |out| :: out[i].id == id) <==> id in users && users[id].isApproved
    {
      if id in ids {
        var i :| 0 <= i < |ids| && ids[i] == id;
        assert out[i].id == id;
      }
    }
    return Ok(200, out);
  }
}
